=== FILE: README.md ===
# rpm — a Dafny model of busybox `rpm`

This project models the core of busybox's `rpm` applet (`archival/rpm.c`):

- **Reading the package headers** (`rpm_gettags`). The model covers the
  96-byte lead and the two header sections, each opened by the magic bytes
  `8e ad e8 01`. The signature section's tags are renumbered by −743 and its
  data store is padded to 8 bytes. Record offsets become absolute. The mapping
  length is the end of the main store, taken up to the next page.
- **The tag accessors.** `bsearch_rpmtag` is modelled with its 32-bit
  wrap-around comparison. `rpm_getstr` yields NULL for an absent tag, an index
  past the count or a non-string record. `rpm_getint` yields −1 in the same
  cases and reads INT32, INT16 and INT8 records. `rpm_getcount` yields 0 for
  an absent tag.
- **The reflink installer** (`reflink_package`). The model covers:
  - the inode table, sorted by `compare_inodes`;
  - its in-place compaction to one entry per hard-link group, including the
    quirk that an empty package leaves one entry;
  - the `search_inode` lookup;
  - the page-aligned payload offset and the clone padding of
    `create_clone_from`;
  - the action each file gets: none for ghost files, a directory, a symlink,
    a "skip special file" line, a hard link to its group's first file, or a
    clone of its extent.
- **The per-file passes of `rpm_main`:**
  - `loop_through_files`, with the name `dirnames[dirindexes[i]]` +
    `basenames[i]`;
  - the configuration backup to `name.rpmorig`;
  - the `-l`/`-d`/`-c` file list.
- **The option handling of `rpm_main`:**
  - the fold of the options into `func`, the root, the prefix and the flags,
    including the usage errors;
  - the header directory;
  - the choice between installing, querying and rejecting;
  - the choice between a reflink payload and a cpio payload.

A read of the mapped image that C would make out of bounds is a `Fault`. Such
a read is undefined behaviour or SIGBUS in the program. `rpm_getstr` only
locates a string; the string itself is read, and can fault, only where the
code reads it (`%s`, `strlen`, `strncmp`). A NULL string printed
with `%s` reads as "(null)", as glibc prints it.

Modules, one per file:

| module | file | what |
|---|---|---|
| `Base` | base.dfy | Option/Result/Read, 32-bit conversions, big-endian words, bytes as text |
| `Search` | search.dfy | glibc-style `bsearch` over a partitioned array |
| `Header` | header.dfy | `rpm_gettags`: sections, records, padding, mapping size; encoder and round trips |
| `Tags` | tags.dfy | `bsearch_rpmtag`, `rpm_getstr`, `rpm_getint`, `rpm_getcount`; reads of stored arrays |
| `Hardlinks` | hardlinks.dfy | `compare_inodes`, `qsort`, group compaction, `search_inode` |
| `Reflink` | reflink.dfy | `create_clone_from` padding, `reflink_package` planner |
| `Files` | files.dfy | `loop_through_files`, `fileaction_dobackup`, the `-ql` listing |
| `Rpm` | rpm.dfy | option fold, usage checks, header directory, branch and payload choice |

## Model

| member | source | states |
|---|---|---|
| Base.BE32RoundTrip | archival/rpm.c:139-140 | `ntohl` of a word written in network order gives back the value |
| Base.BE32Bytes32 | archival/rpm.c:684-685 | every four bytes are the network-order encoding of the word they spell, so comparing the marker word is comparing its bytes |
| Base.BE16RoundTrip | archival/rpm.c:225-227 | `ntohs` of a halfword written in network order gives back the value |
| Search.BSearch | archival/rpm.c:187 | a hit is an element the comparator calls equal |
| Search.BSearchMisses | archival/rpm.c:187-189 | on an array partitioned around the key, the search misses exactly when no element compares equal |
| Search.PartitionedConcat | archival/rpm.c:143-154 | two partitioned arrays joined stay partitioned when every element of the first lies below the key |
| Header.Pad8 | archival/rpm.c:157-159 | the padded signature store size is a multiple of 8, at most 7 above the size, and wraps to 0 in unsigned arithmetic near 2^32 |
| Header.PadSignatureSize | archival/rpm.c:157-159 | the `while (size & 7) size++` loop ends with a multiple of 8 equal to the padded size |
| Header.MapSize | archival/rpm.c:166 | the mapping length is a whole number of pages; for an end below the last page of the 32-bit range it is strictly above the end and at most one page above; it is 0 exactly when the end lies in that last page, where the unsigned sum wraps |
| Header.ReadSection | archival/rpm.c:136-161 | a section fails with a short read exactly when its header does not fit, or its magic matches and its records do not fit; it fails with the bad-magic error exactly when the header fits and the four magic bytes differ; a section read has as many records as the header's count field, its data store right after them, and the next section at the store start plus the header's store size, padded to 8 in the signature pass only |
| Header.Decode | archival/rpm.c:113-175 | a decoded package has a non-zero, page-multiple mapping size, its store ends below the last page of the 32-bit range, and it maps a prefix of the file; a mapping length of 0 fails as the `mmap` call does |
| Header.MappedCoversEnd | archival/rpm.c:165-170 | the mapped image is the file cut to the mapping size, and the mapping covers the end of the main store |
| Header.EntryRoundTrip | archival/rpm.c:146-154 | an index record read back gives its tag (less 743 in the signature pass), kind and count, with the offset made absolute |
| Header.RecordsRoundTrip | archival/rpm.c:145-155 | a run of encoded index records reads back as the same records, resolved |
| Header.SectionRoundTrip | archival/rpm.c:132-161 | an encoded section reads back as its resolved records, its store start, and the next position with the store padded to 8 only in the signature pass |
| Header.DecodeOfSections | archival/rpm.c:113-175 | decoding is the two section reads in turn: the index is signature records then main records, and the mapping is sized from the main store end |
| Header.PackageParts | archival/rpm.c:127-161 | a package is laid out as lead, padded signature section, main section and payload, with each store at its computed position |
| Header.SignatureSectionRead | archival/rpm.c:132-161 | the first pass over an encoded package reads the signature section back |
| Header.MainSectionRead | archival/rpm.c:132-161 | the second pass over an encoded package reads the main section back |
| Header.DecodeWritten | archival/rpm.c:113-175 | an encoded package decodes to the merged, resolved records of its two sections, mapped up to the page past its main store, or fails when that mapping length wraps to 0 |
| Header.DecodePackage | archival/rpm.c:113-175 | an encoded package fails to map exactly when its main store ends in the last page of the 32-bit range; otherwise it decodes to the merged, resolved index, and its payload starts right after the main store |
| Tags.TagCmpZero | archival/rpm.c:177-182 | the comparator reports equality exactly when the record's tag is the key modulo 2^32 |
| Tags.TagCmpSign | archival/rpm.c:181 | for tags of moderate size, the wrapped difference has the sign of the true difference |
| Tags.FindTag | archival/rpm.c:187 | a record found carries the key's tag |
| Tags.FindTagMisses | archival/rpm.c:187-189 | on an index partitioned around the key, nothing is found exactly when no record carries the tag |
| Tags.SortedIsPartitioned | archival/rpm.c:177-182 | an index sorted by signed tag is partitioned around every moderate key |
| Tags.MergedIndexSearchable | archival/rpm.c:143-154 | the merged index is searchable for a key above every renumbered signature tag, when both sections are sorted |
| Tags.NulFromFirst | archival/rpm.c:196-197 | `strlen` stops at the first NUL at or after the start |
| Tags.NulFromFaults | archival/rpm.c:196-197 | `strlen` runs off the image exactly when no NUL follows the start |
| Tags.CStringSpec | archival/rpm.c:198 | the string returned is the NUL-free run of bytes before its terminator |
| Tags.SkipStringsCounts | archival/rpm.c:196-197 | skipping `n` strings passes exactly `n` NUL bytes |
| Tags.GetStrAt | archival/rpm.c:184-201 | `rpm_getstr` is NULL exactly for an absent tag, an index at or past the count, or a non-string record; otherwise it is the position after skipping `itemindex` strings, and it faults exactly when that skip runs off the image |
| Tags.GetStr | archival/rpm.c:184-201 | the string `rpm_getstr` yields, read in full: NULL in the same cases, otherwise the C string at the position reached, faulting exactly when the skip or the read of that string runs off the image |
| Tags.StrAt | archival/rpm.c:196-199 | what a pointer into the image sees is NUL-free; it is the whole C string exactly when a NUL follows, and otherwise runs to the end of the image |
| Tags.Located | archival/rpm.c:184-201 | the pointer `rpm_getstr` yields, with what it sees, faulting or NULL exactly when `rpm_getstr` does |
| Tags.Whole | archival/rpm.c:277-279 | reading a located string in full succeeds exactly when it is NULL or terminated, and then gives its text |
| Tags.WholeLocated | archival/rpm.c:184-201 | reading the located string in full is the string `rpm_getstr` yields |
| Tags.WholeDirAt | archival/rpm.c:277-278 | reading the located directory in full is `rpm_getstr(TAG_DIRNAMES, rpm_getint(TAG_DIRINDEXES, i))` |
| Tags.StringArrayRead | archival/rpm.c:196-198 | in a string array held at an offset, skipping `i` strings lands on string `i` and reads it whole |
| Tags.GetStrOfArray | archival/rpm.c:184-201 | `rpm_getstr(tag, i)` of a stored string array is its `i`-th string |
| Tags.GetInt | archival/rpm.c:209-234 | `rpm_getint` is −1 for an absent tag, an index past the count or a non-integer record; INT16 values are unsigned and INT8 values signed |
| Tags.Int32Back | archival/rpm.c:223 | a signed 32-bit value survives the trip through its unsigned bits |
| Tags.Int8Back | archival/rpm.c:231 | `*(int8_t *)` of a byte written from a signed 8-bit value gives the value back |
| Tags.GetIntOfInt32s | archival/rpm.c:220-224 | `rpm_getint(tag, i)` of a stored INT32 array is its `i`-th value |
| Tags.GetIntOfInt16s | archival/rpm.c:225-228 | `rpm_getint(tag, i)` of a stored INT16 array is its `i`-th value |
| Tags.GetIntOfInt8s | archival/rpm.c:229-232 | `rpm_getint(tag, i)` of a stored INT8 array is its `i`-th value |
| Tags.GetCount | archival/rpm.c:236-243 | `rpm_getcount` is 0 for an absent tag, else the record's count read as a signed int, so it always lies in the signed 32-bit range |
| Tags.GetCountAbsent | archival/rpm.c:239-241 | on a searchable index, a tag that no record carries counts zero |
| Hardlinks.CompareInodes | archival/rpm.c:322-331 | `compare_inodes` never returns 0, and returns −1 exactly when `(inode, fi)` comes first |
| Hardlinks.CompareInodesAntisymmetric | archival/rpm.c:322-331 | for distinct entries, swapping the arguments flips the answer |
| Hardlinks.SortIfi | archival/rpm.c:378 | sorting keeps the table's entries: it is a permutation |
| Hardlinks.SortSorted | archival/rpm.c:378 | the sorted table is in `compare_inodes` order |
| Hardlinks.SortedUnique | archival/rpm.c:378 | two sorted permutations of the same entries are equal, so `qsort`'s result is determined |
| Hardlinks.QsortOrder | archival/rpm.c:378 | every earlier entry of the sorted table compares −1 against every later one |
| Hardlinks.HeadsStep | archival/rpm.c:380-393 | scanning one more entry keeps it exactly when its inode differs from the previous one |
| Hardlinks.CompactInPlace | archival/rpm.c:379-394 | the compaction loop leaves the group heads in front, and counts one entry for an empty package |
| Hardlinks.HeadsIncreasing | archival/rpm.c:379-394 | the group heads of a sorted table have strictly increasing inodes |
| Hardlinks.HeadsLeast | archival/rpm.c:379-394 | each group head is the earliest entry with its inode |
| Hardlinks.HeadsCover | archival/rpm.c:379-394 | every inode of the table has a group head |
| Hardlinks.FindInode | archival/rpm.c:333-342 | a group head that `search_inode` finds carries the key |
| Hardlinks.FindInodeMisses | archival/rpm.c:451-453 | on the group heads, the search misses exactly when no head carries the inode |
| Hardlinks.GroupsShape | archival/rpm.c:378-394 | the group heads are increasing, each is the least entry of its inode, and each is an entry of the table |
| Hardlinks.GroupOf | archival/rpm.c:450-454 | every file's inode is found, at the first file with that inode, and a file is its group's head exactly when it is that first file |
| Hardlinks.FirstUnique | archival/rpm.c:450-454 | two files that share an inode and are both first with it are the same file |
| Hardlinks.GroupFindsFirst | archival/rpm.c:450-454 | the lookup for file `j` finds the first file that shares its inode |
| Reflink.Inodes | archival/rpm.c:374-377 | the inode column is read for every file, and faults exactly when one file's inode read faults |
| Reflink.Perms | archival/rpm.c:421 | `mode & 07777` keeps the low twelve bits of the mode |
| Reflink.DirPerms | archival/rpm.c:421-423 | a directory keeps its permission bits, and the owner bits become `rwx` for a non-root user |
| Reflink.RootAsWritten | archival/rpm.c:445 | the prefix C writes is the root when given and differs from the empty prefix when not |
| Reflink.Root | archival/rpm.c:646 | the corrected prefix is the root when given and empty otherwise |
| Reflink.Prefix | archival/rpm.c:420-459 | every path the planner makes starts with the root when one is given; without one it starts with "(null)" as the code is written, and with nothing once corrected |
| Reflink.UnsetRootPath | archival/rpm.c:445-448 | without a root, every directory and file path the code writes is the corrected path with "(null)" in front, so `/usr/bin/sh` is made at `(null)/usr/bin/sh` |
| Reflink.Filtered | archival/rpm.c:411-412 | a file is outside the prefix exactly when its directory does not start with the prefix; a non-empty prefix faults exactly on a NULL directory or on one with no NUL that matches the prefix as far as the image goes, since `strncmp` reads no further than the first difference |
| Reflink.ClonePad | archival/rpm.c:346 | the padding is under a page and brings the size to a whole number of pages |
| Reflink.AlignUp | archival/rpm.c:396-400 | the payload start is the first page boundary at or after the stream position |
| Reflink.NextOffsetAligned | archival/rpm.c:470-472 | from an aligned offset, the offset advances by the size plus its padding and stays page-aligned |
| Reflink.CloneLength | archival/rpm.c:346-356 | the cloned length is a whole number of pages, at least the size and under one page more |
| Reflink.PlaceRegular | archival/rpm.c:445-473 | a regular file outside the prefix acts on nothing when its step completes; one inside, when its step completes, gets exactly its directory and then either the clone of its whole pages from the current offset, at its full path and permission bits, if it heads its hard-link group, or else a link from the head's full path to its own; a clone is always the last action; a missing inode halts with "not found" and the offset moves only on completion |
| Reflink.LinkOrClone | archival/rpm.c:454-472 | once the search has found the group's entry, a later member links to the head (or, outside the prefix, does nothing) and the head is cloned unless outside the prefix; the offset moves past the file's pages only for the head, inside the prefix or not |
| Reflink.Place | archival/rpm.c:414-473 | a directory's step is exactly its full path made with its permissions, a symlink's exactly its directory and then the link, a special file's exactly the skip line, and a regular file is placed as above |
| Reflink.FileStep | archival/rpm.c:403-474 | a ghost file, and a filtered file that is not regular, does nothing, whether or not its strings can be read in full; a completed step makes a clone exactly when the file heads its group and lies inside the prefix, that clone being of its full path from the current offset over its whole pages; a later group member inside the prefix makes a link to its head; the offset advances by the file's clone extent or stays when the step halts |
| Reflink.GhostNameUnread | archival/rpm.c:405-409 | a ghost file whose base name has no NUL before the image ends is passed over, although reading that name in full faults |
| Reflink.GroupHeadIsFirst | archival/rpm.c:450-454 | over the real inode table, each file's lookup lands on the first file with its inode |
| Reflink.ClonedOncePerGroup | archival/rpm.c:454-472 | a file takes payload pages exactly when it is a regular, non-ghost file with a readable size that is first with its inode, and it takes them for its own size |
| Reflink.LinkTargetsFirst | archival/rpm.c:454-462 | every link made for a file points at the path of the earlier first file of its group |
| Reflink.StepNotFound | archival/rpm.c:451-453 | the "not found" halt happens only for a file whose inode has no group head |
| Reflink.GroupsFindAll | archival/rpm.c:451-453 | over the real inode table, every file's inode is found, so the "can not happen" die cannot happen |
| Reflink.Pages | archival/rpm.c:470-472 | a cloned file takes its size rounded up to whole pages, and other files take none |
| Reflink.StepClones | archival/rpm.c:467-472 | the clones of one file lie inside the extent it advances the offset over |
| Reflink.HandleFile | archival/rpm.c:403-474 | one iteration is the file's step: it moves the aligned offset by the file's pages, keeps it aligned, cannot hit the "not found" die, and clones only inside its extent |
| Reflink.RunStops | archival/rpm.c:403-474 | once the loop has stopped on a die, the later files change nothing |
| Reflink.RunPrefix | archival/rpm.c:403-474 | a loop that gets through `n` files got through every earlier count, and the earlier actions come first, in order |
| Reflink.RunIn | archival/rpm.c:403-474 | file `k`'s actions, taken from the offset the earlier files reached, follow theirs inside every completed longer loop |
| Reflink.RunYields | archival/rpm.c:403-474 | an action a file's step always makes when it completes is among the actions of every completed longer loop, at the offset the earlier files reached |
| Reflink.RunAccounts | archival/rpm.c:470-472 | over steps that keep the accounting, the offset stays aligned, a completed loop is at the start plus the pages of the files so far, and the clones take disjoint extents in order |
| Reflink.PlanAccounts | archival/rpm.c:403-474 | the file loop keeps the offset page-aligned, a completed loop ends at the start plus the whole pages of the files cloned so far, every clone lies in its own extent, and with every inode found it never stops on "not found" |
| Reflink.StepYieldsClone | archival/rpm.c:467-469 | the step of a group head inside the prefix, whenever it completes, makes the clone of its full path from its starting offset |
| Reflink.CloneIn | archival/rpm.c:403-474 | in a completed loop, each group head inside the prefix is cloned from its full path with its permission bits, from the start plus the whole pages of the files before it, over its own whole pages |
| Reflink.HeadCloned | archival/rpm.c:454-472 | a regular, non-ghost file with a readable size that is the first file of any kind to carry its inode is cloned at that size |
| Reflink.StepYieldsLink | archival/rpm.c:454-462 | the step of a later group member inside the prefix, whenever it completes, makes the link from the first file's full path to its own |
| Reflink.LinkAt | archival/rpm.c:403-474 | in a completed loop, each later member of a hard-link group inside the prefix is linked from the full path of the group's earlier first file to its own full path |
| Reflink.CloneCountAppend | archival/rpm.c:467-469 | the clones of two action lists joined are the clones of each, summed |
| Reflink.StepCloneCount | archival/rpm.c:467-469 | a completed step makes one clone for a group head inside the prefix and none for any other file |
| Reflink.RunCount | archival/rpm.c:403-474 | a completed loop makes the clones its steps make, summed |
| Reflink.PlanCloneCount | archival/rpm.c:403-474 | a completed loop makes exactly one clone per group head inside the prefix and none otherwise, so content is written once per hard-link group |
| Reflink.NextFile | archival/rpm.c:403-474 | one turn of the loop extends the fold by the file's step, and a step that stops ends the whole loop there |
| Reflink.PlanFiles | archival/rpm.c:403-474 | the file loop computes the fold over the files: it ends page-aligned at the start plus the sum of the clone extents when it completes, never stops on "not found", and keeps every clone inside its own range |
| Reflink.ReflinkPackage | archival/rpm.c:370-477 | a negative count fails the allocation and an unreadable inode stops before any action; otherwise the result is the file loop over the real hard-link groups from the aligned payload start, ending at that start plus all clone extents, with no "not found" die and every clone inside the payload range |
| Files.Served | archival/rpm.c:276 | the walk of a tag is served at most 2^32−1 strings |
| Files.ServedUntilNull | archival/rpm.c:276 | `rpm_getstr` yields NULL for the walked tag exactly at the served count |
| Files.FileNameOfArrays | archival/rpm.c:277-279 | over well-formed arrays, file `i`'s name is its directory name followed by its base name |
| Files.WalkStep | archival/rpm.c:276-281 | one turn of the walk either stops at the served count, faults exactly when its reads do, or adds a visit under the next file's name |
| Files.LoopThroughFiles | archival/rpm.c:273-283 | the walk calls the action once per served string, in order, with each file's name and number, and faults exactly when some step's reads fault |
| Files.ArraysWalkClean | archival/rpm.c:273-283 | over well-formed arrays, no step of the walk of the base names faults |
| Files.VisitsOfArrays | archival/rpm.c:273-283 | a complete walk visits each base name once, in order, under `dirnames[dirindexes[i]]` + `basenames[i]` |
| Files.BackupName | archival/rpm.c:255 | the saved name is the file name followed by `.rpmorig` |
| Files.BackupNameInjective | archival/rpm.c:255 | different files are saved under different names |
| Files.DoBackup | archival/rpm.c:245-261 | a file is backed up exactly when it is flagged as configuration and exists as a regular file: it is copied to its saved name and removed; every other file is untouched; the step faults exactly when the flags read faults |
| Files.BackupAll | archival/rpm.c:689-690 | each backup of the pass over complete visits saves a visited file under its saved name, and the pass faults exactly when some visit's flags read faults; the interleaved run that keeps the backups made before a fault is `Files.BackupFiles` |
| Files.BackupAllSaves | archival/rpm.c:689-690 | with every flags read served, the pass makes exactly the backups of the visits that are backed up when their turn comes, in visit order |
| Files.BackupAllFrom | archival/rpm.c:245-261 | the pass from visit `k`, over the files the earlier backups left, makes exactly the backups of the later visits that are backed up |
| Files.SavesWhenDistinct | archival/rpm.c:250-253 | when no name is visited twice and no visited name is another's saved name, a visit is backed up exactly when it is a configuration file that was a regular file from the start |
| Files.LeftPrefix | archival/rpm.c:245-261 | the backups of the first `k` visits, and so the files they leave, do not depend on the later visits |
| Files.SavedFromSnoc | archival/rpm.c:689-690 | one more visit adds its backup, if any, after those of the earlier visits |
| Files.BackupAllSnoc | archival/rpm.c:245-261 | the pass over one more visit keeps the earlier backups and backs the new visit up against the files they left |
| Files.PassSnoc | archival/rpm.c:276-281 | a visit whose walk step and backup step complete extends the pass by its own backup and the files it leaves |
| Files.BackupStep | archival/rpm.c:245-261 | one turn of the backup walk stops at the served count, faults exactly at a step whose walk or flags read faults, or extends the pass by the next visit |
| Files.BackupFiles | archival/rpm.c:273-283 | the walk with `fileaction_dobackup` backs each visit up as the walk makes it: it halts exactly when some served step faults, at the first such step, and the backups made before the halt are those of the pass over the completed visits |
| Files.LeftKeeps | archival/rpm.c:253-257 | under the same conditions, earlier backups leave a later visit's own name as it was |
| Files.BackupOnlyConfig | archival/rpm.c:250 | a file without the configuration flag is never backed up |
| Files.ListFilterMeaning | archival/rpm.c:746-756 | without `-d` and `-c` every file is listed; otherwise exactly the files that carry a requested kind |
| Files.ListStep | archival/rpm.c:744-759 | one turn of the list faults exactly when its reads do, and otherwise prints the file's line exactly when the filter passes it |
| Files.ListFiles | archival/rpm.c:741-761 | the list prints, in increasing file order, the name of each file below the count that passes the filter and of no other; without `-d`/`-c` it lists every file; it faults exactly when some step's reads fault |
| Files.ListIsVisits | archival/rpm.c:757-759 | the unfiltered list prints one line per file, each the name that `loop_through_files` passes to the action |
| Files.ListCountIsServed | archival/rpm.c:743 | for a string record of sane size, the list's count is the walk's count |
| Rpm.Apply | archival/rpm.c:592-638 | one option is a usage error exactly when it is unknown, or is `-q`/`-U` after a mode was set; options only add bits; the first mode option fixes the install/query bits; `-a` and `-r` set the root |
| Rpm.ApplyBit | archival/rpm.c:617-632 | a flag bit is set after an option exactly when it was set before or the option adds it |
| Rpm.Fold | archival/rpm.c:592-639 | parsing the options only ever adds bits |
| Rpm.FoldUsage | archival/rpm.c:605-637 | the options are rejected exactly when one of them is unknown, or is `-q`/`-U` after an earlier mode option |
| Rpm.FoldMode | archival/rpm.c:605-616 | the install/query bits are those of the first mode option |
| Rpm.FoldBit | archival/rpm.c:617-632 | a flag bit is set exactly when some option adds it |
| Rpm.DocOrConfigLists | archival/rpm.c:623-630 | `-d` and `-c` imply `-l` |
| Rpm.LastRootCons | archival/rpm.c:631-635 | the last-option-wins root can be computed front to back, one option at a time |
| Rpm.FoldRoot | archival/rpm.c:631-635 | the root is that of the last `-r` or `-a`, where `-a` falls through and sets it to NULL |
| Rpm.AllClearsRoot | archival/rpm.c:631-635 | `-r dir -a` ends with no root |
| Rpm.QueryInfoNotInstall | archival/rpm.c:609-616 | `-q -i` means query with info, not install |
| Rpm.Start | archival/rpm.c:640-644 | a parse that goes on has `-a` or a package operand |
| Rpm.StartUsage | archival/rpm.c:642-644 | parsed options are rejected exactly when there is neither `-a` nor an operand |
| Rpm.HeaderDir | archival/rpm.c:646 | the header directory ends with `/usr/lib/sysimage/rpm-headers` and is exactly that without a root |
| Rpm.HeaderDirUsesRoot | archival/rpm.c:646 | the header directory is the corrected root prefix followed by the directory name, not the "(null)" prefix |
| Rpm.FromHeaderDirMeaning | archival/rpm.c:648 | the installed headers are read exactly for a query without `-p` |
| Rpm.BranchOf | archival/rpm.c:677-765 | installing comes first, then querying, and anything else is a usage error |
| Rpm.BranchOfOptions | archival/rpm.c:677-698 | the run installs exactly when the first mode option is `-i` or `-U`, queries exactly when it is `-q`, and reads installed headers exactly for `-q` without `-p` |
| Rpm.ListSelects | archival/rpm.c:746-756 | the `-d`/`-c` bits select the listed files by their doc and config flags |
| Rpm.PayloadAt | archival/rpm.c:683-693 | the payload is a reflink payload just after the marker word exactly when the marker is there, a cpio payload at the same position otherwise, and a short read when four bytes are missing |

## Left out

- File and stream I/O (`xopen`, `xread`, `xlseek`, `mmap`). The package is a
  byte sequence and the mapping is its prefix. The zero fill of the last
  partial page of the mapping is not modelled: a read past the file's end is
  a `Fault`.
- The layout of `struct rpm_header` and the value of `RPM_HEADER_MAGICnVER`.
  These come from `rpm.h`, which is not part of this model. The model uses the
  usual layout: magic and version (4 bytes), reserved (4), entry count (4),
  store size (4). The magic bytes are `8e ad e8 01`.
- `install_header`, `extract_cpio` and `rpm2cpio`. These are the archive
  decoding and the header copy. The model only decides whether the payload is
  a reflink payload or a cpio one (`Rpm.PayloadAt`).
- File-system effects. Directory creation, symlink, link, clone, truncate,
  copy, remove and `umask` are actions or set updates, not effects. Failures
  of these calls, and their `bb_perror_msg_and_die` exits, are not modelled.
- `lstat` is a parameter: the set of paths that are regular files.
- `fileaction_setowngrp` is not modelled. It looks up the owner and group in
  the user database and changes the file's owner.
- The query printouts. This covers the name-version-release line and the
  `-qi` info block, with its time formatting.
- The loop over installed packages. The model leaves out the `readdir` loop,
  the name match against the operand at line 666, and the per-operand loop at
  the end. Only the choice of reading the header directory is modelled
  (`Rpm.FromHeaderDirMeaning`).
- `getopt_long` itself. The options arrive already split into a sequence of
  `Opt` values, one per parsed option, with their arguments.
- The `#if 0` debug code (`print_all_tags` and the hard-link trace).
- `concat_path_file` is modelled as plain concatenation. Package directory
  names end in `/`, so no separator is added.
- Allocation failure. The model fails an allocation only for a negative
  count. That is the case where `xmalloc` of `sizeof(ifi_t) * nfiles` cannot
  succeed.
- Reflink.ReflinkPackage: `off_t` is unbounded. The payload offset is not
  reduced modulo 2^63.
- Header.MapSize: the page size is fixed at 4096. Line 166 rounds with the
  run-time `G_pagesize` (lines 107-108), which is a compile-time constant
  on most architectures and `sysconf(_SC_PAGESIZE)` on those with a variable
  page size. The reflink install (line 314) uses 4096 in any case.
- Reflink.FileStep: a file that is neither a ghost nor a skipped
  non-regular file has its directory and base name read in full before its
  first action. For a symlink, and for a regular file inside the prefix, the
  program makes the directory (lines 429-431, 443-445) before it reads the
  base name. So when only the base name has no NUL before the image ends,
  the program stops after making that directory, while the model stops
  with no action.
- A `link` that fails is not modelled. A later member of a hard-link group
  that lies inside `--only-prefix`, while its group's first file lies
  outside, gets the link action to the first file's path (line 461). That
  path was never made, so in the program the call fails and line 462 dies
  with "failed to link". The model records the action and goes on.
- Files.ListCountIsServed: stated only for a string record with a count below
  2^31. For a larger count, `rpm_getcount` goes negative and the list prints
  nothing.
- Where the description of the program and the code disagree, the model
  follows the code:
  - When the end of the store lies more than a page below 2^32, the mapping
    length goes past it, by a full page when the end is already page-aligned
    (line 166). It is not a plain round-up. When the end lies in the last
    page of the 32-bit range, the unsigned sum wraps, the length is 0, and
    the model fails with `MapFailed`, as the `mmap` call of line 170 does.
  - Without `--root`, every path of the reflink install starts with
    "(null)" (lines 420, 430, 433, 445 and 459). The planner takes a flag,
    `asWritten`, that chooses between that prefix and the empty one; see
    "## Findings".

## Findings

| source | as written | input that shows it | evidently intended | confidence | as-written member | corrected member |
|---|---|---|---|---|---|---|
| archival/rpm.c:445 | `reflink_package` formats every path with `%s` of `G.install_root`, which stays NULL when `--root` is not given, so glibc writes "(null)" | `rpm -i pkg.rpm` without `-r`, for a reflink package holding `/usr/bin/sh`: the file is made at `(null)/usr/bin/sh` relative to the working directory | an empty prefix, as line 646 does when forming the header directory | not executed; high, assuming glibc's `printf` | Reflink.UnsetRootPath | Reflink.Root |

=== FILE: base.dfy ===
/**
 * Shared vocabulary of the rpm applet model: optional values, results with
 * an error channel, reads of the mapped package image, and the 32-bit
 * machine arithmetic of the C code (unsigned wrap-around, two's complement
 * conversion, network byte order).
 */
module Base {

  /** A C pointer that may be NULL, or a value that may be absent. */
  datatype Option<+T> = None | Some(value: T) {
    function GetOr(default: T): T {
      match this
      case Some(v) => v
      case None => default
    }
  }

  /** A computation that either succeeds or dies with a diagnostic. */
  datatype Result<+R, +E> = Success(value: R) | Failure(error: E) {
    predicate IsFailure() {
      Failure?
    }

    function PropagateFailure<U>(): Result<U, E>
      requires Failure?
    {
      Failure(error)
    }

    function Extract(): R
      requires Success?
    {
      value
    }
  }

  /**
   * A value read through the memory mapping of the package. `Fault` stands
   * for a dereference outside the mapped bytes of the file, which the C code
   * does not guard against (undefined behaviour, in practice SIGBUS/SIGSEGV).
   */
  datatype Read<+T> = Ok(value: T) | Fault {
    predicate IsFailure() {
      Fault?
    }

    function PropagateFailure<U>(): Read<U>
      requires Fault?
    {
      Fault
    }

    function Extract(): T
      requires Ok?
    {
      value
    }
  }

  const Two32: int := 0x1_0000_0000
  const Two31: int := 0x8000_0000

  /** One byte of the package file. */
  type byte = b: int | 0 <= b < 0x100

  /** The values of a C `uint32_t`. */
  type U32 = x: int | 0 <= x < 0x1_0000_0000

  /** Conversion of any integer to `uint32_t`: reduction modulo 2^32. */
  function ToU32(x: int): (r: U32)
    ensures (r - x) % Two32 == 0
    ensures 0 <= x < Two32 ==> r == x
  {
    x % Two32
  }

  /** Conversion of a `uint32_t` to a 32-bit `int` (two's complement). */
  function ToInt32(x: U32): (r: int)
    ensures -Two31 <= r < Two31
    ensures ToU32(r) == x
  {
    if x < Two31 then x else x - Two32
  }

  /** The low 32 bits of an integer, for the C code's bit tests. */
  function Bits(x: int): bv32 {
    ToU32(x) as bv32
  }

  function Min(a: int, b: int): int {
    if a <= b then a else b
  }

  /** Big-endian (network order) decoding of four bytes: `ntohl`. */
  function BE32(b: seq<byte>): U32
    requires |b| == 4
  {
    (b[0] as int) * 0x100_0000 + (b[1] as int) * 0x1_0000 + (b[2] as int) * 0x100 + (b[3] as int)
  }

  /** Big-endian decoding of two bytes: `ntohs`. */
  function BE16(b: seq<byte>): int
    requires |b| == 2
  {
    (b[0] as int) * 0x100 + (b[1] as int)
  }

  /** The four network-order bytes of a 32-bit value: `htonl`. */
  function BE32Bytes(x: U32): (r: seq<byte>)
    ensures |r| == 4
  {
    var lo := x / 0x100;
    var mid := lo / 0x100;
    [ (mid / 0x100), (mid % 0x100), (lo % 0x100), (x % 0x100) ]
  }

  /** The two network-order bytes of a 16-bit value: `htons`. */
  function BE16Bytes(x: int): (r: seq<byte>)
    requires 0 <= x < 0x1_0000
    ensures |r| == 2
  {
    [ (x / 0x100), (x % 0x100) ]
  }

  lemma BE32RoundTrip(x: U32)
    ensures BE32(BE32Bytes(x)) == x
  {
    var lo := x / 0x100;
    var mid := lo / 0x100;
    var top := mid / 0x100;
    var b := BE32Bytes(x);
    assert b[0] == top;
    assert b[1] == mid % 0x100;
    assert b[2] == lo % 0x100;
    assert b[3] == x % 0x100;
    calc {
      BE32(b);
      (b[0] as int) * 0x100_0000 + (b[1] as int) * 0x1_0000 + (b[2] as int) * 0x100 + (b[3] as int);
      top * 0x100_0000 + (mid % 0x100) * 0x1_0000 + (lo % 0x100) * 0x100 + x % 0x100;
      ((top * 0x100 + mid % 0x100) * 0x100 + lo % 0x100) * 0x100 + x % 0x100;
      (mid * 0x100 + lo % 0x100) * 0x100 + x % 0x100;
      lo * 0x100 + x % 0x100;
      x;
    }
  }

  /** The other direction: four bytes are the network-order bytes of their value. */
  lemma BE32Bytes32(b: seq<byte>)
    requires |b| == 4
    ensures BE32Bytes(BE32(b)) == b
  {
    var x := BE32(b);
    var lo := x / 0x100;
    var mid := lo / 0x100;
    var b0, b1, b2, b3 := b[0] as int, b[1] as int, b[2] as int, b[3] as int;
    assert x == ((b0 * 0x100 + b1) * 0x100 + b2) * 0x100 + b3;
    assert lo == (b0 * 0x100 + b1) * 0x100 + b2;
    assert mid == b0 * 0x100 + b1;
    assert mid / 0x100 == b0;
  }

  lemma BE16RoundTrip(x: int)
    requires 0 <= x < 0x1_0000
    ensures BE16(BE16Bytes(x)) == x
  {
    var b := BE16Bytes(x);
    assert x == (x / 0x100) * 0x100 + x % 0x100;
    assert b[0] == x / 0x100;
    assert b[1] == x % 0x100;
  }

  /** A C string's bytes viewed as text (each byte one character). */
  function Text(bs: seq<byte>): (s: string)
    ensures |s| == |bs|
  {
    seq(|bs|, k requires 0 <= k < |bs| => bs[k] as char)
  }

  /**
   * What glibc's `printf("%s", p)` family writes for a possibly NULL
   * string: the string itself, or "(null)".
   */
  function Show(p: Option<string>): string {
    match p
    case Some(s) => s
    case None => "(null)"
  }
}

=== FILE: files.dfy ===
/**
 * The per-file passes of `rpm_main` outside the reflink planner: the walk of
 * `loop_through_files` that hands every file name of the package to an
 * action, the backup of existing configuration files done before a cpio
 * install (`fileaction_dobackup`), and the file list printed by `rpm -ql`,
 * `-qd` and `-qc`.
 */
module Files {
  import opened Base
  import opened Header
  import opened Tags

  /** `func` bits of `rpm_main` the list filter looks at. */
  const QueryListDoc: int := 32
  const QueryListConfig: int := 64

  // ----- loop_through_files -----

  /**
   * The name built for file `i`: `xasprintf("%s%s", dir, base)` of its
   * directory (through the directory index) and its base name, with a NULL
   * part printed as "(null)".
   */
  function FileName(st: TagStore, i: int): Read<string> {
    match (DirOf(st, i), AsText(GetStr(st, TagBaseNames, i)))
    case (Ok(d), Ok(n)) => Ok(Show(d) + Show(n))
    case _ => Fault
  }

  /** One call of the action: the file name and the file's number. */
  datatype Visit = Visit(name: string, ref: nat)

  /** How many strings `rpm_getstr` serves for `tag`: the count of a string record, else none. */
  function Served(st: TagStore, tag: int): (r: nat)
    ensures r < Two32
  {
    match FindTag(st.index, tag)
    case None => 0
    case Some(k) => if IsStringKind(st.index[k].kind) then st.index[k].count else 0
  }

  /** `rpm_getstr` yields NULL for `tag` exactly from the served count on. */
  lemma ServedUntilNull(st: TagStore, tag: int, count: nat)
    requires count <= Served(st, tag)
    ensures GetStrAt(st, tag, count) == Ok(None) <==> count == Served(st, tag)
  {
  }

  /** `tag` is a string array record holding `strs`. */
  ghost predicate HoldsStrings(st: TagStore, tag: int, strs: seq<seq<byte>>) {
    && FindTag(st.index, tag).Some?
    && var e := st.index[FindTag(st.index, tag).value];
       && IsStringKind(e.kind) && e.count == |strs| && HoldsAt(st.image, e.offset, StringsBytes(strs))
       && forall j :: 0 <= j < |strs| ==> NulFree(strs[j])
  }

  /** `tag` is an INT32 array record holding `vs`. */
  ghost predicate HoldsInt32s(st: TagStore, tag: int, vs: seq<int>) {
    && FindTag(st.index, tag).Some?
    && var e := st.index[FindTag(st.index, tag).value];
       e.kind == Int32Type && e.count == |vs| && HoldsAt(st.image, e.offset, Int32sBytes(vs)) && Int32Values(vs)
  }

  /**
   * The name of file `i` is `dirnames[dirindexes[i]]` followed by
   * `basenames[i]`, when the three arrays are in the store.
   */
  lemma FileNameOfArrays(st: TagStore, dirs: seq<seq<byte>>, idx: seq<int>, bases: seq<seq<byte>>, i: nat)
    requires HoldsStrings(st, TagDirNames, dirs) && HoldsInt32s(st, TagDirIndexes, idx)
    requires HoldsStrings(st, TagBaseNames, bases)
    requires i < |bases| && i < |idx| && 0 <= idx[i] < |dirs|
    ensures FileName(st, i) == Ok(Text(dirs[idx[i]]) + Text(bases[i]))
  {
    GetIntOfInt32s(st, TagDirIndexes, idx, i);
    GetStrOfArray(st, TagDirNames, dirs, idx[i]);
    GetStrOfArray(st, TagBaseNames, bases, i);
  }

  /** The arrays `loop_through_files` walks: directory names, directory indexes, base names. */
  ghost predicate FileArrays(st: TagStore, dirs: seq<seq<byte>>, idx: seq<int>, bases: seq<seq<byte>>) {
    && HoldsStrings(st, TagDirNames, dirs) && HoldsInt32s(st, TagDirIndexes, idx)
    && HoldsStrings(st, TagBaseNames, bases)
    && |idx| == |bases| && forall j :: 0 <= j < |idx| ==> 0 <= idx[j] < |dirs|
  }

  /** The visit carries the name `loop_through_files` builds for its file. */
  ghost predicate NamedAt(st: TagStore, v: Visit) {
    FileName(st, v.ref) == Ok(v.name)
  }

  /** `vs` are visits of the first `|vs|` files, in order, each under its file's name. */
  ghost predicate Named(st: TagStore, vs: seq<Visit>) {
    forall k :: 0 <= k < |vs| ==> vs[k].ref == k && NamedAt(st, vs[k])
  }

  lemma NamedSnoc(st: TagStore, vs: seq<Visit>, name: string)
    requires Named(st, vs) && FileName(st, |vs|) == Ok(name)
    ensures Named(st, vs + [Visit(name, |vs|)])
  {
    var ws := vs + [Visit(name, |vs|)];
    assert NamedAt(st, ws[|vs|]);
    forall k | 0 <= k < |vs|
      ensures ws[k].ref == k && NamedAt(st, ws[k])
    {
      assert ws[k] == vs[k];
    }
  }

  /**
   * Step `i` of the walk of `tag` reads outside the image: the strings the
   * test pointer skips, or the name of a file it visits.
   */
  ghost predicate WalkFaults(st: TagStore, tag: int, i: int) {
    GetStrAt(st, tag, i).Fault? || (GetStrAt(st, tag, i) != Ok(None) && FileName(st, i).Fault?)
  }

  /**
   * One turn of the walk after the visits `vs`: `Ok(None)` when `rpm_getstr`
   * yields NULL, else the visits with the next file's call added.
   */
  method WalkStep(st: TagStore, tag: int, vs: seq<Visit>) returns (r: Read<Option<seq<Visit>>>)
    requires |vs| <= Served(st, tag) && Named(st, vs)
    ensures r.Fault? <==> WalkFaults(st, tag, |vs|)
    ensures r == Ok(None) <==> |vs| == Served(st, tag) && !WalkFaults(st, tag, |vs|)
    ensures r.Ok? && r.value.Some? ==>
              && |vs| < Served(st, tag)
              && |r.value.value| == |vs| + 1 && r.value.value[..|vs|] == vs
              && Named(st, r.value.value)
  {
    var count := |vs|;
    ServedUntilNull(st, tag, count);
    var s := GetStrAt(st, tag, count);
    if s.Fault? {
      return Fault;
    }
    if s.value.None? {
      return Ok(None);
    }
    var name := FileName(st, count);
    if name.Fault? {
      return Fault;
    }
    NamedSnoc(st, vs, name.value);
    var ws := vs + [Visit(name.value, count)];
    assert ws[..|vs|] == vs;
    return Ok(Some(ws));
  }

  /**
   * `loop_through_files(tag, action)`: the calls of the action, in order,
   * one per string of `tag` until `rpm_getstr` yields NULL; every call gets
   * the name of the file with the same number. The walk faults exactly when
   * one of its steps reads outside the image.
   */
  method LoopThroughFiles(st: TagStore, tag: int) returns (r: Read<seq<Visit>>)
    ensures r.Ok? ==> |r.value| == Served(st, tag) && Named(st, r.value)
    ensures r.Fault? <==> exists i :: 0 <= i < Served(st, tag) && WalkFaults(st, tag, i)
  {
    var vs: seq<Visit> := [];
    while true
      invariant |vs| <= Served(st, tag) && Named(st, vs)
      invariant forall i :: 0 <= i < |vs| ==> !WalkFaults(st, tag, i)
      decreases Served(st, tag) - |vs|
    {
      var step := WalkStep(st, tag, vs);
      match step
      case Fault =>
        return Fault;
      case Ok(None) =>
        return Ok(vs);
      case Ok(Some(ws)) =>
        vs := ws;
    }
  }

  /** The walk serves exactly the base names. */
  lemma ServedBases(st: TagStore, dirs: seq<seq<byte>>, idx: seq<int>, bases: seq<seq<byte>>)
    requires FileArrays(st, dirs, idx, bases)
    ensures Served(st, TagBaseNames) == |bases|
  {
  }

  /** Over well-formed file arrays, no step of the walk of the base names faults. */
  lemma ArraysWalkClean(st: TagStore, dirs: seq<seq<byte>>, idx: seq<int>, bases: seq<seq<byte>>)
    requires FileArrays(st, dirs, idx, bases)
    ensures forall i :: 0 <= i < Served(st, TagBaseNames) ==> !WalkFaults(st, TagBaseNames, i)
  {
    ServedBases(st, dirs, idx, bases);
    forall i | 0 <= i < |bases|
      ensures !WalkFaults(st, TagBaseNames, i)
    {
      GetStrOfArray(st, TagBaseNames, bases, i);
      FileNameOfArrays(st, dirs, idx, bases, i);
    }
  }

  /** A complete walk of the base names visits every file once, in order, under `dirnames[dirindexes[i]]` + `basenames[i]`. */
  lemma VisitsOfArrays(st: TagStore, dirs: seq<seq<byte>>, idx: seq<int>, bases: seq<seq<byte>>, vs: seq<Visit>)
    requires FileArrays(st, dirs, idx, bases)
    requires |vs| == Served(st, TagBaseNames) && Named(st, vs)
    ensures |vs| == |bases|
    ensures forall k :: 0 <= k < |vs| ==> vs[k] == Visit(Text(dirs[idx[k]]) + Text(bases[k]), k)
  {
    ServedBases(st, dirs, idx, bases);
    forall k | 0 <= k < |vs|
      ensures vs[k] == Visit(Text(dirs[idx[k]]) + Text(bases[k]), k)
    {
      assert NamedAt(st, vs[k]);
      FileNameOfArrays(st, dirs, idx, bases, k);
    }
  }

  // ----- fileaction_dobackup -----

  /** A configuration file moved aside: copied to `to`, then removed. */
  datatype Backup = Backup(from: string, to: string)

  /** The name an existing configuration file is saved under. */
  function BackupName(path: string): (r: string)
    ensures |r| == |path| + 8 && r[..|path|] == path && r[|path|..] == ".rpmorig"
  {
    path + ".rpmorig"
  }

  /** Different files are saved under different names. */
  lemma BackupNameInjective(a: string, b: string)
    requires BackupName(a) == BackupName(b)
    ensures a == b
  {
    assert a == BackupName(a)[..|a|];
    assert b == BackupName(b)[..|b|];
  }

  /**
   * `fileaction_dobackup` for one visit, where `regular` holds the paths
   * that `lstat` finds as regular files: a configuration file that exists
   * as a regular file is saved; the file system then has the saved name
   * instead of the original one.
   */
  function DoBackup(st: TagStore, v: Visit, regular: set<string>): (r: Read<(Option<Backup>, set<string>)>)
    ensures r.Ok? && r.value.0.Some? ==>
              && r.value.0.value == Backup(v.name, BackupName(v.name))
              && v.name in regular && GetInt(st, TagFileFlags, v.ref).Ok?
              && HasFlag(GetInt(st, TagFileFlags, v.ref).value, FileConfig)
              && r.value.1 == regular - {v.name} + {BackupName(v.name)}
    ensures r.Ok? && r.value.0.None? ==> r.value.1 == regular
    ensures r.Fault? <==> GetInt(st, TagFileFlags, v.ref).Fault?
    ensures r.Ok? ==> (r.value.0.Some? <==> HasFlag(GetInt(st, TagFileFlags, v.ref).value, FileConfig) && v.name in regular)
  {
    match GetInt(st, TagFileFlags, v.ref)
    case Fault => Fault
    case Ok(flags) =>
      if HasFlag(flags, FileConfig) && v.name in regular then
        Ok((Some(Backup(v.name, BackupName(v.name))), regular - {v.name} + {BackupName(v.name)}))
      else Ok((None, regular))
  }

  /** The backup pass over the visits, in order, each seeing the files earlier steps left. */
  function BackupAll(st: TagStore, vs: seq<Visit>, regular: set<string>): (r: Read<seq<Backup>>)
    ensures r.Ok? ==> |r.value| <= |vs|
    ensures r.Ok? ==> forall b :: b in r.value ==> b.to == BackupName(b.from) && exists v :: v in vs && v.name == b.from
    ensures r.Fault? <==> exists k :: 0 <= k < |vs| && GetInt(st, TagFileFlags, vs[k].ref).Fault?
    decreases |vs|
  {
    if vs == [] then Ok([])
    else
      match DoBackup(st, vs[0], regular)
      case Fault => Fault
      case Ok((b, after)) =>
        match BackupAll(st, vs[1..], after)
        case Fault =>
          assert exists k :: 0 <= k < |vs| && GetInt(st, TagFileFlags, vs[k].ref).Fault? by {
            var k :| 0 <= k < |vs[1..]| && GetInt(st, TagFileFlags, vs[1..][k].ref).Fault?;
            assert vs[k + 1] == vs[1..][k];
          }
          Fault
        case Ok(rest) =>
          assert forall x :: x in rest ==> x.to == BackupName(x.from) && exists v :: v in vs && v.name == x.from by {
            forall x | x in rest
              ensures exists v :: v in vs && v.name == x.from
            {
              var v :| v in vs[1..] && v.name == x.from;
              assert v in vs;
            }
          }
          assert forall k :: 0 <= k < |vs| ==> GetInt(st, TagFileFlags, vs[k].ref).Ok? by {
            forall k | 0 <= k < |vs|
              ensures GetInt(st, TagFileFlags, vs[k].ref).Ok?
            {
              if k > 0 {
                assert vs[k] == vs[1..][k - 1];
              }
            }
          }
          match b
          case Some(bk) => Ok([bk] + rest)
          case None => Ok(rest)
  }

  /** Every visit's flags can be read. */
  ghost predicate FlagsRead(st: TagStore, vs: seq<Visit>) {
    forall k :: 0 <= k < |vs| ==> GetInt(st, TagFileFlags, vs[k].ref).Ok?
  }

  /** The regular files before visit `k`: what the backups of the first `k` visits left. */
  ghost function Left(st: TagStore, vs: seq<Visit>, regular: set<string>, k: nat): set<string>
    requires k <= |vs| && FlagsRead(st, vs)
    decreases k, 0
  {
    if k == 0 then regular
    else
      var before := Left(st, vs, regular, k - 1);
      if Saves(st, vs, regular, k - 1) then before - {vs[k - 1].name} + {BackupName(vs[k - 1].name)} else before
  }

  /** Visit `k` is backed up: a configuration file still found as a regular file when its turn comes. */
  ghost predicate Saves(st: TagStore, vs: seq<Visit>, regular: set<string>, k: nat)
    requires k < |vs| && FlagsRead(st, vs)
    decreases k, 1
  {
    HasFlag(GetInt(st, TagFileFlags, vs[k].ref).value, FileConfig) && vs[k].name in Left(st, vs, regular, k)
  }

  /** The backups of the visits from `k` on that are backed up, in visit order. */
  ghost function SavedFrom(st: TagStore, vs: seq<Visit>, regular: set<string>, k: nat): seq<Backup>
    requires k <= |vs| && FlagsRead(st, vs)
    decreases |vs| - k
  {
    if k == |vs| then []
    else
      (if Saves(st, vs, regular, k) then [Backup(vs[k].name, BackupName(vs[k].name))] else [])
      + SavedFrom(st, vs, regular, k + 1)
  }

  /**
   * With every flags read served, the backup pass makes exactly the backups
   * of the visits that are backed up, in visit order.
   */
  lemma {:induction false} BackupAllSaves(st: TagStore, vs: seq<Visit>, regular: set<string>)
    requires FlagsRead(st, vs)
    ensures BackupAll(st, vs, regular) == Ok(SavedFrom(st, vs, regular, 0))
  {
    BackupAllFrom(st, vs, regular, 0);
    assert vs[0..] == vs;
  }

  lemma {:induction false} BackupAllFrom(st: TagStore, vs: seq<Visit>, regular: set<string>, k: nat)
    requires k <= |vs| && FlagsRead(st, vs)
    ensures BackupAll(st, vs[k..], Left(st, vs, regular, k)) == Ok(SavedFrom(st, vs, regular, k))
    decreases |vs| - k
  {
    if k < |vs| {
      var w, left := vs[k..], Left(st, vs, regular, k);
      BackupAllFrom(st, vs, regular, k + 1);
      assert w[1..] == vs[k + 1..];
      assert w[0] == vs[k];
      var b := if Saves(st, vs, regular, k) then Some(Backup(vs[k].name, BackupName(vs[k].name))) else None;
      assert DoBackup(st, w[0], left) == Ok((b, Left(st, vs, regular, k + 1)));
      var rest := SavedFrom(st, vs, regular, k + 1);
      assert BackupAll(st, w[1..], Left(st, vs, regular, k + 1)) == Ok(rest);
      if Saves(st, vs, regular, k) {
        assert SavedFrom(st, vs, regular, k) == [b.value] + rest;
      } else {
        assert SavedFrom(st, vs, regular, k) == [] + rest == rest;
      }
    } else {
      assert vs[k..] == [];
    }
  }

  /**
   * When no visited name is another's saved name and no name is visited
   * twice, the files a backup removes or adds never matter to a later
   * visit: visit `k` is backed up exactly when it is a configuration file
   * that was a regular file from the start.
   */
  lemma {:induction false} SavesWhenDistinct(st: TagStore, vs: seq<Visit>, regular: set<string>, k: nat)
    requires k < |vs| && FlagsRead(st, vs)
    requires forall a, b :: 0 <= a < b < |vs| ==> vs[a].name != vs[b].name
    requires forall a, b :: 0 <= a < |vs| && 0 <= b < |vs| ==> vs[a].name != BackupName(vs[b].name)
    ensures Saves(st, vs, regular, k) <==>
              HasFlag(GetInt(st, TagFileFlags, vs[k].ref).value, FileConfig) && vs[k].name in regular
  {
    LeftKeeps(st, vs, regular, k, k);
  }

  /** Under the same conditions, the first `j` backups leave visit `k`'s own name as it was. */
  lemma {:induction false} LeftKeeps(st: TagStore, vs: seq<Visit>, regular: set<string>, j: nat, k: nat)
    requires j <= k < |vs| && FlagsRead(st, vs)
    requires forall a, b :: 0 <= a < b < |vs| ==> vs[a].name != vs[b].name
    requires forall a, b :: 0 <= a < |vs| && 0 <= b < |vs| ==> vs[a].name != BackupName(vs[b].name)
    ensures vs[k].name in Left(st, vs, regular, j) <==> vs[k].name in regular
  {
    if j > 0 {
      LeftKeeps(st, vs, regular, j - 1, k);
      assert vs[j - 1].name != vs[k].name;
      assert vs[k].name != BackupName(vs[j - 1].name);
    }
  }

  /** The backups of the first `k` visits depend only on those visits. */
  lemma {:induction false} LeftPrefix(st: TagStore, vs: seq<Visit>, ws: seq<Visit>, regular: set<string>, k: nat)
    requires |vs| <= |ws| && ws[..|vs|] == vs && k <= |vs|
    requires FlagsRead(st, vs) && FlagsRead(st, ws)
    ensures Left(st, vs, regular, k) == Left(st, ws, regular, k)
    ensures k < |vs| ==> (Saves(st, vs, regular, k) <==> Saves(st, ws, regular, k))
  {
    if k > 0 {
      LeftPrefix(st, vs, ws, regular, k - 1);
      assert ws[k - 1] == vs[k - 1];
    }
    if k < |vs| {
      assert ws[k] == vs[k];
    }
  }

  /** One more visit adds its own backup, if any, after those of the earlier visits. */
  lemma {:induction false} SavedFromSnoc(st: TagStore, vs: seq<Visit>, v: Visit, regular: set<string>, k: nat)
    requires k <= |vs| && FlagsRead(st, vs) && FlagsRead(st, vs + [v])
    ensures SavedFrom(st, vs + [v], regular, k) == SavedFrom(st, vs, regular, k) + SavedFrom(st, vs + [v], regular, |vs|)
    decreases |vs| - k
  {
    var ws := vs + [v];
    assert ws[..|vs|] == vs;
    if k < |vs| {
      SavedFromSnoc(st, vs, v, regular, k + 1);
      LeftPrefix(st, vs, ws, regular, k);
      assert ws[k] == vs[k];
    }
  }

  /** The backup a step made, as a list of zero or one backups. */
  function Made(b: Option<Backup>): (r: seq<Backup>)
    ensures |r| <= 1 && (r == [] <==> b.None?)
  {
    match b
    case Some(bk) => [bk]
    case None => []
  }

  /**
   * The backup pass over one more visit: the earlier backups are kept, and
   * the new visit is backed up against the files they left.
   */
  lemma {:induction false} BackupAllSnoc(st: TagStore, vs: seq<Visit>, v: Visit, regular: set<string>)
    requires FlagsRead(st, vs + [v])
    ensures FlagsRead(st, vs)
    ensures Left(st, vs + [v], regular, |vs|) == Left(st, vs, regular, |vs|)
    ensures DoBackup(st, v, Left(st, vs, regular, |vs|)).Ok?
    ensures BackupAll(st, vs + [v], regular)
              == Ok(SavedFrom(st, vs, regular, 0) + Made(DoBackup(st, v, Left(st, vs, regular, |vs|)).value.0))
    ensures Left(st, vs + [v], regular, |vs| + 1) == DoBackup(st, v, Left(st, vs, regular, |vs|)).value.1
  {
    var ws := vs + [v];
    assert ws[..|vs|] == vs;
    assert FlagsRead(st, vs) by {
      forall k | 0 <= k < |vs|
        ensures GetInt(st, TagFileFlags, vs[k].ref).Ok?
      {
        assert vs[k] == ws[k];
      }
    }
    assert ws[|vs|] == v;
    LeftPrefix(st, vs, ws, regular, |vs|);
    BackupAllSaves(st, ws, regular);
    SavedFromSnoc(st, vs, v, regular, 0);
    var left := Left(st, vs, regular, |vs|);
    var d := DoBackup(st, v, left);
    assert GetInt(st, TagFileFlags, v.ref).Ok?;
    assert Saves(st, ws, regular, |vs|) <==> d.value.0.Some?;
    assert SavedFrom(st, ws, regular, |ws|) == [];
    if d.value.0.Some? {
      assert Made(d.value.0) == [Backup(v.name, BackupName(v.name))];
      assert SavedFrom(st, ws, regular, |vs|) == [Backup(v.name, BackupName(v.name))] + [];
    } else {
      assert Made(d.value.0) == [];
      assert SavedFrom(st, ws, regular, |vs|) == [] + [];
    }
    assert SavedFrom(st, ws, regular, 0) == SavedFrom(st, vs, regular, 0) + Made(d.value.0);
  }

  /** Step `i` of the backup walk faults: the walk step itself, or the read of the file's flags. */
  ghost predicate BackupFaults(st: TagStore, i: nat) {
    WalkFaults(st, TagBaseNames, i) || GetInt(st, TagFileFlags, i).Fault?
  }

  /** What the backup walk has done so far: the visits backed up, the backups made, the regular files left. */
  datatype Pass = Pass(done: seq<Visit>, saved: seq<Backup>, left: set<string>)

  /**
   * `p` is the state after its visits: they are the first files, named as
   * the walk names them, none of their steps faulted, and the backups and
   * the files left are those of the backup pass over them.
   */
  ghost predicate PassAfter(st: TagStore, regular: set<string>, p: Pass) {
    && |p.done| <= Served(st, TagBaseNames) && Named(st, p.done) && FlagsRead(st, p.done)
    && (forall i :: 0 <= i < |p.done| ==> !BackupFaults(st, i))
    && BackupAll(st, p.done, regular) == Ok(p.saved)
    && p.left == Left(st, p.done, regular, |p.done|)
  }

  /** A sequence one longer than its prefix `vs` is `vs` with its last element added. */
  lemma LastAdded<T>(vs: seq<T>, ws: seq<T>)
    requires |ws| == |vs| + 1 && ws[..|vs|] == vs
    ensures ws == vs + [ws[|vs|]]
  {
    assert ws == ws[..|vs|] + [ws[|vs|]];
  }

  /** A visit whose walk step and backup step complete extends the pass by its backup. */
  lemma PassSnoc(st: TagStore, regular: set<string>, p: Pass, v: Visit)
    requires PassAfter(st, regular, p) && |p.done| < Served(st, TagBaseNames)
    requires v.ref == |p.done| && Named(st, p.done + [v]) && !WalkFaults(st, TagBaseNames, |p.done|)
    requires DoBackup(st, v, p.left).Ok?
    ensures var d := DoBackup(st, v, p.left).value;
            PassAfter(st, regular, Pass(p.done + [v], p.saved + Made(d.0), d.1))
  {
    var ws := p.done + [v];
    assert FlagsRead(st, ws) by {
      forall k | 0 <= k < |ws|
        ensures GetInt(st, TagFileFlags, ws[k].ref).Ok?
      {
        if k < |p.done| {
          assert ws[k] == p.done[k];
        }
      }
    }
    BackupAllSaves(st, p.done, regular);
    BackupAllSnoc(st, p.done, v, regular);
    assert !BackupFaults(st, |p.done|);
    forall i | 0 <= i < |ws|
      ensures !BackupFaults(st, i)
    {
      if i < |p.done| {
        assert !BackupFaults(st, i);
      } else {
        assert i == |p.done|;
      }
    }
  }

  /**
   * One turn of the walk with `fileaction_dobackup` as its action: stop at
   * the served count, fault with the walk step or the flags read, or back
   * up the next visit against the files left.
   */
  method BackupStep(st: TagStore, regular: set<string>, p: Pass) returns (r: Read<Option<Pass>>)
    requires PassAfter(st, regular, p)
    ensures r.Fault? <==> |p.done| < Served(st, TagBaseNames) && BackupFaults(st, |p.done|)
    ensures r == Ok(None) <==> |p.done| == Served(st, TagBaseNames)
    ensures r.Ok? && r.value.Some? ==>
              && PassAfter(st, regular, r.value.value) && |r.value.value.done| == |p.done| + 1
              && r.value.value.done[..|p.done|] == p.done
  {
    ServedUntilNull(st, TagBaseNames, |p.done|);
    var step := WalkStep(st, TagBaseNames, p.done);
    match step {
      case Fault =>
        return Fault;
      case Ok(None) =>
        return Ok(None);
      case Ok(Some(ws)) =>
        var v := ws[|p.done|];
        LastAdded(p.done, ws);
        assert v.ref == |p.done|;
        match DoBackup(st, v, p.left) {
          case Fault =>
            return Fault;
          case Ok((b, after)) =>
            PassSnoc(st, regular, p, v);
            return Ok(Some(Pass(ws, p.saved + Made(b), after)));
        }
    }
  }

  /**
   * `loop_through_files(TAG_BASENAMES, fileaction_dobackup)` as the program
   * runs it: each visit is backed up as soon as the walk makes it. When a
   * step faults, the program dies with the backups of the earlier visits
   * already made; `done` holds the visits whose backup step completed and
   * `left` the regular files they left.
   */
  method BackupFiles(st: TagStore, regular: set<string>)
    returns (done: seq<Visit>, saved: seq<Backup>, left: set<string>, halted: bool)
    ensures |done| <= Served(st, TagBaseNames) && Named(st, done) && FlagsRead(st, done)
    ensures forall i :: 0 <= i < |done| ==> !BackupFaults(st, i)
    ensures BackupAll(st, done, regular) == Ok(saved)
    ensures left == Left(st, done, regular, |done|)
    ensures !halted ==> |done| == Served(st, TagBaseNames)
    ensures halted ==> |done| < Served(st, TagBaseNames) && BackupFaults(st, |done|)
    ensures halted <==> exists i :: 0 <= i < Served(st, TagBaseNames) && BackupFaults(st, i)
  {
    var p := Pass([], [], regular);
    halted := false;
    var stop := false;
    while !stop
      invariant PassAfter(st, regular, p)
      invariant !stop ==> !halted
      invariant stop && !halted ==> |p.done| == Served(st, TagBaseNames)
      invariant halted ==> |p.done| < Served(st, TagBaseNames) && BackupFaults(st, |p.done|)
      decreases Served(st, TagBaseNames) - |p.done| + (if stop then 0 else 1)
    {
      var step := BackupStep(st, regular, p);
      match step {
        case Fault =>
          halted, stop := true, true;
        case Ok(None) =>
          stop := true;
        case Ok(Some(q)) =>
          p := q;
      }
    }
    done, saved, left := p.done, p.saved, p.left;
  }

  /** A file that is not flagged as configuration is never backed up. */
  lemma BackupOnlyConfig(st: TagStore, vs: seq<Visit>, regular: set<string>, k: nat)
    requires k < |vs| && GetInt(st, TagFileFlags, vs[k].ref).Ok?
    requires !HasFlag(GetInt(st, TagFileFlags, vs[k].ref).value, FileConfig)
    ensures DoBackup(st, vs[k], regular) == Ok((None, regular))
  {
  }

  // ----- rpm -ql / -qd / -qc -----

  /**
   * The `switch (func & (rpm_query_list_doc|rpm_query_list_config))` of the
   * list loop: whether a file with `flags` is printed.
   */
  function ListFilter(func: int, flags: int): bool {
    var sel := (if HasFlag(func, QueryListDoc) then QueryListDoc else 0)
             + (if HasFlag(func, QueryListConfig) then QueryListConfig else 0);
    if sel == QueryListDoc then HasFlag(flags, FileDoc)
    else if sel == QueryListConfig then HasFlag(flags, FileConfig)
    else if sel == QueryListDoc + QueryListConfig then HasFlag(flags, FileConfig) || HasFlag(flags, FileDoc)
    else true
  }

  /**
   * The list filter in words: without `-d` and `-c` every file is listed;
   * otherwise exactly the files that carry at least one requested kind.
   */
  lemma ListFilterMeaning(func: int, flags: int)
    ensures ListFilter(func, flags) <==>
              || (!HasFlag(func, QueryListDoc) && !HasFlag(func, QueryListConfig))
              || (HasFlag(func, QueryListDoc) && HasFlag(flags, FileDoc))
              || (HasFlag(func, QueryListConfig) && HasFlag(flags, FileConfig))
  {
  }

  /** A count read from the image, as a loop bound: none when negative. */
  function Floor0(x: int): (r: nat)
    ensures r == x || (x < 0 && r == 0)
  {
    if x < 0 then 0 else x
  }

  /** Neither `-d` nor `-c` was given. */
  predicate Unfiltered(func: int) {
    !HasFlag(func, QueryListDoc) && !HasFlag(func, QueryListConfig)
  }

  /** The line `rpm -ql` prints for file `i`: its name and a newline. */
  ghost predicate LineOf(st: TagStore, i: int, line: string) {
    FileName(st, i).Ok? && line == FileName(st, i).value + "\n"
  }

  /** File `i` passes the list filter. */
  ghost predicate Shown(st: TagStore, func: int, i: int) {
    GetInt(st, TagFileFlags, i).Ok? && ListFilter(func, GetInt(st, TagFileFlags, i).value)
  }

  /** Step `i` of the list reads outside the image: its flags, or the name of a file it prints. */
  ghost predicate ListFaults(st: TagStore, func: int, i: int) {
    GetInt(st, TagFileFlags, i).Fault? || (Shown(st, func, i) && FileName(st, i).Fault?)
  }

  /**
   * `lines` are what the list printed for the files below `n`, and `shown`
   * their numbers: each printed file passes the filter and gets its name on
   * a line, in increasing order, and no file below `n` that passes is missed.
   */
  ghost predicate Listed(st: TagStore, func: int, n: nat, lines: seq<string>, shown: seq<nat>) {
    && |lines| == |shown|
    && (forall k :: 0 <= k < |shown| ==> LineOf(st, shown[k], lines[k]))
    && (forall k, l :: 0 <= k < l < |shown| ==> shown[k] < shown[l])
    && (forall i :: i in shown ==> i < n && Shown(st, func, i))
    && (forall i :: 0 <= i < n && Shown(st, func, i) ==> i in shown)
  }

  /** The files listed are all files below `n`, in order. */
  ghost predicate Consecutive(shown: seq<nat>, n: nat) {
    |shown| == n && forall k :: 0 <= k < n ==> shown[k] == k
  }

  lemma ListedSnoc(st: TagStore, func: int, n: nat, lines: seq<string>, shown: seq<nat>, line: string)
    requires Listed(st, func, n, lines, shown) && Shown(st, func, n) && LineOf(st, n, line)
    ensures Listed(st, func, n + 1, lines + [line], shown + [n])
  {
    var ls, sh := lines + [line], shown + [n];
    forall k | 0 <= k < |sh|
      ensures LineOf(st, sh[k], ls[k])
    {
      if k < |shown| {
        assert sh[k] == shown[k] && ls[k] == lines[k];
      }
    }
    forall k, l | 0 <= k < l < |sh|
      ensures sh[k] < sh[l]
    {
      assert shown[k] in shown;
      if l < |shown| {
        assert sh[l] == shown[l];
      }
    }
    forall i | i in sh
      ensures i < n + 1 && Shown(st, func, i)
    {
      if i != n {
        assert i in shown;
      }
    }
  }

  lemma ListedSkip(st: TagStore, func: int, n: nat, lines: seq<string>, shown: seq<nat>)
    requires Listed(st, func, n, lines, shown) && !Shown(st, func, n)
    ensures Listed(st, func, n + 1, lines, shown)
  {
  }

  /** One turn of the list loop, for file `it` after the lines printed so far. */
  method ListStep(st: TagStore, func: int, it: nat, lines: seq<string>, ghost shown: seq<nat>)
      returns (r: Read<seq<string>>, ghost shown': seq<nat>)
    requires Listed(st, func, it, lines, shown)
    ensures r.Fault? <==> ListFaults(st, func, it)
    ensures r.Ok? ==> Listed(st, func, it + 1, r.value, shown')
    ensures r.Ok? && Unfiltered(func) ==> shown' == shown + [it]
  {
    var flags := GetInt(st, TagFileFlags, it);
    if flags.Fault? {
      return Fault, shown;
    }
    ListFilterMeaning(func, flags.value);
    if ListFilter(func, flags.value) {
      var name := FileName(st, it);
      if name.Fault? {
        return Fault, shown;
      }
      var line := name.value + "\n";
      ListedSnoc(st, func, it, lines, shown, line);
      return Ok(lines + [line]), shown + [it];
    }
    ListedSkip(st, func, it, lines, shown);
    return Ok(lines), shown;
  }

  /**
   * The file list of `rpm -ql` and its filtered forms: for every file below
   * `rpm_getcount(TAG_BASENAMES)`, in order, its name and a newline when the
   * filter lets it through; `shown` numbers the listed files. Without `-d`
   * and `-c` every file is listed. The list faults exactly when one of its
   * steps reads outside the image.
   */
  method ListFiles(st: TagStore, func: int) returns (r: Read<seq<string>>, ghost shown: seq<nat>)
    ensures r.Ok? ==> Listed(st, func, Floor0(GetCount(st, TagBaseNames)), r.value, shown)
    ensures r.Ok? && Unfiltered(func) ==> Consecutive(shown, Floor0(GetCount(st, TagBaseNames)))
    ensures r.Fault? <==> exists i :: 0 <= i < GetCount(st, TagBaseNames) && ListFaults(st, func, i)
  {
    var count := GetCount(st, TagBaseNames);
    var lines: seq<string> := [];
    shown := [];
    var it: nat := 0;
    while it < count
      invariant it <= Floor0(count)
      invariant Listed(st, func, it, lines, shown)
      invariant Unfiltered(func) ==> Consecutive(shown, it)
      invariant forall i :: 0 <= i < it ==> !ListFaults(st, func, i)
    {
      var step;
      step, shown := ListStep(st, func, it, lines, shown);
      if step.Fault? {
        return Fault, shown;
      }
      lines := step.value;
      it := it + 1;
    }
    return Ok(lines), shown;
  }

  /** `lines` are the names of the visits `vs`, one per line. */
  ghost predicate LinesOf(lines: seq<string>, vs: seq<Visit>) {
    |lines| == |vs| && forall k :: 0 <= k < |vs| ==> lines[k] == vs[k].name + "\n"
  }

  /**
   * Without `-d` and `-c`, `rpm -ql` prints one line per visited file: the
   * name `loop_through_files` passes to the action with the same number.
   */
  lemma ListIsVisits(st: TagStore, func: int, lines: seq<string>, shown: seq<nat>, vs: seq<Visit>)
    requires Listed(st, func, |vs|, lines, shown) && Consecutive(shown, |vs|) && Named(st, vs)
    ensures LinesOf(lines, vs)
  {
    forall k | 0 <= k < |vs|
      ensures lines[k] == vs[k].name + "\n"
    {
      assert LineOf(st, shown[k], lines[k]) && shown[k] == k && NamedAt(st, vs[k]);
    }
  }

  /** The list's count is the base-name record's count, for any sane count. */
  lemma ListCountIsServed(st: TagStore)
    requires Served(st, TagBaseNames) < Two31
    requires FindTag(st.index, TagBaseNames).Some? ==> IsStringKind(st.index[FindTag(st.index, TagBaseNames).value].kind)
    ensures GetCount(st, TagBaseNames) == Served(st, TagBaseNames)
  {
  }
}

=== FILE: hardlinks.dfy ===
/**
 * Hard-link grouping for the reflink install: the `ifi_t` table of
 * (inode, file index) pairs, its `qsort` by `compare_inodes`, the in-place
 * compaction that keeps one entry per inode, and the `bsearch` by
 * `search_inode` that maps each file to the entry of its group.
 */
module Hardlinks {
  import opened Base
  import opened Search

  /** `ifi_t`: a file's inode number and its index in the per-file arrays. */
  datatype Ifi = Ifi(inode: int, fi: int)

  /** The order `compare_inodes` sorts by: inode, then file index. */
  predicate NoLater(a: Ifi, b: Ifi) {
    a.inode < b.inode || (a.inode == b.inode && a.fi <= b.fi)
  }

  /**
   * `compare_inodes`: never reports equality; for two different entries it
   * is -1 exactly when the first sorts before the second.
   */
  function CompareInodes(a: Ifi, b: Ifi): (r: int)
    ensures r == 1 || r == -1
    ensures a != b ==> (r == -1 <==> NoLater(a, b))
  {
    if a.inode == b.inode then (if a.fi > b.fi then 1 else -1)
    else if a.inode > b.inode then 1
    else -1
  }

  /** On two different entries the comparison is antisymmetric, as `qsort` needs. */
  lemma CompareInodesAntisymmetric(a: Ifi, b: Ifi)
    requires a != b
    ensures CompareInodes(b, a) == -CompareInodes(a, b)
  {
  }

  ghost predicate Sorted(s: seq<Ifi>) {
    forall i, j :: 0 <= i < j < |s| ==> NoLater(s[i], s[j])
  }

  ghost predicate Distinct(s: seq<Ifi>) {
    forall i, j :: 0 <= i < j < |s| ==> s[i] != s[j]
  }

  /** The table as `reflink_package` fills it: entry `i` is file `i` with its inode. */
  function Table(inodes: seq<int>): (t: seq<Ifi>)
    ensures |t| == |inodes|
    ensures forall i :: 0 <= i < |t| ==> t[i] == Ifi(inodes[i], i)
  {
    seq(|inodes|, i requires 0 <= i < |inodes| => Ifi(inodes[i], i))
  }

  lemma TableDistinct(inodes: seq<int>)
    ensures Distinct(Table(inodes))
  {
  }

  // ----- qsort -----

  function Insert(x: Ifi, s: seq<Ifi>): (r: seq<Ifi>)
    ensures |r| == |s| + 1
    ensures multiset(r) == multiset(s) + multiset{x}
  {
    if s == [] then [x]
    else if NoLater(x, s[0]) then [x] + s
    else
      assert s == [s[0]] + s[1..];
      [s[0]] + Insert(x, s[1..])
  }

  lemma InMultiset(s: seq<Ifi>, y: Ifi)
    requires y in multiset(s)
    ensures exists k :: 0 <= k < |s| && s[k] == y
  {
    assert y in s;
  }

  lemma {:induction false} InsertSorted(x: Ifi, s: seq<Ifi>)
    requires Sorted(s)
    ensures Sorted(Insert(x, s))
    decreases |s|
  {
    if s != [] && !NoLater(x, s[0]) {
      var t := Insert(x, s[1..]);
      InsertSorted(x, s[1..]);
      forall k | 0 <= k < |t|
        ensures NoLater(s[0], t[k])
      {
        assert t[k] in multiset(t);
        if t[k] != x {
          InMultiset(s[1..], t[k]);
        }
      }
    }
  }

  lemma {:induction false} InsertDistinct(x: Ifi, s: seq<Ifi>)
    requires Distinct(s) && x !in s
    ensures Distinct(Insert(x, s))
    decreases |s|
  {
    if s != [] && !NoLater(x, s[0]) {
      var t := Insert(x, s[1..]);
      InsertDistinct(x, s[1..]);
      forall k | 0 <= k < |t|
        ensures t[k] != s[0]
      {
        assert t[k] in multiset(t);
        if t[k] != x {
          InMultiset(s[1..], t[k]);
        }
      }
    }
  }

  /**
   * What `qsort` with `compare_inodes` produces: the entries in sorted order
   * (`SortSorted`). Any sorted permutation is this one (`SortedUnique`), so
   * the model does not depend on the algorithm the C library uses.
   */
  function SortIfi(s: seq<Ifi>): (r: seq<Ifi>)
    ensures |r| == |s|
    ensures multiset(r) == multiset(s)
  {
    if s == [] then []
    else
      assert s == [s[0]] + s[1..];
      Insert(s[0], SortIfi(s[1..]))
  }

  lemma {:induction false} SortSorted(s: seq<Ifi>)
    ensures Sorted(SortIfi(s))
    decreases |s|
  {
    if s != [] {
      SortSorted(s[1..]);
      InsertSorted(s[0], SortIfi(s[1..]));
    }
  }

  lemma {:induction false} SortDistinct(s: seq<Ifi>)
    requires Distinct(s)
    ensures Distinct(SortIfi(s))
    decreases |s|
  {
    if s != [] {
      SortDistinct(s[1..]);
      if s[0] in SortIfi(s[1..]) {
        assert s[0] in multiset(s[1..]);
        InMultiset(s[1..], s[0]);
      }
      InsertDistinct(s[0], SortIfi(s[1..]));
    }
  }

  lemma SortedHeadIsLeast(a: seq<Ifi>, y: Ifi)
    requires Sorted(a) && |a| > 0 && y in multiset(a)
    ensures NoLater(a[0], y)
  {
    InMultiset(a, y);
  }

  lemma SortedTail(s: seq<Ifi>)
    requires Sorted(s) && |s| > 0
    ensures Sorted(s[1..])
  {
    var t := s[1..];
    forall i, j | 0 <= i < j < |t|
      ensures NoLater(t[i], t[j])
    {
      assert t[i] == s[i + 1] && t[j] == s[j + 1];
    }
  }

  /** Two sorted sequences holding the same entries are equal. */
  lemma {:induction false} SortedUnique(a: seq<Ifi>, b: seq<Ifi>)
    requires Sorted(a) && Sorted(b) && multiset(a) == multiset(b)
    ensures a == b
    decreases |a|
  {
    if a == [] {
      assert |multiset(b)| == 0;
    } else {
      assert |b| == |multiset(b)| == |a|;
      assert a[0] in multiset(a);
      assert b[0] in multiset(b);
      SortedHeadIsLeast(b, a[0]);
      SortedHeadIsLeast(a, b[0]);
      assert a[0] == b[0];
      assert a == [a[0]] + a[1..];
      assert b == [b[0]] + b[1..];
      assert multiset(a) == multiset{a[0]} + multiset(a[1..]);
      assert multiset(b) == multiset{b[0]} + multiset(b[1..]);
      assert forall y :: multiset(a[1..])[y] == multiset(a)[y] - multiset{a[0]}[y] == multiset(b[1..])[y];
      SortedTail(a);
      SortedTail(b);
      SortedUnique(a[1..], b[1..]);
    }
  }

  /** Sorting the table yields an order in which `compare_inodes` says -1 for every earlier entry. */
  lemma QsortOrder(inodes: seq<int>)
    ensures var r := SortIfi(Table(inodes));
            forall i, j :: 0 <= i < j < |r| ==> CompareInodes(r[i], r[j]) == -1
  {
    TableDistinct(inodes);
    SortSorted(Table(inodes));
    SortDistinct(Table(inodes));
  }

  // ----- Compaction -----

  /** Position `i` of `s` starts a run of equal inodes. */
  predicate RunStart(s: seq<Ifi>, i: nat)
    requires i < |s|
  {
    i == 0 || s[i].inode != s[i - 1].inode
  }

  /** The entries that start an inode run, in order: what the compaction keeps. */
  function Heads(s: seq<Ifi>): (r: seq<Ifi>)
    ensures |r| <= |s|
    ensures s != [] ==> |r| > 0 && r[|r| - 1].inode == s[|s| - 1].inode
  {
    if s == [] then []
    else Heads(s[..|s| - 1]) + if RunStart(s, |s| - 1) then [s[|s| - 1]] else []
  }

  lemma HeadsStep(s: seq<Ifi>, i: nat)
    requires 0 < i < |s|
    ensures Heads(s[..i + 1]) == Heads(s[..i]) + if s[i].inode != s[i - 1].inode then [s[i]] else []
  {
    assert s[..i + 1][..i] == s[..i];
  }

  /** The state of the compaction loop before it looks at entry `i`. */
  ghost predicate CompactInv(s: seq<Ifi>, a: seq<Ifi>, ninodes: int, i: int) {
    && 1 <= i <= |s| && |a| == |s|
    && 0 <= ninodes < i
    && a[..ninodes + 1] == Heads(s[..i])
    && a[i..] == s[i..]
    && a[ninodes].inode == s[i - 1].inode
  }

  /** One iteration of the compaction loop keeps its state consistent, whichever branch it takes. */
  lemma CompactStep(s: seq<Ifi>, a: seq<Ifi>, ninodes: int, i: int)
    requires CompactInv(s, a, ninodes, i) && i < |s|
    ensures a[ninodes].inode == a[i].inode ==> CompactInv(s, a, ninodes, i + 1)
    ensures a[ninodes].inode != a[i].inode ==> CompactInv(s, a[ninodes + 1 := a[i]], ninodes + 1, i + 1)
  {
    HeadsStep(s, i);
    assert a[i] == a[i..][0] == s[i];
    assert a[i + 1..] == a[i..][1..];
    var b := a[ninodes + 1 := a[i]];
    assert b[..ninodes + 2] == a[..ninodes + 1] + [s[i]];
    assert b[i + 1..] == a[i + 1..];
  }

  /**
   * The compaction loop of `reflink_package`, in place on the sorted table.
   * The first `ninodes` entries end up as the run heads; an empty table
   * still reports one entry.
   */
  method CompactInPlace(s: seq<Ifi>) returns (a: seq<Ifi>, ninodes: int)
    ensures |a| == |s|
    ensures |s| == 0 ==> ninodes == 1
    ensures |s| > 0 ==> 0 < ninodes <= |s| && a[..ninodes] == Heads(s)
  {
    a := s;
    ninodes := 0;
    if |s| == 0 {
      ninodes := ninodes + 1;
      return;
    }
    assert s[..1] == [s[0]];
    var i := 1;
    while i < |s|
      invariant CompactInv(s, a, ninodes, i)
    {
      CompactStep(s, a, ninodes, i);
      if a[ninodes].inode != a[i].inode {
        ninodes := ninodes + 1;
        a := a[ninodes := a[i]];
      }
      i := i + 1;
    }
    ninodes := ninodes + 1;
    assert s[..|s|] == s;
  }

  lemma SortedPrefix(s: seq<Ifi>, n: nat)
    requires Sorted(s) && n <= |s|
    ensures Sorted(s[..n])
  {
    var init := s[..n];
    forall i, j | 0 <= i < j < |init|
      ensures NoLater(init[i], init[j])
    {
      assert init[i] == s[i] && init[j] == s[j];
    }
  }

  /** Every run head is an entry of the sequence. */
  lemma {:induction false} HeadsMembers(s: seq<Ifi>)
    ensures forall k :: 0 <= k < |Heads(s)| ==> Heads(s)[k] in s
    decreases |s|
  {
    if s != [] {
      var n := |s| - 1;
      var init := s[..n];
      HeadsMembers(init);
      var h0 := Heads(init);
      var h := Heads(s);
      forall k | 0 <= k < |h|
        ensures h[k] in s
      {
        if k < |h0| {
          assert h[k] == h0[k];
          var m :| 0 <= m < |init| && init[m] == h0[k];
          assert s[m] == h[k];
        } else {
          assert h[k] == s[n];
        }
      }
    }
  }

  /** Inodes strictly increase along `h`: what makes `bsearch` by inode work. */
  ghost predicate Increasing(h: seq<Ifi>) {
    forall i, j :: 0 <= i < j < |h| ==> h[i].inode < h[j].inode
  }

  /** Every entry of `h` has the smallest file index among the entries of `s` with its inode. */
  ghost predicate Least(h: seq<Ifi>, s: seq<Ifi>) {
    forall k, j :: 0 <= k < |h| && 0 <= j < |s| && s[j].inode == h[k].inode ==> h[k].fi <= s[j].fi
  }

  /** In a sorted sequence every run head's inode is at most the last inode. */
  lemma HeadsUpTo(s: seq<Ifi>)
    requires Sorted(s) && s != []
    ensures forall k :: 0 <= k < |Heads(s)| ==> Heads(s)[k].inode <= s[|s| - 1].inode
  {
    HeadsMembers(s);
    var h := Heads(s);
    forall k | 0 <= k < |h|
      ensures h[k].inode <= s[|s| - 1].inode
    {
      var m :| 0 <= m < |s| && s[m] == h[k];
      if m < |s| - 1 {
        assert NoLater(s[m], s[|s| - 1]);
      }
    }
  }

  lemma AppendIncreasing(h0: seq<Ifi>, x: Ifi)
    requires Increasing(h0)
    requires forall k :: 0 <= k < |h0| ==> h0[k].inode < x.inode
    ensures Increasing(h0 + [x])
  {
    var h := h0 + [x];
    forall i, j | 0 <= i < j < |h|
      ensures h[i].inode < h[j].inode
    {
      assert h[i] == h0[i];
      if j < |h0| {
        assert h[j] == h0[j];
      }
    }
  }

  /** Run heads of a sorted sequence have strictly increasing inodes. */
  lemma {:induction false} HeadsIncreasing(s: seq<Ifi>)
    requires Sorted(s)
    ensures Increasing(Heads(s))
    decreases |s|
  {
    if s != [] {
      var n := |s| - 1;
      var init := s[..n];
      SortedPrefix(s, n);
      HeadsIncreasing(init);
      if RunStart(s, n) {
        if n > 0 {
          HeadsUpTo(init);
          assert NoLater(s[n - 1], s[n]);
          assert init[n - 1] == s[n - 1];
        }
        AppendIncreasing(Heads(init), s[n]);
      }
    }
  }

  /** In a sorted sequence the entries before a run start have smaller inodes. */
  lemma RunStartIsFirst(s: seq<Ifi>, n: nat)
    requires Sorted(s) && n < |s| && RunStart(s, n)
    ensures forall j :: 0 <= j < n ==> s[j].inode < s[n].inode
  {
    if n > 0 {
      assert NoLater(s[n - 1], s[n]);
      forall j | 0 <= j < n - 1
        ensures s[j].inode < s[n].inode
      {
        assert NoLater(s[j], s[n - 1]);
      }
    }
  }

  /** Each run head carries the smallest file index among the entries with its inode. */
  lemma {:induction false} HeadsLeast(s: seq<Ifi>)
    requires Sorted(s)
    ensures Least(Heads(s), s)
    decreases |s|
  {
    if s != [] {
      var n := |s| - 1;
      var init := s[..n];
      var h0 := Heads(init);
      var h := Heads(s);
      SortedPrefix(s, n);
      HeadsLeast(init);
      HeadsMembers(init);
      assert h == h0 + if RunStart(s, n) then [s[n]] else [];
      forall k, j | 0 <= k < |h| && 0 <= j < |s| && s[j].inode == h[k].inode
        ensures h[k].fi <= s[j].fi
      {
        if k < |h0| {
          assert h[k] == h0[k];
          if j == n {
            var m :| 0 <= m < |init| && init[m] == h0[k];
            assert s[m] == h0[k];
            assert NoLater(s[m], s[n]);
          } else {
            assert init[j] == s[j];
          }
        } else {
          assert h[k] == s[n];
          RunStartIsFirst(s, n);
        }
      }
    }
  }

  /** Every inode of the sequence appears among the run heads. */
  lemma {:induction false} HeadsCover(s: seq<Ifi>, j: nat)
    requires j < |s|
    ensures exists k :: 0 <= k < |Heads(s)| && Heads(s)[k].inode == s[j].inode
    decreases |s|
  {
    var n := |s| - 1;
    var h := Heads(s);
    if j == n {
      assert h[|h| - 1].inode == s[j].inode;
    } else {
      var init := s[..n];
      HeadsCover(init, j);
      var k :| 0 <= k < |Heads(init)| && Heads(init)[k].inode == init[j].inode;
      assert h[k] == Heads(init)[k];
    }
  }

  // ----- bsearch by search_inode -----

  /** `search_inode` with the key bound. */
  function InodeKey(key: int): Ifi -> int {
    (e: Ifi) => if key == e.inode then 0 else if key > e.inode then 1 else -1
  }

  /** The entry `bsearch` finds for an inode among the first entries `h`. */
  function FindInode(h: seq<Ifi>, key: int): (r: Option<nat>)
    ensures r.Some? ==> r.value < |h| && h[r.value].inode == key
  {
    BSearch(h, InodeKey(key))
  }

  /** On a partitioned table, the search misses exactly when no entry has the inode. */
  lemma FindInodeMisses(h: seq<Ifi>, key: int)
    requires Partitioned(h, InodeKey(key))
    ensures FindInode(h, key).None? <==> forall i :: 0 <= i < |h| ==> h[i].inode != key
  {
    BSearchMisses(h, InodeKey(key));
  }

  lemma IncreasingIsPartitioned(h: seq<Ifi>, key: int)
    requires Increasing(h)
    ensures Partitioned(h, InodeKey(key))
  {
  }

  /** File `j` is the lowest-numbered file with its inode. */
  ghost predicate FirstWithInode(inodes: seq<int>, j: nat)
    requires j < |inodes|
  {
    forall i :: 0 <= i < j ==> inodes[i] != inodes[j]
  }

  /** The kept entries after sorting and compacting the table of `inodes`. */
  function Groups(inodes: seq<int>): seq<Ifi> {
    Heads(SortIfi(Table(inodes)))
  }

  /** Every entry of the sorted table is some file's (inode, index) pair. */
  lemma SortedEntries(inodes: seq<int>, m: nat)
    requires m < |inodes|
    ensures var s := SortIfi(Table(inodes));
            0 <= s[m].fi < |inodes| && inodes[s[m].fi] == s[m].inode
  {
    var t := Table(inodes);
    var s := SortIfi(t);
    assert s[m] in multiset(t) by {
      assert s[m] in multiset(s);
    }
    InMultiset(t, s[m]);
  }

  /** Every file's pair has a place in the sorted table. */
  lemma EntryPlace(inodes: seq<int>, i: nat) returns (m: nat)
    requires i < |inodes|
    ensures var s := SortIfi(Table(inodes));
            m < |s| && s[m] == Ifi(inodes[i], i)
  {
    var t := Table(inodes);
    var s := SortIfi(t);
    assert t[i] in multiset(s) by {
      assert t[i] in multiset(t);
    }
    InMultiset(s, t[i]);
    m :| 0 <= m < |s| && s[m] == t[i];
  }

  /** The kept entries are increasing in inode and each is the least of its inode. */
  lemma GroupsShape(inodes: seq<int>)
    ensures var s := SortIfi(Table(inodes));
            var h := Groups(inodes);
            && Increasing(h)
            && Least(h, s)
            && forall k :: 0 <= k < |h| ==> h[k] in s
  {
    var s := SortIfi(Table(inodes));
    SortSorted(Table(inodes));
    HeadsIncreasing(s);
    HeadsLeast(s);
    HeadsMembers(s);
  }

  /**
   * Searching the kept entries for the inode of any file finds the entry of
   * the lowest-numbered file sharing that inode; so `found->fi == i` holds
   * exactly for the first file of each hard-link group.
   */
  lemma GroupOf(inodes: seq<int>, j: nat)
    requires j < |inodes|
    ensures var h := Groups(inodes);
            var r := FindInode(h, inodes[j]);
            && r.Some?
            && 0 <= h[r.value].fi <= j
            && inodes[h[r.value].fi] == inodes[j]
            && FirstWithInode(inodes, h[r.value].fi)
            && (h[r.value].fi == j <==> FirstWithInode(inodes, j))
  {
    var s := SortIfi(Table(inodes));
    var h := Groups(inodes);
    GroupsShape(inodes);
    IncreasingIsPartitioned(h, inodes[j]);
    FindInodeMisses(h, inodes[j]);
    var mj := EntryPlace(inodes, j);
    HeadsCover(s, mj);
    var r := FindInode(h, inodes[j]);
    var k := r.value;
    var f := h[k].fi;
    var q :| 0 <= q < |s| && s[q] == h[k];
    SortedEntries(inodes, q);
    assert f <= j;
    forall i | 0 <= i < f
      ensures inodes[i] != inodes[f]
    {
      var mi := EntryPlace(inodes, i);
    }
  }

  /** The first file with file `j`'s inode, found by scanning from file `k` on. */
  function ScanFirst(inodes: seq<int>, j: nat, k: nat): (r: nat)
    requires k <= j < |inodes|
    requires forall i :: 0 <= i < k ==> inodes[i] != inodes[j]
    ensures k <= r <= j && inodes[r] == inodes[j] && FirstWithInode(inodes, r)
    decreases j - k
  {
    if inodes[k] == inodes[j] then k else ScanFirst(inodes, j, k + 1)
  }

  /** The first file of file `j`'s hard-link group, by a plain front-to-back scan. */
  function FirstOf(inodes: seq<int>, j: nat): (r: nat)
    requires j < |inodes|
    ensures r <= j && inodes[r] == inodes[j] && FirstWithInode(inodes, r)
  {
    ScanFirst(inodes, j, 0)
  }

  /** Two files that both come first for the same inode are the same file. */
  lemma FirstUnique(inodes: seq<int>, a: nat, b: nat)
    requires a < |inodes| && b < |inodes| && inodes[a] == inodes[b]
    requires FirstWithInode(inodes, a) && FirstWithInode(inodes, b)
    ensures a == b
  {
  }

  /**
   * Sorting, compacting and searching agree with the scan: the entry found
   * for any file is the first file of its group.
   */
  lemma GroupFindsFirst(inodes: seq<int>, j: nat)
    requires j < |inodes|
    ensures var h := Groups(inodes);
            var r := FindInode(h, inodes[j]);
            r.Some? && h[r.value].fi == FirstOf(inodes, j)
  {
    GroupOf(inodes, j);
    var h := Groups(inodes);
    var f := h[FindInode(h, inodes[j]).value].fi;
    FirstUnique(inodes, f, FirstOf(inodes, j));
  }
}

=== FILE: header.dfy ===
/**
 * `rpm_gettags`: the layout arithmetic that turns a package file into the
 * merged tag index. A package is a 96-byte lead, the signature section and
 * the main header section; each section is a 16-byte header (magic and
 * version, reserved word, entry count, store size), `count` 16-byte index
 * records (tag, type, offset, count, all in network order) and the store.
 * The signature store is padded to an 8-byte boundary; the main one is not.
 */
module Header {
  import opened Base

  const LeadSize: int := 96
  const SectionHeaderSize: int := 16
  const EntrySize: int := 16
  /** Signature tags are renumbered below the main header's tag space. */
  const SignatureTagShift: int := 743
  const PageSize: int := 4096
  /** RPM_HEADER_MAGICnVER (0x8eade801) in file order. */
  const HeaderMagic: seq<byte> := [0x8e, 0xad, 0xe8, 0x01]

  /** One `rpm_index` record after decoding: the offset is absolute in the file. */
  datatype IndexEntry = IndexEntry(tag: U32, kind: U32, offset: U32, count: U32)

  datatype DecodeError =
    | ShortRead          // xread found fewer bytes than a header or the index records need
    | BadMagic(pass: nat) // "invalid RPM header magic"
    | MapFailed          // the mapping length wrapped to 0, so mmap fails: "mmap '%s'"

  /**
   * The decoded package: the merged index (signature records first), the
   * bytes visible through the mapping, the file position after the main
   * store (where the payload starts) and the length that was mapped.
   */
  datatype TagStore = TagStore(index: seq<IndexEntry>, image: seq<byte>, end: nat, mapSize: U32)

  /** What one pass of the decoding loop produces. */
  datatype SectionRead = SectionRead(entries: seq<IndexEntry>, storeStart: nat, next: nat)

  /**
   * The closed form of the padding loop `while (size & 7) size++` on a
   * `uint32_t`: round up to a multiple of 8, wrapping to 0 past 2^32 - 8.
   */
  function Pad8(size: U32): (r: U32)
    ensures r % 8 == 0
    ensures size <= Two32 - 8 ==> size <= r < size + 8
    ensures size > Two32 - 8 ==> r == 0
  {
    ToU32(size + (8 - size % 8) % 8)
  }

  /** The padding loop itself, as written: it stops at the first multiple of 8. */
  method PadSignatureSize(size: U32) returns (r: U32)
    ensures r == Pad8(size)
    ensures r % 8 == 0
  {
    r := size;
    ghost var steps := 0;
    ghost var gap := (8 - size % 8) % 8;
    while r % 8 != 0
      invariant 0 <= steps <= gap
      invariant size + steps <= Two32
      invariant r == if size + steps == Two32 then 0 else size + steps
      decreases gap - steps
    {
      r := if r == Two32 - 1 then 0 else r + 1;
      steps := steps + 1;
    }
    assert (size + steps) % 8 == 0;
    assert steps == gap;
    assert Pad8(size) == ToU32(size + gap);
  }

  /**
   * `(storepos + pagesize) & -pagesize` in unsigned 32-bit arithmetic: the
   * length handed to mmap. Below the last page of the 32-bit range it covers
   * the end position and, when the end is already page aligned, one more
   * page; in the last page the sum wraps and the length is 0.
   */
  function MapSize(storepos: U32): (r: U32)
    ensures r % PageSize == 0
    ensures storepos < Two32 - PageSize ==> storepos < r <= storepos + PageSize
    ensures r == 0 <==> storepos >= Two32 - PageSize
  {
    var sum := ToU32(storepos + PageSize);
    sum - sum % PageSize
  }

  /** One index record read at `at`, resolved against the section's store. */
  function Entry(f: seq<byte>, at: nat, storeStart: nat, pass: nat): (e: IndexEntry)
    requires at + EntrySize <= |f|
  {
    var tag := BE32(f[at..at + 4]);
    IndexEntry(
      if pass == 0 then ToU32(tag - SignatureTagShift) else tag,
      BE32(f[at + 4..at + 8]),
      ToU32(storeStart + BE32(f[at + 8..at + 12])),
      BE32(f[at + 12..at + 16]))
  }

  /** The `count` records starting at `at`, each resolved against the section's store. */
  function Entries(f: seq<byte>, at: nat, count: nat, storeStart: nat, pass: nat): (r: seq<IndexEntry>)
    requires at + 16 * count <= |f|
    ensures |r| == count
  {
    seq(count, k requires 0 <= k < count => Entry(f, at + 16 * k, storeStart, pass))
  }

  /** One pass of the loop: read the section header at `pos` and its records. */
  function ReadSection(f: seq<byte>, pos: nat, pass: nat): (r: Result<SectionRead, DecodeError>)
    ensures r == Failure(ShortRead) <==>
              || pos + SectionHeaderSize > |f|
              || (f[pos..pos + 4] == HeaderMagic && pos + SectionHeaderSize + 16 * BE32(f[pos + 8..pos + 12]) > |f|)
    ensures r == Failure(BadMagic(pass)) <==> pos + SectionHeaderSize <= |f| && f[pos..pos + 4] != HeaderMagic
    ensures r.Failure? ==> r.error == ShortRead || r.error == BadMagic(pass)
    ensures r.Success? ==> pos + SectionHeaderSize <= |f| && |r.value.entries| == BE32(f[pos + 8..pos + 12])
    ensures r.Success? ==> r.value.storeStart == pos + SectionHeaderSize + 16 * |r.value.entries| <= |f|
    ensures r.Success? ==>
              r.value.next == r.value.storeStart
                              + if pass == 0 then Pad8(BE32(f[pos + 12..pos + 16])) else BE32(f[pos + 12..pos + 16])
  {
    if pos + SectionHeaderSize > |f| then Failure(ShortRead)
    else if f[pos..pos + 4] != HeaderMagic then Failure(BadMagic(pass))
    else
      var count := BE32(f[pos + 8..pos + 12]);
      var size := BE32(f[pos + 12..pos + 16]);
      var storeStart := pos + SectionHeaderSize + 16 * count;
      if storeStart > |f| then Failure(ShortRead)
      else
        var entries := Entries(f, pos + SectionHeaderSize, count, storeStart, pass);
        Success(SectionRead(entries, storeStart, storeStart + if pass == 0 then Pad8(size) else size))
  }

  /**
   * `rpm_gettags` on a file that starts at position 0. A mapping length of
   * 0 makes `mmap` fail, and the program dies.
   */
  function Decode(f: seq<byte>): (r: Result<TagStore, DecodeError>)
    ensures r.Success? ==> r.value.mapSize % PageSize == 0 && r.value.mapSize > 0
    ensures r.Success? ==> r.value.end % Two32 < Two32 - PageSize
    ensures r.Success? ==> |r.value.image| <= |f| && r.value.image == f[..|r.value.image|]
  {
    var sig :- ReadSection(f, LeadSize, 0);
    var main :- ReadSection(f, sig.next, 1);
    var mapSize := MapSize(ToU32(main.next));
    if mapSize == 0 then Failure(MapFailed)
    else Success(TagStore(sig.entries + main.entries, f[..Min(|f|, mapSize)], main.next, mapSize))
  }

  // ----- Writing a package, to state what decoding recovers -----

  /**
   * The mapping covers the whole header: unless the end of the main store is
   * within a page of the 32-bit limit, it lies inside the mapped length, and
   * at most one page beyond it is mapped.
   */
  lemma MappedCoversEnd(f: seq<byte>)
    requires Decode(f).Success?
    ensures var st := Decode(f).value;
            && |st.image| == Min(|f|, st.mapSize)
            && (st.end < Two32 - PageSize ==> st.end < st.mapSize <= st.end + PageSize)
  {
  }

  /** An index record as a section stores it: the offset is relative to the section's store. */
  datatype RawEntry = RawEntry(tag: U32, kind: U32, offset: U32, count: U32)

  /** A section's records and store, before they are laid out in a file. */
  datatype Section = Section(entries: seq<RawEntry>, store: seq<byte>)

  /** The section's count and size fit their 32-bit header fields, and padding does not wrap. */
  ghost predicate Fits(s: Section) {
    |s.entries| < Two32 && |s.store| <= Two32 - 8
  }

  function EntryBytes(e: RawEntry): (r: seq<byte>)
    ensures |r| == EntrySize
  {
    BE32Bytes(e.tag) + BE32Bytes(e.kind) + BE32Bytes(e.offset) + BE32Bytes(e.count)
  }

  /** The records back to back, 16 bytes each. */
  function EntriesBytes(es: seq<RawEntry>): (r: seq<byte>)
    ensures |r| == 16 * |es|
  {
    seq(16 * |es|, i requires 0 <= i < 16 * |es| => EntryBytes(es[i / 16])[i % 16])
  }

  function Zeros(n: nat): (r: seq<byte>)
    ensures |r| == n
  {
    seq(n, _ => 0)
  }

  /** The 16-byte section header: magic and version, reserved word, count, store size. */
  function HeadBytes(count: U32, size: U32): (r: seq<byte>)
    ensures |r| == SectionHeaderSize
  {
    HeaderMagic + [0, 0, 0, 0] + BE32Bytes(count) + BE32Bytes(size)
  }

  /** A section on disk: header, records, store, and (for the signature) padding to 8 bytes. */
  function SectionBytes(s: Section, padded: bool): (r: seq<byte>)
    requires Fits(s)
    ensures |r| == SectionHeaderSize + 16 * |s.entries| + if padded then Pad8(|s.store|) else |s.store|
  {
    HeadBytes(|s.entries|, |s.store|) + EntriesBytes(s.entries) + s.store
      + if padded then Zeros(Pad8(|s.store|) - |s.store|) else []
  }

  /** A whole package file: lead, signature section, main section, payload. */
  function PackageBytes(lead: seq<byte>, sig: Section, main: Section, payload: seq<byte>): seq<byte>
    requires |lead| == LeadSize && Fits(sig) && Fits(main)
  {
    lead + SectionBytes(sig, true) + SectionBytes(main, false) + payload
  }

  /** The record a pass should yield for `e` when its section's store starts at `storeStart`. */
  function Resolve(e: RawEntry, storeStart: nat, pass: nat): IndexEntry {
    IndexEntry(
      if pass == 0 then ToU32(e.tag - SignatureTagShift) else e.tag,
      e.kind,
      ToU32(storeStart + e.offset),
      e.count)
  }

  function Resolved(es: seq<RawEntry>, storeStart: nat, pass: nat): (r: seq<IndexEntry>)
    ensures |r| == |es|
  {
    seq(|es|, k requires 0 <= k < |es| => Resolve(es[k], storeStart, pass))
  }

  /** A part of a part of `f` is a part of `f`. */
  lemma Within(f: seq<byte>, pos: nat, whole: seq<byte>, a: nat, part: seq<byte>)
    requires pos + |whole| <= |f| && f[pos..pos + |whole|] == whole
    requires a + |part| <= |whole| && whole[a..a + |part|] == part
    ensures f[pos + a..pos + a + |part|] == part
  {
    forall i | 0 <= i < |part|
      ensures f[pos + a + i] == part[i]
    {
      assert f[pos + a + i] == f[pos..pos + |whole|][a + i];
      assert part[i] == whole[a..a + |part|][i];
    }
  }

  lemma EntriesBytesAt(es: seq<RawEntry>, k: nat)
    requires k < |es|
    ensures EntriesBytes(es)[16 * k..16 * k + 16] == EntryBytes(es[k])
  {
    var recs := EntriesBytes(es);
    forall i | 0 <= i < 16
      ensures recs[16 * k + i] == EntryBytes(es[k])[i]
    {
      assert (16 * k + i) / 16 == k && (16 * k + i) % 16 == i;
    }
  }

  lemma EntryRoundTrip(f: seq<byte>, at: nat, storeStart: nat, pass: nat, e: RawEntry)
    requires at + EntrySize <= |f| && f[at..at + EntrySize] == EntryBytes(e)
    ensures Entry(f, at, storeStart, pass) == Resolve(e, storeStart, pass)
  {
    var b := EntryBytes(e);
    assert b[0..4] == BE32Bytes(e.tag);
    assert b[4..8] == BE32Bytes(e.kind);
    assert b[8..12] == BE32Bytes(e.offset);
    assert b[12..16] == BE32Bytes(e.count);
    Within(f, at, b, 0, BE32Bytes(e.tag));
    Within(f, at, b, 4, BE32Bytes(e.kind));
    Within(f, at, b, 8, BE32Bytes(e.offset));
    Within(f, at, b, 12, BE32Bytes(e.count));
    BE32RoundTrip(e.tag);
    BE32RoundTrip(e.kind);
    BE32RoundTrip(e.offset);
    BE32RoundTrip(e.count);
  }

  /** The header fields of a written section are read back. */
  lemma HeadRoundTrip(f: seq<byte>, pos: nat, count: U32, size: U32)
    requires pos + SectionHeaderSize <= |f| && f[pos..pos + SectionHeaderSize] == HeadBytes(count, size)
    ensures f[pos..pos + 4] == HeaderMagic
    ensures BE32(f[pos + 8..pos + 12]) == count
    ensures BE32(f[pos + 12..pos + 16]) == size
  {
    var head := HeadBytes(count, size);
    assert head[0..4] == HeaderMagic;
    assert head[8..12] == BE32Bytes(count);
    assert head[12..16] == BE32Bytes(size);
    Within(f, pos, head, 0, HeaderMagic);
    Within(f, pos, head, 8, BE32Bytes(count));
    Within(f, pos, head, 12, BE32Bytes(size));
    BE32RoundTrip(count);
    BE32RoundTrip(size);
  }

  lemma RecordSlice(f: seq<byte>, at: nat, es: seq<RawEntry>, k: nat)
    requires at + 16 * |es| <= |f| && f[at..at + 16 * |es|] == EntriesBytes(es)
    requires k < |es|
    ensures f[at + 16 * k..at + 16 * k + 16] == EntryBytes(es[k])
  {
    EntriesBytesAt(es, k);
    Within(f, at, EntriesBytes(es), 16 * k, EntryBytes(es[k]));
  }

  /** The records of a written section are read back, resolved. */
  lemma RecordsRoundTrip(f: seq<byte>, at: nat, es: seq<RawEntry>, start: nat, pass: nat)
    requires at + 16 * |es| <= |f| && f[at..at + 16 * |es|] == EntriesBytes(es)
    ensures Entries(f, at, |es|, start, pass) == Resolved(es, start, pass)
  {
    var got := Entries(f, at, |es|, start, pass);
    forall k | 0 <= k < |es|
      ensures got[k] == Resolved(es, start, pass)[k]
    {
      RecordSlice(f, at, es, k);
      EntryRoundTrip(f, at + 16 * k, start, pass, es[k]);
    }
  }

  /** The header and the records of a written section, found in the file. */
  lemma SectionPieces(f: seq<byte>, pos: nat, s: Section, padded: bool)
    requires Fits(s)
    requires pos + |SectionBytes(s, padded)| <= |f|
    requires f[pos..pos + |SectionBytes(s, padded)|] == SectionBytes(s, padded)
    ensures f[pos..pos + SectionHeaderSize] == HeadBytes(|s.entries|, |s.store|)
    ensures f[pos + SectionHeaderSize..pos + SectionHeaderSize + 16 * |s.entries|] == EntriesBytes(s.entries)
  {
    var bytes := SectionBytes(s, padded);
    var head := HeadBytes(|s.entries|, |s.store|);
    var recs := EntriesBytes(s.entries);
    var rest := s.store + if padded then Zeros(Pad8(|s.store|) - |s.store|) else [];
    assert bytes == head + recs + rest;
    assert bytes[0..SectionHeaderSize] == head;
    assert bytes[SectionHeaderSize..SectionHeaderSize + |recs|] == recs;
    Within(f, pos, bytes, 0, head);
    Within(f, pos, bytes, SectionHeaderSize, recs);
  }

  /** A written section is read back as the records it was written from, resolved. */
  lemma SectionRoundTrip(f: seq<byte>, pos: nat, s: Section, pass: nat)
    requires Fits(s)
    requires pos + |SectionBytes(s, pass == 0)| <= |f|
    requires f[pos..pos + |SectionBytes(s, pass == 0)|] == SectionBytes(s, pass == 0)
    ensures var start := pos + SectionHeaderSize + 16 * |s.entries|;
            ReadSection(f, pos, pass)
            == Success(SectionRead(Resolved(s.entries, start, pass), start,
                                   start + if pass == 0 then Pad8(|s.store|) else |s.store|))
  {
    var n := |s.entries|;
    var start := pos + SectionHeaderSize + 16 * n;
    SectionPieces(f, pos, s, pass == 0);
    HeadRoundTrip(f, pos, n, |s.store|);
    RecordsRoundTrip(f, pos + SectionHeaderSize, s.entries, start, pass);
  }

  lemma StoreInSection(s: Section, padded: bool)
    requires Fits(s)
    ensures var at := SectionHeaderSize + 16 * |s.entries|;
            SectionBytes(s, padded)[at..at + |s.store|] == s.store
  {
    var pad: seq<byte> := if padded then Zeros(Pad8(|s.store|) - |s.store|) else [];
    var front := HeadBytes(|s.entries|, |s.store|) + EntriesBytes(s.entries);
    assert SectionBytes(s, padded) == front + s.store + pad;
  }

  lemma FourParts(a: seq<byte>, b: seq<byte>, c: seq<byte>, d: seq<byte>)
    ensures var f := a + b + c + d;
            && f[|a|..|a| + |b|] == b
            && f[|a| + |b|..|a| + |b| + |c|] == c
            && f[|a| + |b| + |c|..] == d
  {
  }

  /** What `Decode` returns once both passes are known. */
  lemma DecodeOfSections(f: seq<byte>, sig: SectionRead, main: SectionRead)
    requires ReadSection(f, LeadSize, 0) == Success(sig)
    requires ReadSection(f, sig.next, 1) == Success(main)
    ensures MapSize(ToU32(main.next)) == 0 ==> Decode(f) == Failure(MapFailed)
    ensures MapSize(ToU32(main.next)) != 0 ==>
              Decode(f) == Success(TagStore(sig.entries + main.entries, f[..Min(|f|, MapSize(ToU32(main.next)))],
                                            main.next, MapSize(ToU32(main.next))))
  {
  }

  /** Where the signature store of a written package starts. */
  function SigStoreStart(sig: Section): nat {
    LeadSize + SectionHeaderSize + 16 * |sig.entries|
  }

  /** Where the main store of a written package starts. */
  function MainStoreStart(sig: Section, main: Section): nat
    requires Fits(sig)
  {
    SigStoreStart(sig) + Pad8(|sig.store|) + SectionHeaderSize + 16 * |main.entries|
  }

  /** The stores and the payload of a written package lie where the layout says. */
  lemma PackageParts(lead: seq<byte>, sig: Section, main: Section, payload: seq<byte>)
    requires |lead| == LeadSize && Fits(sig) && Fits(main)
    ensures var f := PackageBytes(lead, sig, main, payload);
            var p1 := LeadSize + |SectionBytes(sig, true)|;
            var end := MainStoreStart(sig, main) + |main.store|;
            && p1 == SigStoreStart(sig) + Pad8(|sig.store|)
            && end == |f| - |payload|
            && f[LeadSize..p1] == SectionBytes(sig, true)
            && f[p1..end] == SectionBytes(main, false)
            && f[SigStoreStart(sig)..SigStoreStart(sig) + |sig.store|] == sig.store
            && f[MainStoreStart(sig, main)..end] == main.store
            && f[end..] == payload
  {
    var s0 := SectionBytes(sig, true);
    var s1 := SectionBytes(main, false);
    var f := PackageBytes(lead, sig, main, payload);
    var p1 := LeadSize + |s0|;
    FourParts(lead, s0, s1, payload);
    assert f[SigStoreStart(sig)..SigStoreStart(sig) + |sig.store|] == sig.store by {
      StoreInSection(sig, true);
      Within(f, LeadSize, s0, SectionHeaderSize + 16 * |sig.entries|, sig.store);
    }
    assert f[MainStoreStart(sig, main)..MainStoreStart(sig, main) + |main.store|] == main.store by {
      StoreInSection(main, false);
      Within(f, p1, s1, SectionHeaderSize + 16 * |main.entries|, main.store);
    }
  }

  /**
   * Decoding a written package recovers the layout: the signature records
   * renumbered by -743, every record's offset made absolute against its own
   * store (which `PackageParts` places), the signature store padded to 8
   * bytes before the main section, and the end position where the payload
   * starts. It fails only when that end lies in the last page of the 32-bit
   * range, where the mapping length wraps to 0.
   */
  lemma DecodePackage(lead: seq<byte>, sig: Section, main: Section, payload: seq<byte>)
    requires |lead| == LeadSize && Fits(sig) && Fits(main)
    ensures var f := PackageBytes(lead, sig, main, payload);
            var end := MainStoreStart(sig, main) + |main.store|;
            && end + |payload| == |f|
            && (Decode(f).Failure? <==> end % Two32 >= Two32 - PageSize)
            && (Decode(f).Failure? ==> Decode(f).error == MapFailed)
            && (Decode(f).Success? ==>
                  && Decode(f).value.index
                     == Resolved(sig.entries, SigStoreStart(sig), 0) + Resolved(main.entries, MainStoreStart(sig, main), 1)
                  && Decode(f).value.end == end)
  {
    var f := PackageBytes(lead, sig, main, payload);
    var end := MainStoreStart(sig, main) + |main.store|;
    PackageParts(lead, sig, main, payload);
    DecodeWritten(lead, sig, main, payload);
    assert MapSize(ToU32(end)) == 0 <==> end % Two32 >= Two32 - PageSize;
  }

  /** `Decode` of a written package, in terms of its two sections and the end of its main store. */
  lemma DecodeWritten(lead: seq<byte>, sig: Section, main: Section, payload: seq<byte>)
    requires |lead| == LeadSize && Fits(sig) && Fits(main)
    ensures var f := PackageBytes(lead, sig, main, payload);
            var end := MainStoreStart(sig, main) + |main.store|;
            var index := Resolved(sig.entries, SigStoreStart(sig), 0) + Resolved(main.entries, MainStoreStart(sig, main), 1);
            Decode(f) == if MapSize(ToU32(end)) == 0 then Failure(MapFailed)
                         else Success(TagStore(index, f[..Min(|f|, MapSize(ToU32(end)))], end, MapSize(ToU32(end))))
  {
    var f := PackageBytes(lead, sig, main, payload);
    var end := MainStoreStart(sig, main) + |main.store|;
    SignatureSectionRead(lead, sig, main, payload);
    MainSectionRead(lead, sig, main, payload);
    var sr := SectionRead(Resolved(sig.entries, SigStoreStart(sig), 0), SigStoreStart(sig), LeadSize + |SectionBytes(sig, true)|);
    var mr := SectionRead(Resolved(main.entries, MainStoreStart(sig, main), 1), MainStoreStart(sig, main), end);
    DecodeOfSections(f, sr, mr);
  }

  /** The signature section of a written package reads back as written, renumbered. */
  lemma SignatureSectionRead(lead: seq<byte>, sig: Section, main: Section, payload: seq<byte>)
    requires |lead| == LeadSize && Fits(sig) && Fits(main)
    ensures ReadSection(PackageBytes(lead, sig, main, payload), LeadSize, 0)
            == Success(SectionRead(Resolved(sig.entries, SigStoreStart(sig), 0), SigStoreStart(sig),
                                   LeadSize + |SectionBytes(sig, true)|))
  {
    PackageParts(lead, sig, main, payload);
    SectionRoundTrip(PackageBytes(lead, sig, main, payload), LeadSize, sig, 0);
  }

  /** The main section of a written package reads back as written, after the padded signature store. */
  lemma MainSectionRead(lead: seq<byte>, sig: Section, main: Section, payload: seq<byte>)
    requires |lead| == LeadSize && Fits(sig) && Fits(main)
    ensures ReadSection(PackageBytes(lead, sig, main, payload), LeadSize + |SectionBytes(sig, true)|, 1)
            == Success(SectionRead(Resolved(main.entries, MainStoreStart(sig, main), 1), MainStoreStart(sig, main),
                                   MainStoreStart(sig, main) + |main.store|))
  {
    var f := PackageBytes(lead, sig, main, payload);
    var p1 := LeadSize + |SectionBytes(sig, true)|;
    PackageParts(lead, sig, main, payload);
    var s1 := SectionBytes(main, false);
    assert p1 + |s1| == MainStoreStart(sig, main) + |main.store|;
    assert f[p1..p1 + |s1|] == s1;
    SectionRoundTrip(f, p1, main, 1);
    assert p1 + SectionHeaderSize + 16 * |main.entries| == MainStoreStart(sig, main);
  }
}

=== FILE: reflink.dfy ===
/**
 * The reflink install of `reflink_package`: when the payload starts with the
 * reflink marker, every file of the package is recreated from the tag store
 * alone. Directories and symlinks are made from their modes and targets,
 * each canonical regular file is cloned from its page-aligned extent of the
 * package file, and further members of a hard-link group become links to the
 * group's first file. The file system is not touched: the planner yields the
 * actions in order, the running payload offset, and how it stopped.
 */
module Reflink {
  import opened Base
  import opened Header
  import opened Tags
  import opened Hardlinks

  /** The big-endian word that opens a reflink payload. */
  const ReflinkMarker: int := 12245589

  /** The `st_mode` file-type field and its values (`S_IFMT`, `S_IFDIR`, `S_IFLNK`, `S_IFREG`). */
  const TypeField: int := 0x1_0000
  const TypeDir: int := 0x4000
  const TypeLink: int := 0xA000
  const TypeRegular: int := 0x8000

  /** Octal 0755, the mode of directories made on the way. */
  const Mode0755: int := 0x1ED

  /** The settings `reflink_package` reads from the option parser and the process. */
  datatype Config = Config(
    root: Option<string>,        // `--root` / `-r`, NULL when not given
    onlyPrefix: Option<string>,  // `--only-prefix`
    force: bool,                 // `--force`: replace existing files
    nonRoot: bool,               // `getuid() != 0`
    asWritten: bool)             // paths carry the root as the C code prints it (see `Prefix`)

  /**
   * What the accessors yield for one file. Each value is read only where the
   * C code reads it, so a value that would fault matters only on that path.
   * The directory and base name are kept as the pointers `rpm_getstr` gives;
   * `dir` and `name` are those strings read in full.
   */
  datatype FileTags = FileTags(
    dirAt: Read<Option<CBytes>>,   // d: dirnames[dirindexes[i]]
    nameAt: Read<Option<CBytes>>,  // n: basenames[i]
    flags: Read<int>,
    mode: Read<int>,
    linkTo: Read<Option<string>>,
    inode: Read<int>,
    size: Read<int>)
  {
    const dir: Read<Option<string>> := Whole(dirAt)
    const name: Read<Option<string>> := Whole(nameAt)
  }

  datatype Action =
    | MkDir(path: string, perms: int)           // bb_make_directory, recursive
    | Symlink(target: Option<string>, path: string)
    | Link(existing: string, path: string)
    | Clone(path: string, perms: int, replace: bool, srcOff: int, len: int, size: int)
    | SkipSpecial(shown: string)                 // the "skip special file %s/%s" line

  /** Why a run ends early: a NULL or out-of-image dereference, a failed allocation, or the "not found" die. */
  datatype Halt = Crash | OutOfMemory | InodeNotFound(inode: int)

  /** Actions taken, the payload offset reached, and whether the run stopped there. */
  datatype Step = Step(actions: seq<Action>, off: nat, halt: Option<Halt>)

  // ----- Reading the per-file tags -----

  function FileTagsAt(st: TagStore, i: int): FileTags {
    FileTags(
      DirAt(st, i),
      Located(st, TagBaseNames, i),
      GetInt(st, TagFileFlags, i),
      GetInt(st, TagFileModes, i),
      AsText(GetStr(st, TagFileLinkTos, i)),
      GetInt(st, TagFileInodes, i),
      GetInt(st, TagFileSizes, i))
  }

  function FilesOf(st: TagStore, n: nat): (files: seq<FileTags>)
    ensures |files| == n
    ensures forall i :: 0 <= i < n ==> files[i] == FileTagsAt(st, i)
  {
    seq(n, i requires 0 <= i < n => FileTagsAt(st, i))
  }

  /** The inode table's values, read for every file before anything is done. */
  function Inodes(files: seq<FileTags>): (r: Read<seq<int>>)
    ensures r.Ok? ==> |r.value| == |files| && forall i :: 0 <= i < |files| ==> files[i].inode == Ok(r.value[i])
    ensures r.Fault? ==> exists i :: 0 <= i < |files| && files[i].inode.Fault?
  {
    if forall i :: 0 <= i < |files| ==> files[i].inode.Ok? then
      Ok(seq(|files|, i requires 0 <= i < |files| && files[i].inode.Ok? => files[i].inode.value))
    else Fault
  }

  // ----- Modes and flags -----

  /** `mode & S_IFMT` of a mode read as `unsigned`. */
  function FileType(mode: int): int {
    ToU32(mode) % TypeField / 0x1000 * 0x1000
  }

  predicate IsDir(mode: int) {
    FileType(mode) == TypeDir
  }

  predicate IsSymlink(mode: int) {
    FileType(mode) == TypeLink
  }

  predicate IsRegular(mode: int) {
    FileType(mode) == TypeRegular
  }

  /** `mode & 07777`: the permission and set-id bits. */
  function Perms(mode: int): (r: int)
    ensures 0 <= r < 0x1000
    ensures (ToU32(mode) - r) % 0x1000 == 0
  {
    ToU32(mode) % 0x1000
  }

  /**
   * The mode a directory entry is made with: its own permission bits, with
   * owner read, write and search added (`| 0700`) when not running as root,
   * so that the tree below it can still be filled.
   */
  function DirPerms(mode: int, nonRoot: bool): (r: int)
    ensures 0 <= r < 0x1000
    ensures r % 0x40 == Perms(mode) % 0x40 && r / 0x200 == Perms(mode) / 0x200
    ensures r / 0x40 % 8 == (if nonRoot then 7 else Perms(mode) / 0x40 % 8)
  {
    var p := Perms(mode);
    if nonRoot then p / 0x200 * 0x200 + 7 * 0x40 + p % 0x40 else p
  }

  // ----- Paths -----

  /**
   * The install root as a prefix, or nothing when none was given: how line
   * 646 forms the header directory, and the evident intent of the paths the
   * reflink install makes.
   */
  function Root(root: Option<string>): (r: string)
    ensures root.Some? ==> r == root.value
    ensures root.None? ==> r == []
  {
    root.GetOr([])
  }

  /**
   * The prefix as the C code writes it: `%s` of `G.install_root`, which
   * stays NULL when no root was given, so glibc prints "(null)".
   */
  function RootAsWritten(root: Option<string>): (r: string)
    ensures root.Some? ==> r == Root(root)
    ensures root.None? ==> r != Root(root)
  {
    Show(root)
  }

  /**
   * The text the planner puts before every path it makes: the root as
   * written, or as corrected. The two differ only when no root was given.
   */
  function Prefix(cfg: Config): (r: string)
    ensures cfg.root.Some? ==> r == cfg.root.value
    ensures cfg.root.None? ==> r == (if cfg.asWritten then "(null)" else [])
  {
    if cfg.asWritten then RootAsWritten(cfg.root) else Root(cfg.root)
  }

  /** `xasprintf("%s%s", G.install_root, d)`: the directory a file is put in. */
  function DirPath(cfg: Config, d: Option<string>): string {
    Prefix(cfg) + Show(d)
  }

  /** `xasprintf("%s%s%s", G.install_root, d, n)`: where a file is put. */
  function FullPath(cfg: Config, d: Option<string>, n: Option<string>): string {
    DirPath(cfg, d) + Show(n)
  }

  /**
   * Without `--root`, the code as written puts every file under "(null)",
   * relative to the working directory, where the corrected planner puts it
   * at its own path: `/usr/bin/sh` becomes `(null)/usr/bin/sh`.
   */
  lemma UnsetRootPath(cfg: Config, d: Option<string>, n: Option<string>)
    requires cfg.root.None?
    ensures FullPath(cfg.(asWritten := true), d, n) == "(null)" + FullPath(cfg.(asWritten := false), d, n)
    ensures DirPath(cfg.(asWritten := true), d) == "(null)" + DirPath(cfg.(asWritten := false), d)
    ensures FullPath(cfg.(asWritten := false), Some("/usr/bin/"), Some("sh")) == "/usr/bin/sh"
  {
  }

  /**
   * `G.only_prefix && strncmp(d, G.only_prefix, strlen(G.only_prefix))`:
   * the file lies outside the requested prefix. `strncmp` reads `d` only up
   * to the first difference or the prefix's length. Comparing a NULL
   * directory against a non-empty prefix dereferences NULL; so does a
   * directory with no NUL before the image ends that agrees with the
   * prefix as far as the image goes.
   */
  function Filtered(prefix: Option<string>, d: Option<CBytes>): (r: Read<bool>)
    ensures r.Fault? <==>
              && prefix.Some? && prefix.value != []
              && (d.None? || (!d.value.whole && Text(d.value.bytes) < prefix.value))
    ensures r.Ok? ==> (r.value <==> prefix.Some? && d.Some? && !(prefix.value <= Text(d.value.bytes)))
  {
    match prefix
    case None => Ok(false)
    case Some(p) =>
      if p == [] then Ok(false)
      else
        match d
        case None => Fault
        case Some(c) =>
          var t := Text(c.bytes);
          if p <= t then Ok(false)
          else if c.whole || !(t <= p) then Ok(true)
          else Fault
  }

  // ----- Payload offsets -----

  /** The padding `create_clone_from` adds so that the cloned length is whole pages. */
  function ClonePad(size: U32): (pad: int)
    ensures 0 <= pad < PageSize
    ensures (size + pad) % PageSize == 0
  {
    if size % PageSize != 0 then PageSize - size % PageSize else 0
  }

  /** The payload start: the descriptor's position rounded up to a page. */
  function AlignUp(pos: nat): (r: nat)
    ensures r % PageSize == 0 && pos <= r < pos + PageSize
  {
    if pos % PageSize != 0 then pos + (PageSize - pos % PageSize) else pos
  }

  /** `off += size; if (off & 4095) off += 4096 - (size & 4095);` as written. */
  function NextOffset(off: nat, size: U32): nat {
    var o := off + size;
    if o % PageSize != 0 then o + (PageSize - size % PageSize) else o
  }

  /**
   * From a page-aligned offset, the next file's extent starts right after
   * this one's whole pages, and the offset stays aligned. (The update pads
   * by the size's remainder, not the offset's, which agrees only because the
   * offset starts aligned.)
   */
  lemma NextOffsetAligned(off: nat, size: U32)
    requires off % PageSize == 0
    ensures NextOffset(off, size) == off + size + ClonePad(size)
    ensures NextOffset(off, size) % PageSize == 0
  {
    assert (off + size) % PageSize == size % PageSize;
  }

  /** The extent the clone covers, stated without the padding formula. */
  lemma CloneLength(size: U32)
    ensures var len := size + ClonePad(size);
            len % PageSize == 0 && size <= len < size + PageSize
  {
  }

  // ----- The per-file plan -----

  /** Every kept table entry names a file of the package. */
  ghost predicate KeptIn(kept: seq<Ifi>, n: nat) {
    forall k :: 0 <= k < |kept| ==> 0 <= kept[k].fi < n
  }

  /**
   * The size a file's clone takes from the payload, if it takes one: a
   * regular file, not a ghost, whose inode search lands on its own entry.
   * Whether the file is inside the requested prefix does not matter.
   */
  function ClonedSize(files: seq<FileTags>, kept: seq<Ifi>, i: nat): Option<U32>
    requires i < |files| && KeptIn(kept, |files|)
  {
    var f := files[i];
    match (f.flags, f.mode, f.inode, f.size)
    case (Ok(flags), Ok(mode), Ok(inode), Ok(size)) =>
      if !HasFlag(flags, FileGhost) && IsRegular(mode) then
        match FindInode(kept, inode)
        case Some(k) => if kept[k].fi == i then Some(ToU32(size)) else None
        case None => None
      else None
    case _ => None
  }

  /** The file whose entry the inode search finds for file `i`: the head of its hard-link group. */
  function GroupHead(files: seq<FileTags>, kept: seq<Ifi>, i: nat): (r: Option<nat>)
    requires i < |files| && KeptIn(kept, |files|)
    ensures r.Some? ==> r.value < |files|
  {
    match files[i].inode
    case Fault => None
    case Ok(inode) =>
      match FindInode(kept, inode)
      case None => None
      case Some(k) => Some(kept[k].fi)
  }

  /** `a` is the link `reflink_package` makes for file `i`: to its group's head, by full path. */
  ghost predicate LinksToHead(cfg: Config, files: seq<FileTags>, kept: seq<Ifi>, i: nat, a: Action)
    requires i < |files| && KeptIn(kept, |files|)
  {
    match GroupHead(files, kept, i)
    case None => false
    case Some(j) =>
      && j != i
      && files[j].dir.Ok? && files[j].name.Ok?
      && a.Link? && a.existing == FullPath(cfg, files[j].dir.value, files[j].name.value)
  }

  /** A regular file that is not a ghost: the kind the reflink install clones or links. */
  ghost predicate RegularFile(f: FileTags) {
    f.flags.Ok? && !HasFlag(f.flags.value, FileGhost) && f.mode.Ok? && IsRegular(f.mode.value)
  }

  /** The file lies inside `--only-prefix`, or none was given: its step acts on the file system. */
  ghost predicate InPrefix(cfg: Config, f: FileTags) {
    f.dir.Ok? && Filtered(cfg.onlyPrefix, f.dirAt.value) == Ok(false)
  }

  /**
   * What a regular file that is not skipped gets when its step completes:
   * its directory, then a clone of its whole pages from `off` if it heads
   * its hard-link group, or else a link to the group's head.
   */
  ghost predicate RegularPlaced(cfg: Config, files: seq<FileTags>, kept: seq<Ifi>, i: nat, off: nat,
                                d: Option<string>, n: Option<string>, mode: int, acts: seq<Action>)
    requires i < |files| && KeptIn(kept, |files|)
  {
    && |acts| == 2
    && acts[0] == MkDir(DirPath(cfg, d), Mode0755)
    && match ClonedSize(files, kept, i)
       case Some(size) => acts[1] == Clone(FullPath(cfg, d, n), Perms(mode), cfg.force, off, Pages(Some(size)), size)
       case None => LinksToHead(cfg, files, kept, i, acts[1]) && acts[1].path == FullPath(cfg, d, n)
  }

  /**
   * The regular-file tail of the per-file loop: make the directory unless
   * filtered, then either link to the group's first file or clone the
   * file's extent, and advance the payload offset past a canonical file.
   */
  function PlaceRegular(cfg: Config, files: seq<FileTags>, kept: seq<Ifi>, i: nat, off: nat,
                        d: Option<string>, n: Option<string>, mode: int, skip: bool): (r: Step)
    requires i < |files| && KeptIn(kept, |files|)
    requires files[i].flags.Ok? && !HasFlag(files[i].flags.value, FileGhost)
    requires files[i].mode == Ok(mode) && IsRegular(mode)
    ensures r.halt.None? ==> r.off == NextOffsetOf(files, kept, i, off) && n.Some?
    ensures r.halt.None? && skip ==> r.actions == []
    ensures !skip ==> |r.actions| > 0 && r.actions[0] == MkDir(DirPath(cfg, d), Mode0755)
    ensures r.halt.Some? ==> r.off == off
    ensures forall a :: a in r.actions && a.Clone? ==>
              !skip && a.srcOff == off && 0 <= a.size < Two32 && a.len == a.size + ClonePad(a.size)
    ensures forall a :: a in r.actions && a.Link? ==> !skip && LinksToHead(cfg, files, kept, i, a)
    ensures forall p :: 0 <= p < |r.actions| && r.actions[p].Clone? ==>
              p == |r.actions| - 1 && r.halt.None? && ClonedSize(files, kept, i).Some? && ClonedSize(files, kept, i).value == r.actions[p].size
    ensures r.halt.Some? && r.halt.value.InodeNotFound? ==> files[i].inode.Ok? && GroupHead(files, kept, i).None?
    ensures r.halt.None? && !skip ==> RegularPlaced(cfg, files, kept, i, off, d, n, mode, r.actions)
  {
    var mk := if skip then [] else [MkDir(DirPath(cfg, d), Mode0755)];
    match (n, files[i].inode)
    case (None, _) => Step(mk, off, Some(Crash))
    case (Some(_), Fault) => Step(mk, off, Some(Crash))
    case (Some(name), Ok(inode)) =>
      match FindInode(kept, inode)
      case None => Step(mk, off, Some(InodeNotFound(inode)))
      case Some(k) => LinkOrClone(cfg, files, kept, i, off, d, n, mode, skip, k)
  }

  /** The tail of `PlaceRegular` once the search has found entry `k`: link to its file, or clone. */
  function LinkOrClone(cfg: Config, files: seq<FileTags>, kept: seq<Ifi>, i: nat, off: nat,
                       d: Option<string>, n: Option<string>, mode: int, skip: bool, k: nat): (r: Step)
    requires i < |files| && KeptIn(kept, |files|)
    requires files[i].flags.Ok? && !HasFlag(files[i].flags.value, FileGhost)
    requires files[i].mode == Ok(mode) && IsRegular(mode) && n.Some?
    requires files[i].inode.Ok? && FindInode(kept, files[i].inode.value) == Some(k)
    ensures r.halt.None? ==> r.off == NextOffsetOf(files, kept, i, off)
    ensures r.halt.None? && skip ==> r.actions == []
    ensures !skip ==> |r.actions| > 0 && r.actions[0] == MkDir(DirPath(cfg, d), Mode0755)
    ensures r.halt.Some? ==> r.off == off && r.halt.value == Crash
    ensures forall a :: a in r.actions && a.Clone? ==>
              !skip && a.srcOff == off && 0 <= a.size < Two32 && a.len == a.size + ClonePad(a.size)
    ensures forall a :: a in r.actions && a.Link? ==> !skip && LinksToHead(cfg, files, kept, i, a)
    ensures forall p :: 0 <= p < |r.actions| && r.actions[p].Clone? ==>
              p == |r.actions| - 1 && r.halt.None? && ClonedSize(files, kept, i).Some? && ClonedSize(files, kept, i).value == r.actions[p].size
    ensures r.halt.None? && !skip ==> RegularPlaced(cfg, files, kept, i, off, d, n, mode, r.actions)
  {
    var mk := if skip then [] else [MkDir(DirPath(cfg, d), Mode0755)];
    var path := FullPath(cfg, d, n);
    var fi := kept[k].fi;
    if fi != i then
      if skip then Step([], off, None)
      else
        match (files[fi].dir, files[fi].name)
        case (Ok(od), Ok(on)) => Step(mk + [Link(FullPath(cfg, od, on), path)], off, None)
        case _ => Step(mk, off, Some(Crash))
    else
      match files[i].size
      case Fault => Step(mk, off, Some(Crash))
      case Ok(sz) =>
        var size := ToU32(sz);
        var clone := if skip then [] else [Clone(path, Perms(mode), cfg.force, off, size + ClonePad(size), size)];
        Step(mk + clone, NextOffset(off, size), None)
  }

  /** The payload offset after file `i`, when its step completes. */
  function NextOffsetOf(files: seq<FileTags>, kept: seq<Ifi>, i: nat, off: nat): nat
    requires i < |files| && KeptIn(kept, |files|)
  {
    match ClonedSize(files, kept, i)
    case Some(size) => NextOffset(off, size)
    case None => off
  }

  /**
   * Directories, symlinks and special files, once the file is known not to
   * be filtered out (or to be regular).
   */
  function Place(cfg: Config, files: seq<FileTags>, kept: seq<Ifi>, i: nat, off: nat,
                 d: Option<string>, n: Option<string>, mode: int, skip: bool): (r: Step)
    requires i < |files| && KeptIn(kept, |files|)
    requires files[i].flags.Ok? && !HasFlag(files[i].flags.value, FileGhost)
    requires files[i].mode == Ok(mode)
    requires skip ==> IsRegular(mode)
    ensures r.halt.None? ==> r.off == NextOffsetOf(files, kept, i, off)
    ensures r.halt.Some? ==> r.off == off
    ensures forall a :: a in r.actions && a.Clone? ==>
              !skip && a.srcOff == off && 0 <= a.size < Two32 && a.len == a.size + ClonePad(a.size)
    ensures forall a :: a in r.actions && a.Link? ==> !skip && LinksToHead(cfg, files, kept, i, a)
    ensures forall p :: 0 <= p < |r.actions| && r.actions[p].Clone? ==>
              p == |r.actions| - 1 && r.halt.None? && ClonedSize(files, kept, i).Some? && ClonedSize(files, kept, i).value == r.actions[p].size
    ensures r.halt.Some? && r.halt.value.InodeNotFound? ==> files[i].inode.Ok? && GroupHead(files, kept, i).None?
    ensures IsDir(mode) ==> r == Step([MkDir(FullPath(cfg, d, n), DirPerms(mode, cfg.nonRoot))], off, None)
    ensures IsSymlink(mode) && files[i].linkTo.Ok? ==>
              r == Step([MkDir(DirPath(cfg, d), Mode0755), Symlink(files[i].linkTo.value, FullPath(cfg, d, n))], off, None)
    ensures !IsDir(mode) && !IsSymlink(mode) && !IsRegular(mode) ==>
              r == Step([SkipSpecial(Show(d) + "/" + Show(n))], off, None)
    ensures IsRegular(mode) && r.halt.None? ==>
              if skip then r.actions == [] else RegularPlaced(cfg, files, kept, i, off, d, n, mode, r.actions)
  {
    if IsDir(mode) then
      Step([MkDir(FullPath(cfg, d, n), DirPerms(mode, cfg.nonRoot))], off, None)
    else if IsSymlink(mode) then
      match files[i].linkTo
      case Fault => Step([], off, Some(Crash))
      case Ok(target) =>
        Step([MkDir(DirPath(cfg, d), Mode0755), Symlink(target, FullPath(cfg, d, n))], off, None)
    else if !IsRegular(mode) then
      Step([SkipSpecial(Show(d) + "/" + Show(n))], off, None)
    else
      PlaceRegular(cfg, files, kept, i, off, d, n, mode, skip)
  }

  /**
   * One iteration of the per-file loop of `reflink_package`, from the
   * payload offset `off`. The directory and base name pointers and the flags
   * are read first; a ghost yields nothing without reading either string;
   * the prefix test reads the directory only as far as `strncmp` does; a
   * file outside the requested prefix yields nothing unless it is regular;
   * every other file reads both strings in full.
   */
  function FileStep(cfg: Config, files: seq<FileTags>, kept: seq<Ifi>, i: nat, off: nat): (r: Step)
    requires i < |files| && KeptIn(kept, |files|)
    ensures r.halt.None? ==> r.off == NextOffsetOf(files, kept, i, off)
    ensures r.halt.Some? ==> r.off == off
    ensures forall a :: a in r.actions && a.Clone? ==>
              a.srcOff == off && 0 <= a.size < Two32 && a.len == a.size + ClonePad(a.size)
    ensures forall a :: a in r.actions && a.Link? ==> LinksToHead(cfg, files, kept, i, a)
    ensures files[i].dirAt.Ok? && files[i].nameAt.Ok? && files[i].flags.Ok? && HasFlag(files[i].flags.value, FileGhost) ==>
              r == Step([], off, None)
    ensures files[i].dirAt.Ok? && files[i].nameAt.Ok? && files[i].flags.Ok? && files[i].mode.Ok? &&
            !IsRegular(files[i].mode.value) && Filtered(cfg.onlyPrefix, files[i].dirAt.value) == Ok(true) ==>
              r == Step([], off, None)
    ensures forall p :: 0 <= p < |r.actions| && r.actions[p].Clone? ==> p == |r.actions| - 1
    ensures r.halt.None? ==>
              ((exists p :: 0 <= p < |r.actions| && r.actions[p].Clone?) <==>
                 ClonedSize(files, kept, i).Some? && InPrefix(cfg, files[i]))
    ensures r.halt.None? && InPrefix(cfg, files[i]) && ClonedSize(files, kept, i).Some? ==>
              && files[i].dir.Ok? && files[i].name.Ok? && files[i].mode.Ok?
              && Clone(FullPath(cfg, files[i].dir.value, files[i].name.value), Perms(files[i].mode.value), cfg.force,
                       off, Pages(ClonedSize(files, kept, i)), ClonedSize(files, kept, i).value) in r.actions
    ensures r.halt.None? && InPrefix(cfg, files[i]) && RegularFile(files[i]) && ClonedSize(files, kept, i).None? ==>
              && files[i].name.Ok?
              && exists a :: a in r.actions && LinksToHead(cfg, files, kept, i, a)
                               && a.path == FullPath(cfg, files[i].dir.value, files[i].name.value)
  {
    var f := files[i];
    match (f.dirAt, f.nameAt, f.flags)
    case (Ok(dp), Ok(_), Ok(flags)) =>
      if HasFlag(flags, FileGhost) then Step([], off, None)
      else
        (match (Filtered(cfg.onlyPrefix, dp), f.mode)
         case (Ok(skip), Ok(mode)) =>
           if skip && !IsRegular(mode) then Step([], off, None)
           else
             (match (f.dir, f.name)
              case (Ok(d), Ok(n)) => Place(cfg, files, kept, i, off, d, n, mode, skip)
              case _ => Step([], off, Some(Crash)))
         case _ => Step([], off, Some(Crash)))
    case _ => Step([], off, Some(Crash))
  }

  /**
   * A ghost file whose base name runs to the end of the image without a
   * NUL is passed over: reading that name in full would fault, but the loop
   * never reads it.
   */
  lemma GhostNameUnread(cfg: Config, off: nat)
    ensures var st := TagStore([IndexEntry(TagBaseNames, StringArrayType, 0, 1)], [0x61], 0, PageSize);
            var f := FileTags(Ok(Some(CBytes([0x2f], true))), Located(st, TagBaseNames, 0),
                              Ok(FileGhost), Ok(0), Ok(None), Ok(1), Ok(0));
            && GetStr(st, TagBaseNames, 0) == Fault && f.name == Fault
            && FileStep(cfg, [f], [Ifi(1, 0)], 0, off) == Step([], off, None)
  {
    var st := TagStore([IndexEntry(TagBaseNames, StringArrayType, 0, 1)], [0x61], 0, PageSize);
    assert FindTag(st.index, TagBaseNames) == Some(0);
    assert SkipStrings(st.image, 0, 0) == Ok(0);
    assert NulFrom(st.image, 0).Fault? by {
      NulFromFaults(st.image, 0);
    }
  }

  /** The kept entries of any inode list name files of the list. */
  lemma {:induction false} GroupsIn(inodes: seq<int>)
    ensures KeptIn(Groups(inodes), |inodes|)
  {
    var s := SortIfi(Table(inodes));
    var h := Groups(inodes);
    GroupsShape(inodes);
    forall k | 0 <= k < |h|
      ensures 0 <= h[k].fi < |inodes|
    {
      var q :| 0 <= q < |s| && s[q] == h[k];
      SortedEntries(inodes, q);
    }
  }

  /** With every inode read, the search finds the first file of each file's hard-link group. */
  lemma {:induction false} GroupHeadIsFirst(files: seq<FileTags>, inodes: seq<int>, i: nat)
    requires Inodes(files) == Ok(inodes) && i < |files|
    ensures KeptIn(Groups(inodes), |files|)
    ensures GroupHead(files, Groups(inodes), i) == Some(FirstOf(inodes, i))
  {
    GroupsIn(inodes);
    GroupFindsFirst(inodes, i);
  }

  /**
   * Which files are cloned, stated without the search: each regular,
   * non-ghost file whose size can be read and that no earlier file shares
   * its inode with, that is, each hard-link group once, at its first file.
   */
  lemma {:induction false} ClonedOncePerGroup(files: seq<FileTags>, inodes: seq<int>, i: nat)
    requires Inodes(files) == Ok(inodes) && i < |files|
    ensures KeptIn(Groups(inodes), |files|)
    ensures var f := files[i];
            ClonedSize(files, Groups(inodes), i).Some? <==>
              && f.flags.Ok? && f.mode.Ok? && f.size.Ok?
              && !HasFlag(f.flags.value, FileGhost) && IsRegular(f.mode.value)
              && FirstWithInode(inodes, i)
    ensures ClonedSize(files, Groups(inodes), i).Some? ==>
              ClonedSize(files, Groups(inodes), i).value == ToU32(files[i].size.value)
  {
    GroupsIn(inodes);
    GroupOf(inodes, i);
  }

  /** Every link a step makes points at the full path of the first, earlier, file of the group. */
  lemma {:induction false} LinkTargetsFirst(cfg: Config, files: seq<FileTags>, inodes: seq<int>, i: nat, off: nat)
    requires Inodes(files) == Ok(inodes) && i < |files|
    ensures KeptIn(Groups(inodes), |files|)
    ensures forall a :: a in FileStep(cfg, files, Groups(inodes), i, off).actions && a.Link? ==>
              var j := FirstOf(inodes, i);
              && j < i && files[j].dir.Ok? && files[j].name.Ok?
              && a.existing == FullPath(cfg, files[j].dir.value, files[j].name.value)
  {
    GroupHeadIsFirst(files, inodes, i);
  }

  /** A step stops with "inode not found" only when the search misses the file's inode. */
  lemma {:induction false} StepNotFound(cfg: Config, files: seq<FileTags>, kept: seq<Ifi>, i: nat, off: nat)
    requires i < |files| && KeptIn(kept, |files|)
    ensures var r := FileStep(cfg, files, kept, i, off);
            r.halt.Some? && r.halt.value.InodeNotFound? ==> files[i].inode.Ok? && GroupHead(files, kept, i).None?
  {
  }

  /** The search finds every file's inode among the kept entries. */
  ghost predicate AllFound(files: seq<FileTags>, kept: seq<Ifi>) {
    && KeptIn(kept, |files|)
    && forall i {:trigger GroupHead(files, kept, i)} :: 0 <= i < |files| ==> GroupHead(files, kept, i).Some?
  }

  /** When every inode was read, the "can not happen" die of `reflink_package` indeed cannot. */
  lemma {:induction false} GroupsFindAll(files: seq<FileTags>, inodes: seq<int>)
    requires Inodes(files) == Ok(inodes)
    ensures AllFound(files, Groups(inodes))
  {
    GroupsIn(inodes);
    forall i | 0 <= i < |files|
      ensures GroupHead(files, Groups(inodes), i).Some?
    {
      GroupHeadIsFirst(files, inodes, i);
    }
  }

  // ----- Payload accounting -----

  /** The whole pages a clone of `size` bytes takes from the payload; none for no clone. */
  function Pages(size: Option<U32>): (r: nat)
    ensures r % PageSize == 0
    ensures size.Some? ==> size.value <= r < size.value + PageSize
    ensures size.None? ==> r == 0
  {
    match size
    case Some(z) => z + ClonePad(z)
    case None => 0
  }

  /** The payload bytes the first `n` files take. */
  function Extent(sizes: seq<Option<U32>>, n: nat): nat
    requires n <= |sizes|
  {
    if n == 0 then 0 else Extent(sizes, n - 1) + Pages(sizes[n - 1])
  }

  /** Where file `k`'s extent starts: past the whole pages of the files before it. */
  function ExtentStart(sizes: seq<Option<U32>>, k: nat, start: nat): nat
    requires k <= |sizes|
  {
    start + Extent(sizes, k)
  }

  /** `sizes` lists every file's cloned size. */
  ghost predicate SizesOf(files: seq<FileTags>, kept: seq<Ifi>, sizes: seq<Option<U32>>) {
    && KeptIn(kept, |files|)
    && |sizes| == |files|
    && forall i {:trigger ClonedSize(files, kept, i)} :: 0 <= i < |files| ==> sizes[i] == ClonedSize(files, kept, i)
  }

  function CloneSizes(files: seq<FileTags>, kept: seq<Ifi>): (r: seq<Option<U32>>)
    requires KeptIn(kept, |files|)
    ensures SizesOf(files, kept, r)
  {
    seq(|files|, i requires 0 <= i < |files| => ClonedSize(files, kept, i))
  }

  /**
   * The clones of `acts` take page-aligned, whole-page extents inside
   * [lo, hi), each covering its file's size, in increasing and disjoint
   * order.
   */
  ghost predicate ClonesWithin(acts: seq<Action>, lo: int, hi: int) {
    && (forall p :: 0 <= p < |acts| && acts[p].Clone? ==>
          && lo <= acts[p].srcOff && acts[p].srcOff + acts[p].len <= hi
          && acts[p].srcOff % PageSize == 0 && acts[p].len % PageSize == 0
          && acts[p].size <= acts[p].len < acts[p].size + PageSize)
    && (forall p, q :: 0 <= p < q < |acts| && acts[p].Clone? && acts[q].Clone? ==>
          acts[p].srcOff + acts[p].len <= acts[q].srcOff)
  }

  lemma {:induction false} ClonesAppend(a: seq<Action>, b: seq<Action>, lo: int, mid: int, hi: int)
    requires ClonesWithin(a, lo, mid) && ClonesWithin(b, mid, hi) && lo <= mid <= hi
    ensures ClonesWithin(a + b, lo, hi)
  {
    var ab := a + b;
    forall p | 0 <= p < |ab| && ab[p].Clone?
      ensures lo <= ab[p].srcOff && ab[p].srcOff + ab[p].len <= hi
    {
      if p < |a| {
        assert ab[p] == a[p];
      } else {
        assert ab[p] == b[p - |a|];
      }
    }
    forall p, q | 0 <= p < q < |ab| && ab[p].Clone? && ab[q].Clone?
      ensures ab[p].srcOff + ab[p].len <= ab[q].srcOff
    {
      if q < |a| {
        assert ab[p] == a[p] && ab[q] == a[q];
      } else if p >= |a| {
        assert ab[p] == b[p - |a|] && ab[q] == b[q - |a|];
      } else {
        assert ab[p] == a[p] && ab[q] == b[q - |a|];
      }
    }
  }

  /** One file's clone, if any, is the extent from `off` to the next offset. */
  lemma {:induction false} StepClones(cfg: Config, files: seq<FileTags>, kept: seq<Ifi>, i: nat, off: nat)
    requires i < |files| && KeptIn(kept, |files|) && off % PageSize == 0
    ensures var r := FileStep(cfg, files, kept, i, off);
            off <= r.off && ClonesWithin(r.actions, off, r.off)
  {
    var r := FileStep(cfg, files, kept, i, off);
    match ClonedSize(files, kept, i)
    case Some(size) => NextOffsetAligned(off, size);
    case None =>
  }

  /** The steps of a run: file `i` of `files` from payload offset `off`. */
  ghost function StepsOf(cfg: Config, files: seq<FileTags>, kept: seq<Ifi>): (nat, nat) -> Step {
    (i: nat, off: nat) =>
      if i < |files| && KeptIn(kept, |files|) then FileStep(cfg, files, kept, i, off) else Step([], off, Some(Crash))
  }

  /**
   * A loop over `n` steps as a fold: each step runs from the offset the
   * earlier ones reached, and the run stops at the first step that halts.
   */
  ghost function Run(step: (nat, nat) -> Step, n: nat, start: nat): Step {
    if n == 0 then Step([], start, None)
    else
      var p := Run(step, n - 1, start);
      if p.halt.Some? then p
      else
        var s := step(n - 1, p.off);
        Step(p.actions + s.actions, s.off, s.halt)
  }

  /** The per-file loop of `reflink_package` over the first `n` files, as a fold. */
  ghost function Plan(cfg: Config, files: seq<FileTags>, kept: seq<Ifi>, n: nat, start: nat): Step {
    Run(StepsOf(cfg, files, kept), n, start)
  }

  /** Once a run has stopped, later steps change nothing. */
  lemma {:induction false} RunStops(step: (nat, nat) -> Step, m: nat, n: nat, start: nat)
    requires m <= n && Run(step, m, start).halt.Some?
    ensures Run(step, n, start) == Run(step, m, start)
    decreases n
  {
    if n > m {
      RunStops(step, m, n - 1, start);
    }
  }

  /**
   * A run that completes `n` steps has completed every shorter run, and
   * their actions come first, in order.
   */
  lemma {:induction false} RunPrefix(step: (nat, nat) -> Step, m: nat, n: nat, start: nat)
    requires m <= n && Run(step, n, start).halt.None?
    ensures Run(step, m, start).halt.None?
    ensures Run(step, m, start).actions <= Run(step, n, start).actions
    decreases n
  {
    if n > m {
      var q := Run(step, n - 1, start);
      assert q.halt.None?;
      RunPrefix(step, m, n - 1, start);
      assert q.actions <= Run(step, n, start).actions;
    }
  }

  /**
   * What one step does to the payload accounting, from an aligned offset:
   * the offset stays aligned and moves past the file's whole pages, or
   * stays put when the step halts, and the step's clones lie in the extent
   * passed over.
   */
  ghost predicate Accounts(s: Step, off: nat, size: Option<U32>) {
    && s.off % PageSize == 0 && off <= s.off
    && ClonesWithin(s.actions, off, s.off)
    && (s.halt.None? ==> s.off == off + Pages(size))
    && (s.halt.Some? ==> s.off == off)
  }

  /** Every step of a loop over files with these clone sizes keeps the accounting. */
  ghost predicate StepsAccount(step: (nat, nat) -> Step, sizes: seq<Option<U32>>) {
    forall i: nat, off: nat :: i < |sizes| && off % PageSize == 0 ==> Accounts(step(i, off), off, sizes[i])
  }

  /** No step of the first `n` stops with "not found". */
  ghost predicate NeverMissing(step: (nat, nat) -> Step, n: nat) {
    forall i: nat, off: nat :: i < n && step(i, off).halt.Some? ==> !step(i, off).halt.value.InodeNotFound?
  }

  /** The file steps keep the accounting. */
  lemma {:induction false} FileStepsAccount(cfg: Config, files: seq<FileTags>, kept: seq<Ifi>, sizes: seq<Option<U32>>)
    requires SizesOf(files, kept, sizes)
    ensures StepsAccount(StepsOf(cfg, files, kept), sizes)
  {
    forall i: nat, off: nat | i < |sizes| && off % PageSize == 0
      ensures Accounts(StepsOf(cfg, files, kept)(i, off), off, sizes[i])
    {
      assert StepsOf(cfg, files, kept)(i, off) == FileStep(cfg, files, kept, i, off);
      StepClones(cfg, files, kept, i, off);
      assert sizes[i] == ClonedSize(files, kept, i);
      match ClonedSize(files, kept, i) {
        case Some(size) => NextOffsetAligned(off, size);
        case None =>
      }
    }
  }

  /** When the search finds every inode, no file step stops with "not found". */
  lemma {:induction false} FileStepsFind(cfg: Config, files: seq<FileTags>, kept: seq<Ifi>)
    requires AllFound(files, kept)
    ensures NeverMissing(StepsOf(cfg, files, kept), |files|)
  {
    forall i: nat, off: nat | i < |files|
      ensures var s := StepsOf(cfg, files, kept)(i, off);
              s.halt.Some? ==> !s.halt.value.InodeNotFound?
    {
      StepNotFound(cfg, files, kept, i, off);
      assert GroupHead(files, kept, i).Some?;
    }
  }

  /**
   * A run of accounting steps: the offset stays aligned, a run that has not
   * stopped is at the start plus the whole pages of the first `n` files,
   * and the clones take disjoint extents in order.
   */
  lemma {:induction false} RunAccounts(step: (nat, nat) -> Step, sizes: seq<Option<U32>>, n: nat, start: nat)
    requires StepsAccount(step, sizes) && n <= |sizes| && start % PageSize == 0
    ensures var p := Run(step, n, start);
            && p.off % PageSize == 0 && start <= p.off
            && ClonesWithin(p.actions, start, p.off)
            && (p.halt.None? ==> p.off == start + Extent(sizes, n))
    decreases n
  {
    if n > 0 {
      RunAccounts(step, sizes, n - 1, start);
      var q := Run(step, n - 1, start);
      if q.halt.None? {
        var s := step(n - 1, q.off);
        assert Accounts(s, q.off, sizes[n - 1]);
        ClonesAppend(q.actions, s.actions, start, q.off, s.off);
      }
    }
  }

  lemma {:induction false} RunNeverMisses(step: (nat, nat) -> Step, n: nat, start: nat)
    requires NeverMissing(step, n)
    ensures Run(step, n, start).halt.Some? ==> !Run(step, n, start).halt.value.InodeNotFound?
    decreases n
  {
    if n > 0 {
      RunNeverMisses(step, n - 1, start);
    }
  }

  /**
   * The accounting of the per-file loop: the offset stays page-aligned, a
   * run that has not stopped is at the start plus the whole pages of the
   * files cloned so far, every clone lies in its own extent, and when the
   * search finds every inode the run never stops with "not found".
   */
  lemma {:induction false} PlanAccounts(cfg: Config, files: seq<FileTags>, kept: seq<Ifi>, sizes: seq<Option<U32>>, n: nat, start: nat)
    requires SizesOf(files, kept, sizes) && n <= |files| && start % PageSize == 0
    ensures var p := Plan(cfg, files, kept, n, start);
            && p.off % PageSize == 0 && start <= p.off
            && ClonesWithin(p.actions, start, p.off)
            && (p.halt.None? ==> p.off == start + Extent(sizes, n))
            && (AllFound(files, kept) && p.halt.Some? ==> !p.halt.value.InodeNotFound?)
  {
    FileStepsAccount(cfg, files, kept, sizes);
    RunAccounts(StepsOf(cfg, files, kept), sizes, n, start);
    if AllFound(files, kept) {
      FileStepsFind(cfg, files, kept);
      RunNeverMisses(StepsOf(cfg, files, kept), n, start);
    }
  }

  /** One iteration of the loop, with what the loop needs to know about it. */
  method HandleFile(cfg: Config, files: seq<FileTags>, kept: seq<Ifi>, sizes: seq<Option<U32>>, i: nat, off: nat)
    returns (s: Step)
    requires i < |files| && SizesOf(files, kept, sizes) && AllFound(files, kept) && off % PageSize == 0
    ensures s == FileStep(cfg, files, kept, i, off)
    ensures s.halt.None? ==> s.off == off + Pages(sizes[i])
    ensures s.halt.Some? ==> !s.halt.value.InodeNotFound?
    ensures s.halt.Some? ==> s.off == off
    ensures s.off % PageSize == 0 && off <= s.off && ClonesWithin(s.actions, off, s.off)
  {
    s := FileStep(cfg, files, kept, i, off);
    StepClones(cfg, files, kept, i, off);
    assert sizes[i] == ClonedSize(files, kept, i);
    StepNotFound(cfg, files, kept, i, off);
    assert GroupHead(files, kept, i).Some?;
    match ClonedSize(files, kept, i) {
      case Some(size) => NextOffsetAligned(off, size);
      case None =>
    }
  }

  /** Step `k` of a completed run: its actions follow the first `k` steps' and start from their offset. */
  lemma {:induction false} RunIn(step: (nat, nat) -> Step, n: nat, k: nat, start: nat)
    requires k < n && Run(step, n, start).halt.None?
    ensures var q := Run(step, k, start);
            var s := step(k, q.off);
            && q.halt.None? && s.halt.None?
            && q.actions + s.actions <= Run(step, n, start).actions
  {
    RunPrefix(step, k + 1, n, start);
    RunPrefix(step, k, k + 1, start);
  }

  /** Step `k`, whenever it completes from offset `off`, needs `ok` and yields `want(off)`. */
  ghost predicate StepYields(step: (nat, nat) -> Step, k: nat, want: nat -> Action, ok: bool) {
    forall off: nat :: step(k, off).halt.None? ==> ok && want(off) in step(k, off).actions
  }

  /** What step `k` yields is among the actions of every completed longer run. */
  lemma {:induction false} RunYields(step: (nat, nat) -> Step, n: nat, k: nat, start: nat, want: nat -> Action, ok: bool)
    requires k < n && StepYields(step, k, want, ok)
    ensures Run(step, n, start).halt.None? ==>
              && Run(step, k, start).halt.None? && ok
              && want(Run(step, k, start).off) in Run(step, n, start).actions
  {
    if Run(step, n, start).halt.None? {
      RunIn(step, n, k, start);
      var q := Run(step, k, start);
      var s := step(k, q.off);
      assert want(q.off) in s.actions;
      var j :| 0 <= j < |s.actions| && s.actions[j] == want(q.off);
      assert (q.actions + s.actions)[|q.actions| + j] == want(q.off);
    }
  }

  /** The clone of `size` bytes of the file at `path`, from payload offset `off`. */
  ghost function CloneFrom(path: string, perms: int, force: bool, size: U32): nat -> Action {
    (off: nat) => Clone(path, perms, force, off, size + ClonePad(size), size)
  }

  /** The step of a file the run clones, inside the requested prefix, yields its clone. */
  lemma {:induction false} StepYieldsClone(cfg: Config, files: seq<FileTags>, kept: seq<Ifi>, k: nat, size: U32,
                                           path: string, perms: int)
    requires k < |files| && KeptIn(kept, |files|)
    requires InPrefix(cfg, files[k]) && ClonedSize(files, kept, k) == Some(size)
    requires perms == Perms(files[k].mode.value)
    requires files[k].name.Ok? ==> path == FullPath(cfg, files[k].dir.value, files[k].name.value)
    ensures StepYields(StepsOf(cfg, files, kept), k, CloneFrom(path, perms, cfg.force, size), files[k].name.Ok?)
  {
    forall off: nat | StepsOf(cfg, files, kept)(k, off).halt.None?
      ensures files[k].name.Ok? && CloneFrom(path, perms, cfg.force, size)(off) in StepsOf(cfg, files, kept)(k, off).actions
    {
      assert StepsOf(cfg, files, kept)(k, off) == FileStep(cfg, files, kept, k, off);
    }
  }

  /**
   * A file the run clones, inside the requested prefix, is cloned once the
   * run gets past it: from its full path, with its permission bits, from
   * the start plus the whole pages of the files before it, over its own
   * whole pages.
   */
  lemma {:induction false} CloneIn(cfg: Config, files: seq<FileTags>, kept: seq<Ifi>, sizes: seq<Option<U32>>,
                                   n: nat, k: nat, start: nat, size: U32)
    requires k < n <= |files| && SizesOf(files, kept, sizes) && start % PageSize == 0
    requires InPrefix(cfg, files[k]) && ClonedSize(files, kept, k) == Some(size)
    ensures Plan(cfg, files, kept, n, start).halt.None? ==>
              && files[k].name.Ok? && files[k].mode.Ok?
              && Clone(FullPath(cfg, files[k].dir.value, files[k].name.value), Perms(files[k].mode.value), cfg.force,
                       ExtentStart(sizes, k, start), size + ClonePad(size), size) in Plan(cfg, files, kept, n, start).actions
  {
    var path := if files[k].name.Ok? then FullPath(cfg, files[k].dir.value, files[k].name.value) else [];
    var perms := Perms(files[k].mode.value);
    StepYieldsClone(cfg, files, kept, k, size, path, perms);
    RunYields(StepsOf(cfg, files, kept), n, k, start, CloneFrom(path, perms, cfg.force, size), files[k].name.Ok?);
    PlanAccounts(cfg, files, kept, sizes, k, start);
    if Plan(cfg, files, kept, n, start).halt.None? {
      var q := Plan(cfg, files, kept, k, start);
      var c := CloneFrom(path, perms, cfg.force, size)(q.off);
      assert c == Clone(FullPath(cfg, files[k].dir.value, files[k].name.value), Perms(files[k].mode.value), cfg.force,
                        ExtentStart(sizes, k, start), size + ClonePad(size), size);
    }
  }

  /**
   * A regular, non-ghost file whose size can be read, and which is the first
   * file of any kind to carry its inode, is cloned at that size.
   */
  lemma {:induction false} HeadCloned(files: seq<FileTags>, inodes: seq<int>, k: nat)
    requires Inodes(files) == Ok(inodes) && k < |files|
    requires RegularFile(files[k]) && files[k].size.Ok? && FirstWithInode(inodes, k)
    ensures KeptIn(Groups(inodes), |files|)
    ensures ClonedSize(files, Groups(inodes), k) == Some(ToU32(files[k].size.value))
  {
    ClonedOncePerGroup(files, inodes, k);
  }

  /** The step of a later member of a hard-link group, inside the requested prefix, yields its link. */
  lemma {:induction false} StepYieldsLink(cfg: Config, files: seq<FileTags>, inodes: seq<int>, k: nat, link: Action, ok: bool)
    requires Inodes(files) == Ok(inodes) && k < |files|
    requires RegularFile(files[k]) && !FirstWithInode(inodes, k) && InPrefix(cfg, files[k])
    requires var j := FirstOf(inodes, k);
             && ok == (j < k && files[j].dir.Ok? && files[j].name.Ok? && files[k].name.Ok?)
             && (ok ==> link == Link(FullPath(cfg, files[j].dir.value, files[j].name.value),
                                     FullPath(cfg, files[k].dir.value, files[k].name.value)))
    ensures KeptIn(Groups(inodes), |files|)
    ensures StepYields(StepsOf(cfg, files, Groups(inodes)), k, (off: nat) => link, ok)
  {
    GroupsIn(inodes);
    var kept := Groups(inodes);
    ClonedOncePerGroup(files, inodes, k);
    forall off: nat | StepsOf(cfg, files, kept)(k, off).halt.None?
      ensures ok && link in StepsOf(cfg, files, kept)(k, off).actions
    {
      var s := FileStep(cfg, files, kept, k, off);
      assert StepsOf(cfg, files, kept)(k, off) == s;
      LinkTargetsFirst(cfg, files, inodes, k, off);
      var a :| a in s.actions && LinksToHead(cfg, files, kept, k, a)
               && a.path == FullPath(cfg, files[k].dir.value, files[k].name.value);
      assert a == link;
    }
  }

  /**
   * A later member of a hard-link group inside the requested prefix is
   * linked, once the run gets past it: from the full path of the group's
   * first file, which comes earlier, to its own full path.
   */
  lemma {:induction false} LinkAt(cfg: Config, files: seq<FileTags>, inodes: seq<int>, n: nat, k: nat, start: nat)
    requires Inodes(files) == Ok(inodes) && k < n <= |files|
    requires RegularFile(files[k]) && !FirstWithInode(inodes, k) && InPrefix(cfg, files[k])
    ensures KeptIn(Groups(inodes), |files|)
    ensures var kept := Groups(inodes);
            var j := FirstOf(inodes, k);
            Plan(cfg, files, kept, n, start).halt.None? ==>
              && j < k && files[j].dir.Ok? && files[j].name.Ok? && files[k].name.Ok?
              && Link(FullPath(cfg, files[j].dir.value, files[j].name.value),
                      FullPath(cfg, files[k].dir.value, files[k].name.value)) in Plan(cfg, files, kept, n, start).actions
  {
    var j := FirstOf(inodes, k);
    var ok := j < k && files[j].dir.Ok? && files[j].name.Ok? && files[k].name.Ok?;
    var link := if ok then Link(FullPath(cfg, files[j].dir.value, files[j].name.value),
                                FullPath(cfg, files[k].dir.value, files[k].name.value))
                else Link([], []);
    StepYieldsLink(cfg, files, inodes, k, link, ok);
    RunYields(StepsOf(cfg, files, Groups(inodes)), n, k, start, (off: nat) => link, ok);
  }

  // ----- Counting clones -----

  /** The clones among `acts`. */
  function CloneCount(acts: seq<Action>): (r: nat)
    ensures r <= |acts|
  {
    if acts == [] then 0 else CloneCount(acts[..|acts| - 1]) + (if acts[|acts| - 1].Clone? then 1 else 0)
  }

  lemma {:induction false} CloneCountAppend(a: seq<Action>, b: seq<Action>)
    ensures CloneCount(a + b) == CloneCount(a) + CloneCount(b)
    decreases |b|
  {
    if b == [] {
      assert a + b == a;
    } else {
      var ab := a + b;
      assert ab[..|ab| - 1] == a + b[..|b| - 1];
      assert ab[|ab| - 1] == b[|b| - 1];
      CloneCountAppend(a, b[..|b| - 1]);
    }
  }

  /** Actions whose only clone, if any, comes last hold at most one. */
  lemma {:induction false} CloneCountLast(acts: seq<Action>)
    requires forall p :: 0 <= p < |acts| && acts[p].Clone? ==> p == |acts| - 1
    ensures CloneCount(acts) == if exists p :: 0 <= p < |acts| && acts[p].Clone? then 1 else 0
  {
    if acts != [] {
      CloneCountNone(acts[..|acts| - 1]);
    }
  }

  lemma {:induction false} CloneCountNone(acts: seq<Action>)
    requires forall p :: 0 <= p < |acts| ==> !acts[p].Clone?
    ensures CloneCount(acts) == 0
    decreases |acts|
  {
    if acts != [] {
      CloneCountNone(acts[..|acts| - 1]);
    }
  }

  /** The sum of `marks` over the first `n` steps. */
  ghost function Total(marks: nat -> nat, n: nat): nat {
    if n == 0 then 0 else Total(marks, n - 1) + marks(n - 1)
  }

  /** Each of the first `n` steps, when it completes, makes as many clones as `marks` says. */
  ghost predicate StepsCount(step: (nat, nat) -> Step, marks: nat -> nat, n: nat) {
    forall i: nat, off: nat :: i < n && step(i, off).halt.None? ==> CloneCount(step(i, off).actions) == marks(i)
  }

  /** A completed run makes the clones its steps make, summed. */
  lemma {:induction false} RunCount(step: (nat, nat) -> Step, marks: nat -> nat, n: nat, start: nat)
    requires StepsCount(step, marks, n)
    ensures Run(step, n, start).halt.None? ==> CloneCount(Run(step, n, start).actions) == Total(marks, n)
    decreases n
  {
    if n > 0 && Run(step, n, start).halt.None? {
      var q := Run(step, n - 1, start);
      assert q.halt.None?;
      RunCount(step, marks, n - 1, start);
      CloneCountAppend(q.actions, step(n - 1, q.off).actions);
    }
  }

  /** One for a file whose step clones, a group head inside the requested prefix; none for the others. */
  ghost function HeadMarks(cfg: Config, files: seq<FileTags>, kept: seq<Ifi>): nat -> nat {
    (i: nat) => if i < |files| && KeptIn(kept, |files|) && ClonedSize(files, kept, i).Some? && InPrefix(cfg, files[i]) then 1 else 0
  }

  /** A step that completes makes one clone for a group head inside the prefix, and none otherwise. */
  lemma {:induction false} StepCloneCount(cfg: Config, files: seq<FileTags>, kept: seq<Ifi>, i: nat, off: nat)
    requires i < |files| && KeptIn(kept, |files|)
    ensures var s := FileStep(cfg, files, kept, i, off);
            s.halt.None? ==>
              CloneCount(s.actions) == if ClonedSize(files, kept, i).Some? && InPrefix(cfg, files[i]) then 1 else 0
  {
    CloneCountLast(FileStep(cfg, files, kept, i, off).actions);
  }

  /**
   * A completed run makes exactly one clone per group head inside the
   * requested prefix, and no other.
   */
  lemma {:induction false} PlanCloneCount(cfg: Config, files: seq<FileTags>, kept: seq<Ifi>, n: nat, start: nat)
    requires n <= |files| && KeptIn(kept, |files|)
    ensures var p := Plan(cfg, files, kept, n, start);
            p.halt.None? ==> CloneCount(p.actions) == Total(HeadMarks(cfg, files, kept), n)
  {
    forall i: nat, off: nat | i < n && StepsOf(cfg, files, kept)(i, off).halt.None?
      ensures CloneCount(StepsOf(cfg, files, kept)(i, off).actions) == HeadMarks(cfg, files, kept)(i)
    {
      assert StepsOf(cfg, files, kept)(i, off) == FileStep(cfg, files, kept, i, off);
      StepCloneCount(cfg, files, kept, i, off);
    }
    RunCount(StepsOf(cfg, files, kept), HeadMarks(cfg, files, kept), n, start);
  }

  /** One turn of the per-file loop, as the fold sees it. */
  method NextFile(cfg: Config, files: seq<FileTags>, kept: seq<Ifi>, sizes: seq<Option<U32>>,
                  start: nat, i: nat, acts: seq<Action>, off: nat) returns (s: Step)
    requires i < |files| && SizesOf(files, kept, sizes) && AllFound(files, kept) && off % PageSize == 0
    requires Plan(cfg, files, kept, i, start) == Step(acts, off, None)
    ensures s.halt.None? ==> Plan(cfg, files, kept, i + 1, start) == Step(acts + s.actions, s.off, None)
    ensures s.halt.Some? ==> Plan(cfg, files, kept, |files|, start) == Step(acts + s.actions, s.off, s.halt)
    ensures s.off % PageSize == 0
  {
    s := HandleFile(cfg, files, kept, sizes, i, off);
    assert StepsOf(cfg, files, kept)(i, off) == s;
    if s.halt.Some? {
      RunStops(StepsOf(cfg, files, kept), i + 1, |files|, start);
    }
  }

  /**
   * The per-file loop of `reflink_package` from the aligned payload start:
   * it runs until the files are done or a step stops, which is the fold
   * `Plan`. A completed run has advanced the offset by exactly the whole
   * pages of the cloned files, and the clones take disjoint aligned extents
   * in file order.
   */
  method PlanFiles(cfg: Config, files: seq<FileTags>, kept: seq<Ifi>, sizes: seq<Option<U32>>, start: nat)
    returns (r: Step)
    requires SizesOf(files, kept, sizes) && AllFound(files, kept) && start % PageSize == 0
    ensures r == Plan(cfg, files, kept, |files|, start)
    ensures r.off % PageSize == 0 && start <= r.off
    ensures r.halt.Some? ==> !r.halt.value.InodeNotFound?
    ensures r.halt.None? ==> r.off == start + Extent(sizes, |files|)
    ensures ClonesWithin(r.actions, start, r.off)
  {
    r := Step([], start, None);
    var i := 0;
    while i < |files| && r.halt.None?
      invariant i <= |files| && r.off % PageSize == 0
      invariant r.halt.None? ==> Plan(cfg, files, kept, i, start) == r
      invariant r.halt.Some? ==> Plan(cfg, files, kept, |files|, start) == r
    {
      var s := NextFile(cfg, files, kept, sizes, start, i, r.actions, r.off);
      r := Step(r.actions + s.actions, s.off, s.halt);
      i := i + 1;
    }
    PlanAccounts(cfg, files, kept, sizes, |files|, start);
  }

  /**
   * `reflink_package`, with the descriptor at `pos` just past the marker:
   * count the files, read every inode, group them, align the payload start,
   * then run the per-file loop.
   */
  method ReflinkPackage(cfg: Config, st: TagStore, pos: nat) returns (r: Step)
    ensures var nfiles := GetCount(st, TagBaseNames);
            nfiles >= 0 && Inodes(FilesOf(st, nfiles)).Ok? ==>
              var kept := Groups(Inodes(FilesOf(st, nfiles)).value);
              KeptIn(kept, nfiles) && r == Plan(cfg, FilesOf(st, nfiles), kept, nfiles, AlignUp(pos))
    ensures var nfiles := GetCount(st, TagBaseNames);
            nfiles >= 0 && Inodes(FilesOf(st, nfiles)).Fault? ==> r == Step([], pos, Some(Crash))
    ensures r.halt.None? ==>
              var nfiles := GetCount(st, TagBaseNames);
              && nfiles >= 0
              && var files := FilesOf(st, nfiles);
                 && Inodes(files).Ok?
                 && KeptIn(Groups(Inodes(files).value), nfiles)
                 && r.off == AlignUp(pos) + Extent(CloneSizes(files, Groups(Inodes(files).value)), nfiles)
    ensures r.halt.None? ==> r.off % PageSize == 0
    ensures ClonesWithin(r.actions, AlignUp(pos), r.off)
    ensures GetCount(st, TagBaseNames) < 0 ==> r == Step([], pos, Some(OutOfMemory))
    ensures r.halt.Some? ==> !r.halt.value.InodeNotFound?
  {
    var nfiles := GetCount(st, TagBaseNames);
    if nfiles < 0 {
      return Step([], pos, Some(OutOfMemory));
    }
    var files := FilesOf(st, nfiles);
    match Inodes(files) {
      case Fault =>
        return Step([], pos, Some(Crash));
      case Ok(inodes) =>
        GroupsIn(inodes);
        GroupsFindAll(files, inodes);
        r := PlanFiles(cfg, files, Groups(inodes), CloneSizes(files, Groups(inodes)), AlignUp(pos));
    }
  }
}

=== FILE: rpm.dfy ===
/**
 * The decisions `rpm_main` takes before and around the per-package work:
 * the fold of the parsed options into the `func` bit set and the settings
 * (`-i -U -q -p -l -d -c -a -r`, `--force`, `--only-prefix`, `--justfs`),
 * the check for a package operand, the installed-header directory, whether
 * packages come from that directory or from the command line, which branch
 * a package takes, and how an install picks the reflink or the cpio
 * payload. `getopt_long` itself is not modelled: the options arrive as a
 * sequence of already parsed values.
 */
module Rpm {
  import opened Base
  import opened Header
  import opened Tags
  import opened Reflink
  import Files

  /**
   * `enum rpm_functions_e`. `func` is only ever built from these bits and
   * read through them, so it is modelled as the set of bits it holds;
   * `Value` gives each bit's number.
   */
  datatype Bit = QueryBit | InstallBit | InfoBit | PackageBit | ListBit | DocBit | ConfigBit | AllBit

  function Value(b: Bit): int {
    match b
    case QueryBit => 1
    case InstallBit => 2
    case InfoBit => 4
    case PackageBit => 8
    case ListBit => 16
    case DocBit => 32
    case ConfigBit => 64
    case AllBit => 128
  }

  /** The bits that say install or query. */
  const ModeSet: set<Bit> := {QueryBit, InstallBit}

  /** `HEADER_DIR`: where installed package headers are kept, below the install root. */
  const HeaderDirName: string := "/usr/lib/sysimage/rpm-headers"

  /** One option as `getopt_long` returns it, with its argument where it takes one. */
  datatype Opt =
    | Ignore                    // --nodeps, --nodigest, --nosignature
    | Force                     // --force
    | OnlyPrefix(arg: string)   // --only-prefix DIR
    | JustFs                    // --justfs
    | Upgrade                   // -U
    | InstallOpt                // -i, --install
    | QueryOpt                  // -q, --query
    | PackageOpt                // -p
    | ListOpt                   // -l
    | DocOpt                    // -d
    | ConfigOpt                 // -c
    | AllOpt                    // -a
    | RootOpt(arg: string)      // -r DIR, --root DIR
    | Unknown                   // any other character

  /** What the options leave behind: `func`, `G.install_root`, `G.only_prefix`, `G.force` and `justfs`. */
  datatype Settings = Settings(func: set<Bit>, root: Option<string>, onlyPrefix: Option<string>, force: bool, justfs: bool)

  /** Nothing given yet: `func = 0`, all pointers NULL, all switches off. */
  const Initial: Settings := Settings({}, None, None, false, false)

  /** Either the settings reached, or `bb_show_usage()`, which exits. */
  datatype Parse = Parsed(s: Settings) | Usage

  /** The options that put a bit into `func`. */
  predicate SetsMode(o: Opt) {
    o.Upgrade? || o.InstallOpt? || o.QueryOpt? || o.PackageOpt? || o.ListOpt? || o.DocOpt? || o.ConfigOpt? || o.AllOpt?
  }

  /** The options that must come first: `-U` and `-q` refuse a `func` that is already set. */
  predicate Exclusive(o: Opt) {
    o.Upgrade? || o.QueryOpt?
  }

  /** The install/query bits the first mode option chooses: `-U` and `-i` install, `-q` queries. */
  function ModeBits(o: Opt): set<Bit> {
    if o.Upgrade? || o.InstallOpt? then {InstallBit}
    else if o.QueryOpt? then {QueryBit}
    else {}
  }

  /**
   * The `func` bits other than install, query and info that an option
   * turns on: `-p` the package bit, `-l` the list bit, `-d` and `-c` the
   * list bit and their own, `-a` the all bit.
   */
  predicate Adds(o: Opt, bit: Bit) {
    match bit
    case PackageBit => o.PackageOpt?
    case ListBit => o.ListOpt? || o.DocOpt? || o.ConfigOpt?
    case DocBit => o.DocOpt?
    case ConfigBit => o.ConfigOpt?
    case AllBit => o.AllOpt?
    case _ => false
  }

  /** The bits only `Adds` sets: all but install, query and info. */
  predicate PlainBit(bit: Bit) {
    !(bit.QueryBit? || bit.InstallBit? || bit.InfoBit?)
  }

  /** `G.install_root` after an option: `-r` sets it, `-a` falls through into `-r` with no argument. */
  function RootAfter(o: Opt, root: Option<string>): Option<string> {
    match o
    case RootOpt(a) => Some(a)
    case AllOpt => None
    case _ => root
  }

  // ----- the option loop -----

  /**
   * One turn of the `switch (opt)` in the option loop. `func` only grows;
   * it becomes non-empty exactly with a mode option; once set, its install
   * and query bits stay, and from empty the option's own mode bits are
   * chosen.
   */
  function Apply(s: Settings, o: Opt): (r: Parse)
    ensures r.Usage? <==> o.Unknown? || (Exclusive(o) && s.func != {})
    ensures r.Parsed? ==> s.func <= r.s.func
    ensures r.Parsed? ==> (r.s.func != {} <==> s.func != {} || SetsMode(o))
    ensures r.Parsed? && s.func != {} ==> r.s.func * ModeSet == s.func * ModeSet
    ensures r.Parsed? && s.func == {} ==> r.s.func * ModeSet == ModeBits(o)
    ensures r.Parsed? ==> r.s.root == RootAfter(o, s.root)
  {
    match o
    case Ignore => Parsed(s)
    case Force => Parsed(s.(force := true))
    case OnlyPrefix(a) => Parsed(s.(onlyPrefix := Some(a)))
    case JustFs => Parsed(s.(justfs := true))
    case Upgrade => if s.func != {} then Usage else Parsed(s.(func := {InstallBit}))
    case InstallOpt => Parsed(s.(func := if s.func == {} then {InstallBit} else s.func + {InfoBit}))
    case QueryOpt => if s.func != {} then Usage else Parsed(s.(func := {QueryBit}))
    case PackageOpt => Parsed(s.(func := s.func + {PackageBit}))
    case ListOpt => Parsed(s.(func := s.func + {ListBit}))
    case DocOpt => Parsed(s.(func := s.func + {ListBit, DocBit}))
    case ConfigOpt => Parsed(s.(func := s.func + {ListBit, ConfigBit}))
    case AllOpt => Parsed(s.(func := s.func + {AllBit}, root := None))
    case RootOpt(a) => Parsed(s.(root := Some(a)))
    case Unknown => Usage
  }

  /** Every other bit is on after an option exactly when it was on before or the option adds it. */
  lemma ApplyBit(s: Settings, o: Opt, bit: Bit)
    requires PlainBit(bit) && Apply(s, o).Parsed?
    ensures bit in Apply(s, o).s.func <==> bit in s.func || Adds(o, bit)
  {
  }

  /** The whole option loop, left to right; usage ends it. */
  function Fold(s: Settings, opts: seq<Opt>): (r: Parse)
    ensures r.Parsed? ==> s.func <= r.s.func
    decreases |opts|
  {
    if |opts| == 0 then Parsed(s)
    else
      match Apply(s, opts[0])
      case Usage => Usage
      case Parsed(t) => Fold(t, opts[1..])
  }

  /** `opts[k]` makes the loop show usage, given the `func` the loop started with. */
  predicate Rejected(func: set<Bit>, opts: seq<Opt>, k: nat)
    requires k < |opts|
  {
    opts[k].Unknown? || (Exclusive(opts[k]) && (func != {} || exists j :: 0 <= j < k && SetsMode(opts[j])))
  }

  /** Dropping the first option shifts the rejected positions by one. */
  lemma RejectedShift(s: Settings, opts: seq<Opt>, k: nat)
    requires 0 < k < |opts| && Apply(s, opts[0]).Parsed?
    ensures Rejected(s.func, opts, k) <==> Rejected(Apply(s, opts[0]).s.func, opts[1..], k - 1)
  {
    var t := Apply(s, opts[0]).s;
    assert opts[k] == opts[1..][k - 1];
    if exists j :: 0 <= j < k && SetsMode(opts[j]) {
      var j :| 0 <= j < k && SetsMode(opts[j]);
      if j > 0 {
        assert SetsMode(opts[1..][j - 1]);
      }
    }
    if exists j :: 0 <= j < k - 1 && SetsMode(opts[1..][j]) {
      var j :| 0 <= j < k - 1 && SetsMode(opts[1..][j]);
      assert SetsMode(opts[j + 1]);
    }
  }

  /**
   * The option loop shows usage exactly when an unknown option is given,
   * or `-U`/`-q` comes after an option that already set `func`.
   */
  lemma {:induction false} FoldUsage(s: Settings, opts: seq<Opt>)
    ensures Fold(s, opts).Usage? <==> exists k :: 0 <= k < |opts| && Rejected(s.func, opts, k)
    decreases |opts|
  {
    if |opts| > 0 {
      match Apply(s, opts[0])
      case Usage =>
        assert Rejected(s.func, opts, 0);
      case Parsed(t) =>
        FoldUsage(t, opts[1..]);
        assert !Rejected(s.func, opts, 0);
        if exists k :: 0 <= k < |opts| && Rejected(s.func, opts, k) {
          var k :| 0 <= k < |opts| && Rejected(s.func, opts, k);
          RejectedShift(s, opts, k);
        }
        if exists k :: 0 <= k < |opts| - 1 && Rejected(t.func, opts[1..], k) {
          var k :| 0 <= k < |opts| - 1 && Rejected(t.func, opts[1..], k);
          RejectedShift(s, opts, k + 1);
        }
    }
  }

  /** The first option that puts a bit into `func`, if any. */
  function FirstMode(opts: seq<Opt>): (r: Option<Opt>)
    ensures r.Some? ==> SetsMode(r.value) && r.value in opts
    ensures r.None? ==> forall k :: 0 <= k < |opts| ==> !SetsMode(opts[k])
  {
    if |opts| == 0 then None
    else if SetsMode(opts[0]) then Some(opts[0])
    else FirstMode(opts[1..])
  }

  /**
   * The first mode option decides between install and query: later
   * options never change those two bits (a later `-i` adds the info bit).
   */
  lemma {:induction false} FoldMode(s: Settings, opts: seq<Opt>)
    requires Fold(s, opts).Parsed?
    ensures Fold(s, opts).s.func * ModeSet
              == if s.func != {} then s.func * ModeSet
                 else if FirstMode(opts).Some? then ModeBits(FirstMode(opts).value) else {}
    decreases |opts|
  {
    if |opts| > 0 {
      var t := Apply(s, opts[0]).s;
      FoldMode(t, opts[1..]);
    }
  }

  /** A plain bit is on after the loop exactly when it was on before or some option adds it. */
  lemma {:induction false} FoldBit(s: Settings, opts: seq<Opt>, bit: Bit)
    requires PlainBit(bit) && Fold(s, opts).Parsed?
    ensures bit in Fold(s, opts).s.func <==> bit in s.func || exists k :: 0 <= k < |opts| && Adds(opts[k], bit)
    decreases |opts|
  {
    if |opts| > 0 {
      var t := Apply(s, opts[0]).s;
      ApplyBit(s, opts[0], bit);
      FoldBit(t, opts[1..], bit);
      if exists k :: 0 <= k < |opts| - 1 && Adds(opts[1..][k], bit) {
        var k :| 0 <= k < |opts| - 1 && Adds(opts[1..][k], bit);
        assert Adds(opts[k + 1], bit);
      }
      if exists k :: 0 <= k < |opts| && Adds(opts[k], bit) {
        var k :| 0 <= k < |opts| && Adds(opts[k], bit);
        if k > 0 {
          assert Adds(opts[1..][k - 1], bit);
        }
      }
    }
  }

  /** `-d` and `-c` imply `-l`: whenever one of them is given, the list bit is on. */
  lemma DocOrConfigLists(opts: seq<Opt>, k: nat)
    requires k < |opts| && (opts[k].DocOpt? || opts[k].ConfigOpt?) && Fold(Initial, opts).Parsed?
    ensures ListBit in Fold(Initial, opts).s.func
  {
    FoldBit(Initial, opts, ListBit);
    assert Adds(opts[k], ListBit);
  }

  /** The install root as a reference definition: the last `-r` or `-a` wins, `-a` clearing it. */
  function LastRoot(opts: seq<Opt>, root: Option<string>): Option<string>
    decreases |opts|
  {
    if |opts| == 0 then root
    else
      var o := opts[|opts| - 1];
      if o.RootOpt? then Some(o.arg)
      else if o.AllOpt? then None
      else LastRoot(opts[..|opts| - 1], root)
  }

  lemma {:induction false} LastRootCons(opts: seq<Opt>, root: Option<string>)
    requires |opts| > 0
    ensures LastRoot(opts, root) == LastRoot(opts[1..], RootAfter(opts[0], root))
    decreases |opts|
  {
    if |opts| > 1 {
      var o := opts[|opts| - 1];
      assert opts[1..][|opts| - 2] == o;
      if !(o.RootOpt? || o.AllOpt?) {
        LastRootCons(opts[..|opts| - 1], root);
        assert opts[..|opts| - 1][1..] == opts[1..][..|opts| - 2];
      }
    } else {
      assert opts[..0] == [];
    }
  }

  /** After the loop the install root is the one the last `-r` or `-a` left. */
  lemma {:induction false} FoldRoot(s: Settings, opts: seq<Opt>)
    requires Fold(s, opts).Parsed?
    ensures Fold(s, opts).s.root == LastRoot(opts, s.root)
    decreases |opts|
  {
    if |opts| > 0 {
      var t := Apply(s, opts[0]).s;
      FoldRoot(t, opts[1..]);
      LastRootCons(opts, s.root);
    }
  }

  /** `-r DIR -a` leaves no install root: `-a` overwrites it with its absent argument. */
  lemma AllClearsRoot(dir: string)
    ensures Fold(Initial, [RootOpt(dir), AllOpt]) == Parsed(Settings({AllBit}, None, None, false, false))
  {
    var a := Apply(Initial, RootOpt(dir)).s;
    assert Fold(Initial, [RootOpt(dir), AllOpt]) == Fold(a, [AllOpt]);
    assert Fold(a, [AllOpt]) == Fold(Apply(a, AllOpt).s, []);
  }

  /** `-qi` asks for the information printout: a later `-i` adds the info bit instead of installing. */
  lemma QueryInfoNotInstall()
    ensures Fold(Initial, [QueryOpt, InstallOpt]) == Parsed(Settings({QueryBit, InfoBit}, None, None, false, false))
  {
    var q := Apply(Initial, QueryOpt).s;
    assert Fold(Initial, [QueryOpt, InstallOpt]) == Fold(q, [InstallOpt]);
    assert Fold(q, [InstallOpt]) == Fold(Apply(q, InstallOpt).s, []);
  }

  // ----- after the loop -----

  /**
   * The option loop, then the operand check: without `-a` at least one
   * package operand must follow.
   */
  function Start(opts: seq<Opt>, operands: seq<string>): (r: Parse)
    ensures r.Parsed? ==> AllBit in r.s.func || |operands| > 0
    ensures r.Parsed? ==> Fold(Initial, opts) == r
  {
    match Fold(Initial, opts)
    case Usage => Usage
    case Parsed(t) => if AllBit !in t.func && |operands| == 0 then Usage else Parsed(t)
  }

  /** The operand check in terms of the options: usage without `-a` and without an operand. */
  lemma StartUsage(opts: seq<Opt>, operands: seq<string>)
    requires Fold(Initial, opts).Parsed?
    ensures Start(opts, operands).Usage? <==> |operands| == 0 && forall k :: 0 <= k < |opts| ==> !opts[k].AllOpt?
  {
    FoldBit(Initial, opts, AllBit);
    if exists k :: 0 <= k < |opts| && opts[k].AllOpt? {
      var k :| 0 <= k < |opts| && opts[k].AllOpt?;
      assert Adds(opts[k], AllBit);
    }
  }

  /** `G.header_dir`: the install root, or nothing, then `HEADER_DIR`. */
  function HeaderDir(root: Option<string>): (r: string)
    ensures |r| >= |HeaderDirName| && r[|r| - |HeaderDirName|..] == HeaderDirName
    ensures root.None? ==> r == HeaderDirName
  {
    (if root.Some? then root.value else "") + HeaderDirName
  }

  /**
   * The header directory guards a missing root, and so agrees with the
   * planner's prefix; the prefix as `reflink_package` writes it does not.
   */
  lemma HeaderDirUsesRoot(root: Option<string>)
    ensures HeaderDir(root) == Root(root) + HeaderDirName
    ensures RootAsWritten(None) + HeaderDirName != HeaderDir(None)
  {
    assert RootAsWritten(None)[0] == '(';
    assert HeaderDirName[0] == '/';
  }

  /** Packages come from the installed headers: a query without `-p`. */
  predicate FromHeaderDir(func: set<Bit>) {
    QueryBit in func && func + {PackageBit} != func
  }

  lemma FromHeaderDirMeaning(func: set<Bit>)
    ensures FromHeaderDir(func) <==> QueryBit in func && PackageBit !in func
  {
    if PackageBit !in func {
      assert PackageBit in func + {PackageBit};
    }
  }

  /** The branch a package takes once its tags are read. */
  datatype Branch = InstallBranch | QueryBranch | Unsupported

  function BranchOf(func: set<Bit>): (r: Branch)
    ensures r == InstallBranch <==> InstallBit in func
    ensures r == QueryBranch <==> InstallBit !in func && QueryBit in func
  {
    if InstallBit in func then InstallBranch
    else if QueryBit in func then QueryBranch
    else Unsupported
  }

  /**
   * The first mode option decides the branch: `-i`/`-U` install, `-q`
   * queries, and anything else (`-p`, `-l`, ... alone, or nothing) ends in
   * usage; packages are read from the installed headers exactly for a
   * query without `-p`.
   */
  lemma BranchOfOptions(opts: seq<Opt>, operands: seq<string>)
    requires Start(opts, operands).Parsed?
    ensures var func := Start(opts, operands).s.func;
            && (BranchOf(func) == InstallBranch <==> FirstMode(opts) == Some(InstallOpt) || FirstMode(opts) == Some(Upgrade))
            && (BranchOf(func) == QueryBranch <==> FirstMode(opts) == Some(QueryOpt))
            && (FromHeaderDir(func) <==>
                  FirstMode(opts) == Some(QueryOpt) && forall k :: 0 <= k < |opts| ==> !opts[k].PackageOpt?)
  {
    var func := Start(opts, operands).s.func;
    FoldMode(Initial, opts);
    assert InstallBit in func <==> InstallBit in func * ModeSet;
    assert QueryBit in func <==> QueryBit in func * ModeSet;
    if FirstMode(opts).Some? {
      var m := FirstMode(opts).value;
      assert InstallBit in ModeBits(m) <==> m.Upgrade? || m.InstallOpt?;
      assert QueryBit in ModeBits(m) <==> m.QueryOpt?;
    }
    FoldBit(Initial, opts, PackageBit);
    FromHeaderDirMeaning(Start(opts, operands).s.func);
    if exists k :: 0 <= k < |opts| && opts[k].PackageOpt? {
      var k :| 0 <= k < |opts| && opts[k].PackageOpt?;
      assert Adds(opts[k], PackageBit);
    }
  }

  /** The `func` value the list loop masks with `rpm_query_list_doc|rpm_query_list_config`. */
  function ListBits(func: set<Bit>): (r: int)
    ensures r == (if DocBit in func then Value(DocBit) else 0) + (if ConfigBit in func then Value(ConfigBit) else 0)
  {
    (if DocBit in func then Files.QueryListDoc else 0) + (if ConfigBit in func then Files.QueryListConfig else 0)
  }

  /**
   * `rpm -ql` lists every file, `-qd` the documentation, `-qc` the
   * configuration files, and `-qdc` both kinds.
   */
  lemma ListSelects(func: set<Bit>, flags: int)
    ensures Files.ListFilter(ListBits(func), flags) <==>
              || (DocBit !in func && ConfigBit !in func)
              || (DocBit in func && HasFlag(flags, FileDoc))
              || (ConfigBit in func && HasFlag(flags, FileConfig))
  {
    Files.ListFilterMeaning(ListBits(func), flags);
  }

  /**
   * What the planner is given: the settings, whether the user is not root,
   * and whether its paths carry the root as the code prints it.
   */
  function ConfigOf(s: Settings, nonRoot: bool, asWritten: bool): (c: Config)
    ensures c.root == s.root && c.onlyPrefix == s.onlyPrefix && c.force == s.force && c.nonRoot == nonRoot
    ensures c.asWritten == asWritten
  {
    Config(s.root, s.onlyPrefix, s.force, nonRoot, asWritten)
  }

  // ----- the install branch -----

  /** Where the payload of an installed package is read from. */
  datatype Payload = ReflinkPayload(pos: nat) | CpioPayload(pos: nat)

  /**
   * After the header, `xread` takes four bytes: the reflink marker sends
   * the package to `reflink_package` from the following byte; anything else
   * is put back and the cpio archive starts at `end`. A short read dies.
   */
  function PayloadAt(f: seq<byte>, end: nat): (r: Option<Payload>)
    ensures r.None? <==> end + 4 > |f|
    ensures r == Some(ReflinkPayload(end + 4)) <==> end + 4 <= |f| && f[end..end + 4] == BE32Bytes(ReflinkMarker)
    ensures r.Some? && r.value.CpioPayload? ==> r.value.pos == end
  {
    if end + 4 > |f| then None
    else
      BE32Bytes32(f[end..end + 4]);
      BE32RoundTrip(ReflinkMarker);
      if BE32(f[end..end + 4]) == ReflinkMarker then Some(ReflinkPayload(end + 4)) else Some(CpioPayload(end))
  }
}

=== FILE: search.dfy ===
/**
 * The C library's `bsearch`, as the applet uses it for both the tag index
 * and the inode table. The key is folded into `cmp`: `cmp(e)` is the value
 * the comparison callback returns for the key and element `e` (positive when
 * the key sorts after `e`).
 */
module Search {
  import opened Base

  function Sign(c: int): int {
    if c < 0 then -1 else if c == 0 then 0 else 1
  }

  /**
   * What the C standard asks of `bsearch`'s array: the elements that sort
   * before the key, those that match it and those that sort after it
   * appear in that order. Sortedness of the whole array is not needed.
   */
  ghost predicate Partitioned<T>(a: seq<T>, cmp: T -> int) {
    forall i, j :: 0 <= i < j < |a| ==> Sign(cmp(a[j])) <= Sign(cmp(a[i]))
  }

  /**
   * Halving search as glibc implements it: probe the middle of [lo, hi),
   * go left when the key sorts before the probe, right when after.
   */
  function Between<T>(a: seq<T>, cmp: T -> int, lo: nat, hi: nat): (r: Option<nat>)
    requires lo <= hi <= |a|
    ensures r.Some? ==> lo <= r.value < hi && cmp(a[r.value]) == 0
    decreases hi - lo
  {
    if lo == hi then None
    else
      var mid := (lo + hi) / 2;
      var c := cmp(a[mid]);
      if c < 0 then Between(a, cmp, lo, mid)
      else if c > 0 then Between(a, cmp, mid + 1, hi)
      else Some(mid)
  }

  /**
   * On a partitioned array the halving search misses only when no element
   * of [lo, hi) matches: each probe rules out the half it leaves.
   */
  lemma {:induction false} BetweenMisses<T>(a: seq<T>, cmp: T -> int, lo: nat, hi: nat)
    requires lo <= hi <= |a| && Partitioned(a, cmp) && Between(a, cmp, lo, hi).None?
    ensures forall i :: lo <= i < hi ==> cmp(a[i]) != 0
    decreases hi - lo
  {
    if lo < hi {
      var mid := (lo + hi) / 2;
      var c := cmp(a[mid]);
      if c < 0 {
        BetweenMisses(a, cmp, lo, mid);
        forall i | mid < i < hi
          ensures cmp(a[i]) != 0
        {
          assert Sign(cmp(a[i])) <= Sign(cmp(a[mid]));
        }
      } else {
        BetweenMisses(a, cmp, mid + 1, hi);
        forall i | lo <= i < mid
          ensures cmp(a[i]) != 0
        {
          assert Sign(cmp(a[mid])) <= Sign(cmp(a[i]));
        }
      }
    }
  }

  /** Any element found matches the key. */
  function BSearch<T>(a: seq<T>, cmp: T -> int): (r: Option<nat>)
    ensures r.Some? ==> r.value < |a| && cmp(a[r.value]) == 0
  {
    Between(a, cmp, 0, |a|)
  }

  /** On a partitioned array, nothing is found exactly when no element matches. */
  lemma BSearchMisses<T>(a: seq<T>, cmp: T -> int)
    requires Partitioned(a, cmp)
    ensures BSearch(a, cmp).None? <==> forall i :: 0 <= i < |a| ==> cmp(a[i]) != 0
  {
    if BSearch(a, cmp).None? {
      BetweenMisses(a, cmp, 0, |a|);
    }
  }

  /** Two partitioned runs stay partitioned when nothing in the first sorts after the key. */
  lemma PartitionedConcat<T>(a: seq<T>, b: seq<T>, cmp: T -> int)
    requires Partitioned(a, cmp) && Partitioned(b, cmp)
    requires forall i :: 0 <= i < |a| ==> cmp(a[i]) > 0
    ensures Partitioned(a + b, cmp)
  {
    var ab := a + b;
    forall i, j | 0 <= i < j < |ab|
      ensures Sign(cmp(ab[j])) <= Sign(cmp(ab[i]))
    {
      if j < |a| {
        assert ab[i] == a[i] && ab[j] == a[j];
      } else if i >= |a| {
        assert ab[i] == b[i - |a|] && ab[j] == b[j - |a|];
      } else {
        assert ab[i] == a[i];
      }
    }
  }
}

=== FILE: tags.dfy ===
/**
 * Typed tag accessors over a decoded package: `bsearch_rpmtag`,
 * `rpm_getstr`, `rpm_getint` and `rpm_getcount`. Each looks the tag up in
 * the merged index with the C library's `bsearch` and then reads the mapped
 * image at the record's absolute offset.
 */
module Tags {
  import opened Base
  import opened Search
  import opened Header

  // Value types of an index record.
  const CharType: int := 1
  const Int8Type: int := 2
  const Int16Type: int := 3
  const Int32Type: int := 4
  const StringType: int := 6
  const BinType: int := 7
  const StringArrayType: int := 8
  const I18nStringType: int := 9

  // Tags the applet reads.
  const TagName: int := 1000
  const TagVersion: int := 1001
  const TagRelease: int := 1002
  const TagSummary: int := 1004
  const TagDescription: int := 1005
  const TagBuildTime: int := 1006
  const TagBuildHost: int := 1007
  const TagSize: int := 1009
  const TagVendor: int := 1011
  const TagLicense: int := 1014
  const TagGroup: int := 1016
  const TagUrl: int := 1020
  const TagArch: int := 1022
  const TagFileSizes: int := 1028
  const TagFileModes: int := 1030
  const TagFileLinkTos: int := 1036
  const TagFileFlags: int := 1037
  const TagFileUserName: int := 1039
  const TagFileGroupName: int := 1040
  const TagSourceRpm: int := 1044
  const TagFileInodes: int := 1096
  const TagPrefixes: int := 1098
  const TagDirIndexes: int := 1116
  const TagBaseNames: int := 1117
  const TagDirNames: int := 1118
  const TagPayloadCompressor: int := 1125

  predicate IsStringKind(kind: int) {
    kind == StringType || kind == I18nStringType || kind == StringArrayType
  }

  /** Bits of the per-file flags (`RPMFILE_*`). */
  const FileConfig: int := 1
  const FileDoc: int := 2
  const FileGhost: int := 64

  /** Whether the single-bit flag `bit` is set in a flags value read as a C `int`. */
  predicate HasFlag(flags: int, bit: int)
    requires bit > 0
  {
    ToU32(flags) / bit % 2 == 1
  }

  /**
   * `bsearch_rpmtag`: `*key - item->tag` with an `int` key and a `uint32_t`
   * tag is an unsigned subtraction whose result is read back as an `int`.
   */
  function TagCmp(key: int, e: IndexEntry): int {
    ToInt32(ToU32(key - e.tag))
  }

  /** The comparison callback with the key bound, as bsearch sees it. */
  function KeyCmp(key: int): IndexEntry -> int {
    e => TagCmp(key, e)
  }

  lemma TagCmpZero(key: int, e: IndexEntry)
    ensures TagCmp(key, e) == 0 <==> e.tag == ToU32(key)
  {
    var d := key - e.tag;
    assert key == key / Two32 * Two32 + ToU32(key);
    if e.tag == ToU32(key) {
      assert d == key / Two32 * Two32;
      assert d % Two32 == 0;
    }
    if ToU32(d) == 0 {
      assert d == d / Two32 * Two32;
      assert key == e.tag + d / Two32 * Two32;
      assert ToU32(key) == e.tag;
    }
  }

  /** The record `bsearch` returns for `key`; a record it returns carries the key (as a `uint32_t`). */
  function FindTag(index: seq<IndexEntry>, key: int): (r: Option<nat>)
    ensures r.Some? ==> r.value < |index| && index[r.value].tag == ToU32(key)
  {
    var r := BSearch(index, KeyCmp(key));
    if r.Some? then
      TagCmpZero(key, index[r.value]);
      r
    else r
  }

  /** When the index is partitioned around the key, nothing is returned exactly when no record carries it. */
  lemma FindTagMisses(index: seq<IndexEntry>, key: int)
    requires Partitioned(index, KeyCmp(key))
    ensures FindTag(index, key).None? <==> forall i :: 0 <= i < |index| ==> index[i].tag != ToU32(key)
  {
    BSearchMisses(index, KeyCmp(key));
    forall i | 0 <= i < |index|
      ensures KeyCmp(key)(index[i]) == 0 <==> index[i].tag == ToU32(key)
    {
      TagCmpZero(key, index[i]);
    }
  }

  // ----- When is the merged index searchable? -----

  /** A tag that is far enough from the 32-bit limits for the comparator's subtraction not to wrap. */
  predicate Moderate(t: int) {
    -0x4000_0000 <= t < 0x4000_0000
  }

  /** Tags strictly increasing as signed 32-bit values, none of them extreme. */
  ghost predicate SortedTags(index: seq<IndexEntry>) {
    && (forall i :: 0 <= i < |index| ==> Moderate(ToInt32(index[i].tag)))
    && (forall i, j :: 0 <= i < j < |index| ==> ToInt32(index[i].tag) < ToInt32(index[j].tag))
  }

  lemma TagCmpSign(key: int, e: IndexEntry)
    requires Moderate(key) && Moderate(ToInt32(e.tag))
    ensures Sign(TagCmp(key, e)) == Sign(key - ToInt32(e.tag))
  {
    var t := ToInt32(e.tag);
    var d := key - t;
    assert -Two31 < d < Two31;
    assert key - e.tag == d || key - e.tag == d - Two32;
    if d >= 0 {
      assert ToU32(key - e.tag) == d;
    } else {
      assert ToU32(key - e.tag) == d + Two32;
    }
  }

  /** A sorted index meets bsearch's requirement for every moderate key. */
  lemma SortedIsPartitioned(index: seq<IndexEntry>, key: int)
    requires SortedTags(index) && Moderate(key)
    ensures Partitioned(index, KeyCmp(key))
  {
    forall i, j | 0 <= i < j < |index|
      ensures Sign(KeyCmp(key)(index[j])) <= Sign(KeyCmp(key)(index[i]))
    {
      TagCmpSign(key, index[i]);
      TagCmpSign(key, index[j]);
    }
  }

  /**
   * The merged index is the signature records followed by the main ones and
   * is never sorted as a whole. Each part sorted, and every (renumbered)
   * signature tag below the key, is enough for bsearch to find the key.
   */
  lemma MergedIndexSearchable(sig: seq<IndexEntry>, main: seq<IndexEntry>, key: int)
    requires SortedTags(sig) && SortedTags(main) && Moderate(key)
    requires forall i :: 0 <= i < |sig| ==> ToInt32(sig[i].tag) < key
    ensures Partitioned(sig + main, KeyCmp(key))
  {
    SortedIsPartitioned(sig, key);
    SortedIsPartitioned(main, key);
    forall i | 0 <= i < |sig|
      ensures KeyCmp(key)(sig[i]) > 0
    {
      TagCmpSign(key, sig[i]);
    }
    PartitionedConcat(sig, main, KeyCmp(key));
  }

  // ----- Strings -----

  /** How many NUL bytes `s` holds. */
  function NulCount(s: seq<byte>): nat {
    if s == [] then 0 else NulCount(s[..|s| - 1]) + if s[|s| - 1] == 0 then 1 else 0
  }

  /** `strlen` from `p`: the position of the NUL that ends the string at `p`. */
  function NulFrom(img: seq<byte>, p: nat): (r: Read<nat>)
    ensures r.Ok? ==> p <= r.value < |img|
    decreases |img| - p
  {
    if p >= |img| then Fault
    else if img[p] == 0 then Ok(p)
    else NulFrom(img, p + 1)
  }

  /** What `strlen` finds is the first NUL at or after `p`. */
  lemma {:induction false} NulFromFirst(img: seq<byte>, p: nat)
    requires NulFrom(img, p).Ok?
    ensures img[NulFrom(img, p).value] == 0
    ensures forall k :: p <= k < NulFrom(img, p).value ==> img[k] != 0
    decreases |img| - p
  {
    if img[p] != 0 {
      NulFromFirst(img, p + 1);
    }
  }

  /** `strlen` runs off the image exactly when no NUL follows `p`. */
  lemma {:induction false} NulFromFaults(img: seq<byte>, p: nat)
    ensures NulFrom(img, p).Fault? <==> forall k :: p <= k < |img| ==> img[k] != 0
    decreases |img| - p
  {
    if p < |img| && img[p] != 0 {
      NulFromFaults(img, p + 1);
    }
  }

  /** The loop `tmpstr += strlen(tmpstr) + 1`, run `n` times from `p`. */
  function SkipStrings(img: seq<byte>, p: nat, n: nat): (r: Read<nat>)
    ensures r.Ok? ==> p <= r.value
    ensures r.Ok? && n > 0 ==> p < r.value <= |img|
    decreases n
  {
    if n == 0 then Ok(p)
    else
      match NulFrom(img, p)
      case Fault => Fault
      case Ok(q) => SkipStrings(img, q + 1, n - 1)
  }

  lemma SkipStringsStep(img: seq<byte>, p: nat, n: nat)
    requires n > 0 && NulFrom(img, p).Ok?
    ensures SkipStrings(img, p, n) == SkipStrings(img, NulFrom(img, p).value + 1, n - 1)
  {
  }

  /** The C string at `p`: the bytes up to the next NUL. */
  function CString(img: seq<byte>, p: nat): (r: Read<seq<byte>>)
    ensures r.Ok? ==> p + |r.value| < |img|
    ensures r.Fault? <==> NulFrom(img, p).Fault?
  {
    match NulFrom(img, p)
    case Fault => Fault
    case Ok(q) => Ok(img[p..q])
  }

  /** A C string read from the image is NUL-free, stands at `p` and is followed by its NUL. */
  lemma CStringSpec(img: seq<byte>, p: nat)
    requires CString(img, p).Ok?
    ensures var s := CString(img, p).value;
            && img[p..p + |s|] == s && img[p + |s|] == 0
            && forall k :: 0 <= k < |s| ==> s[k] != 0
  {
    NulFromFirst(img, p);
  }

  lemma NulCountAppend(a: seq<byte>, b: seq<byte>)
    ensures NulCount(a + b) == NulCount(a) + NulCount(b)
    decreases |b|
  {
    if b == [] {
      assert a + b == a;
    } else {
      assert (a + b)[..|a + b| - 1] == a + b[..|b| - 1];
      assert (a + b)[|a + b| - 1] == b[|b| - 1];
      NulCountAppend(a, b[..|b| - 1]);
    }
  }

  lemma NulFreeCount(s: seq<byte>)
    requires forall k :: 0 <= k < |s| ==> s[k] != 0
    ensures NulCount(s) == 0
  {
    if s != [] {
      NulFreeCount(s[..|s| - 1]);
    }
  }

  /** One string with its terminator holds exactly one NUL. */
  lemma OneTerminator(img: seq<byte>, p: nat, q: nat)
    requires p <= q < |img| && img[q] == 0
    requires forall k :: p <= k < q ==> img[k] != 0
    ensures NulCount(img[p..q + 1]) == 1
  {
    var s := img[p..q + 1];
    assert s[..|s| - 1] == img[p..q];
    NulFreeCount(img[p..q]);
  }

  /** Skipping `n` strings passes exactly `n` NUL terminators and stops just after the last. */
  lemma {:induction false} SkipStringsCounts(img: seq<byte>, p: nat, n: nat)
    requires p <= |img| && SkipStrings(img, p, n).Ok?
    ensures NulCount(img[p..SkipStrings(img, p, n).value]) == n
    decreases n
  {
    if n > 0 {
      var q := NulFrom(img, p).value;
      var r := SkipStrings(img, q + 1, n - 1).value;
      assert SkipStrings(img, p, n).value == r;
      NulFromFirst(img, p);
      SkipStringsCounts(img, q + 1, n - 1);
      OneTerminator(img, p, q);
      assert img[p..r] == img[p..q + 1] + img[q + 1..r];
      NulCountAppend(img[p..q + 1], img[q + 1..r]);
    }
  }

  /** The read position of `rpm_getstr`: a negative index skips nothing. */
  function Skips(itemindex: int): nat {
    if itemindex < 0 then 0 else itemindex
  }

  /**
   * `rpm_getstr`: NULL (`Ok(None)`) when the tag is absent, when the index is
   * not below the record's count (compared as unsigned, so a negative index
   * usually is not), or when the record is not of a string type; otherwise
   * the position after `itemindex` NUL terminators from the record's
   * offset. Only the strings skipped on the way are read.
   */
  function GetStrAt(st: TagStore, tag: int, itemindex: int): (r: Read<Option<nat>>)
    ensures r == Ok(None) <==>
              || FindTag(st.index, tag).None?
              || ToU32(itemindex) >= st.index[FindTag(st.index, tag).value].count
              || !IsStringKind(st.index[FindTag(st.index, tag).value].kind)
    ensures r.Ok? && r.value.Some? ==>
              var e := st.index[FindTag(st.index, tag).value];
              e.tag == ToU32(tag) && SkipStrings(st.image, e.offset, Skips(itemindex)) == Ok(r.value.value)
    ensures r.Fault? <==>
              && FindTag(st.index, tag).Some?
              && var e := st.index[FindTag(st.index, tag).value];
                 ToU32(itemindex) < e.count && IsStringKind(e.kind) && SkipStrings(st.image, e.offset, Skips(itemindex)).Fault?
  {
    match FindTag(st.index, tag)
    case None => Ok(None)
    case Some(i) =>
      var e := st.index[i];
      if ToU32(itemindex) >= e.count then Ok(None)
      else if IsStringKind(e.kind) then
        var p :- SkipStrings(st.image, e.offset, Skips(itemindex));
        Ok(Some(p))
      else Ok(None)
  }

  /**
   * The string `rpm_getstr` yields, read in full up to its NUL, as `%s` and
   * `strlen` read it: NULL in the same cases, and a fault when the skip or
   * the read of the string itself runs off the image.
   */
  function GetStr(st: TagStore, tag: int, itemindex: int): (r: Read<Option<seq<byte>>>)
    ensures r == Ok(None) <==>
              || FindTag(st.index, tag).None?
              || ToU32(itemindex) >= st.index[FindTag(st.index, tag).value].count
              || !IsStringKind(st.index[FindTag(st.index, tag).value].kind)
    ensures r.Ok? && r.value.Some? ==>
              var e := st.index[FindTag(st.index, tag).value];
              && e.tag == ToU32(tag)
              && SkipStrings(st.image, e.offset, Skips(itemindex)).Ok?
              && CString(st.image, SkipStrings(st.image, e.offset, Skips(itemindex)).value) == Ok(r.value.value)
    ensures r.Fault? <==>
              || GetStrAt(st, tag, itemindex).Fault?
              || (GetStrAt(st, tag, itemindex).Ok? && GetStrAt(st, tag, itemindex).value.Some? &&
                  CString(st.image, GetStrAt(st, tag, itemindex).value.value).Fault?)
  {
    match GetStrAt(st, tag, itemindex)
    case Fault => Fault
    case Ok(None) => Ok(None)
    case Ok(Some(p)) =>
      var s :- CString(st.image, p);
      Ok(Some(s))
  }

  /** `rpm_getstr0`. */
  function GetStr0(st: TagStore, tag: int): Read<Option<seq<byte>>> {
    GetStr(st, tag, 0)
  }

  // ----- Integers -----

  /** `*(int8_t *)p`. */
  function Int8(b: byte): (r: int)
    ensures -0x80 <= r < 0x80
    ensures ToU32(r) % 0x100 == b
  {
    if b < 0x80 then b else b - 0x100
  }

  /**
   * `rpm_getint`: -1 when the tag is absent, the index is not below the
   * count (unsigned comparison) or the type is not an integer type; else the
   * element `itemindex` of the array at the record's offset: INT32 as a
   * signed big-endian word, INT16 as an unsigned big-endian half word, INT8
   * as a signed byte. A read outside the image faults.
   */
  function GetInt(st: TagStore, tag: int, itemindex: int): (r: Read<int>)
    ensures r.Ok? ==> -Two31 <= r.value < Two31
    ensures (|| FindTag(st.index, tag).None?
             || ToU32(itemindex) >= st.index[FindTag(st.index, tag).value].count
             || st.index[FindTag(st.index, tag).value].kind !in {Int8Type, Int16Type, Int32Type})
            ==> r == Ok(-1)
    ensures r.Ok? && FindTag(st.index, tag).Some? && ToU32(itemindex) < st.index[FindTag(st.index, tag).value].count ==>
              var e := st.index[FindTag(st.index, tag).value];
              && (e.kind == Int16Type ==> 0 <= r.value < 0x1_0000)
              && (e.kind == Int8Type ==> -0x80 <= r.value < 0x80)
  {
    match FindTag(st.index, tag)
    case None => Ok(-1)
    case Some(i) =>
      var e := st.index[i];
      var img := st.image;
      if ToU32(itemindex) >= e.count then Ok(-1)
      else if e.kind == Int32Type then
        var p := e.offset + itemindex * 4;
        if p < 0 || p + 4 > |img| then Fault else Ok(ToInt32(BE32(img[p..p + 4])))
      else if e.kind == Int16Type then
        var p := e.offset + itemindex * 2;
        if p < 0 || p + 2 > |img| then Fault else Ok(BE16(img[p..p + 2]))
      else if e.kind == Int8Type then
        var p := e.offset + itemindex;
        if p < 0 || p >= |img| then Fault else Ok(Int8(img[p]))
      else Ok(-1)
  }

  /** `rpm_getcount`: 0 for an absent tag, else the record's count read back as an `int`. */
  function GetCount(st: TagStore, tag: int): (r: int)
    ensures -Two31 <= r < Two31
    ensures FindTag(st.index, tag).None? ==> r == 0
    ensures FindTag(st.index, tag).Some? ==> ToU32(r) == st.index[FindTag(st.index, tag).value].count
  {
    match FindTag(st.index, tag)
    case None => 0
    case Some(i) => ToInt32(st.index[i].count)
  }

  /** On a searchable index, a tag no record carries counts zero. */
  lemma GetCountAbsent(st: TagStore, tag: int)
    requires Partitioned(st.index, KeyCmp(tag))
    requires forall i :: 0 <= i < |st.index| ==> st.index[i].tag != ToU32(tag)
    ensures GetCount(st, tag) == 0
  {
    FindTagMisses(st.index, tag);
  }

  // ----- Per-file strings -----

  /** A C string of the store as text, NULL kept as NULL. */
  function AsText(r: Read<Option<seq<byte>>>): Read<Option<string>> {
    match r
    case Fault => Fault
    case Ok(None) => Ok(None)
    case Ok(Some(bs)) => Ok(Some(Text(bs)))
  }

  /** `rpm_getstr(TAG_DIRNAMES, rpm_getint(TAG_DIRINDEXES, i))`, read in full. */
  function DirOf(st: TagStore, i: int): Read<Option<string>> {
    match GetInt(st, TagDirIndexes, i)
    case Fault => Fault
    case Ok(x) => AsText(GetStr(st, TagDirNames, x))
  }

  /**
   * What a `char *` into the image sees before anything reads it: the bytes
   * up to its NUL (`whole`), or, when no NUL follows, the bytes up to the
   * end of the image.
   */
  datatype CBytes = CBytes(bytes: seq<byte>, whole: bool)

  function StrAt(img: seq<byte>, p: nat): (r: CBytes)
    ensures r.whole <==> CString(img, p).Ok?
    ensures r.whole ==> CString(img, p) == Ok(r.bytes)
    ensures !r.whole ==> p >= |img| || r.bytes == img[p..]
    ensures forall k :: 0 <= k < |r.bytes| ==> r.bytes[k] != 0
  {
    match CString(img, p)
    case Ok(s) =>
      CStringSpec(img, p);
      CBytes(s, true)
    case Fault =>
      NulFromFaults(img, p);
      if p < |img| then CBytes(img[p..], false) else CBytes([], false)
  }

  /** `rpm_getstr(tag, i)` as a pointer whose string is not read yet. */
  function Located(st: TagStore, tag: int, i: int): (r: Read<Option<CBytes>>)
    ensures r.Fault? <==> GetStrAt(st, tag, i).Fault?
    ensures r == Ok(None) <==> GetStrAt(st, tag, i) == Ok(None)
    ensures r.Ok? && r.value.Some? ==> r.value.value == StrAt(st.image, GetStrAt(st, tag, i).value.value)
  {
    match GetStrAt(st, tag, i)
    case Fault => Fault
    case Ok(None) => Ok(None)
    case Ok(Some(p)) => Ok(Some(StrAt(st.image, p)))
  }

  /** The directory pointer `d` of file `i`: the index read, then `rpm_getstr` without reading the string. */
  function DirAt(st: TagStore, i: int): Read<Option<CBytes>> {
    match GetInt(st, TagDirIndexes, i)
    case Fault => Fault
    case Ok(x) => Located(st, TagDirNames, x)
  }

  /** A located string read in full, as `%s` reads it: a string with no NUL before the image ends faults. */
  function Whole(r: Read<Option<CBytes>>): (t: Read<Option<string>>)
    ensures t.Ok? <==> r.Ok? && (r.value.None? || r.value.value.whole)
    ensures t.Ok? && t.value.Some? ==> r.value.Some? && t.value.value == Text(r.value.value.bytes)
    ensures t == Ok(None) <==> r == Ok(None)
  {
    match r
    case Fault => Fault
    case Ok(None) => Ok(None)
    case Ok(Some(c)) => if c.whole then Ok(Some(Text(c.bytes))) else Fault
  }

  /** Reading a located string in full is reading what `rpm_getstr` yields. */
  lemma WholeLocated(st: TagStore, tag: int, i: int)
    ensures Whole(Located(st, tag, i)) == AsText(GetStr(st, tag, i))
  {
  }

  /** Reading the located directory in full is `DirOf`. */
  lemma WholeDirAt(st: TagStore, i: int)
    ensures Whole(DirAt(st, i)) == DirOf(st, i)
  {
    match GetInt(st, TagDirIndexes, i)
    case Fault =>
    case Ok(x) => WholeLocated(st, TagDirNames, x);
  }

  // ----- Round trips: arrays written in the image are read back -----

  ghost predicate NulFree(s: seq<byte>) {
    forall k :: 0 <= k < |s| ==> s[k] != 0
  }

  /** The store bytes of a string array: each string followed by its NUL. */
  function StringsBytes(strs: seq<seq<byte>>): seq<byte> {
    if strs == [] then [] else strs[0] + [0] + StringsBytes(strs[1..])
  }

  /** `img` holds `bs` at `p`. */
  ghost predicate HoldsAt(img: seq<byte>, p: nat, bs: seq<byte>) {
    p + |bs| <= |img| && img[p..p + |bs|] == bs
  }

  lemma {:induction false} NulFromRun(img: seq<byte>, p: nat, s: seq<byte>)
    requires HoldsAt(img, p, s + [0]) && NulFree(s)
    ensures NulFrom(img, p) == Ok(p + |s|)
    decreases |s|
  {
    assert img[p + |s|] == (s + [0])[|s|];
    if s != [] {
      assert img[p] == s[0];
      assert img[p + 1..p + 1 + |s[1..] + [0]|] == (s + [0])[1..];
      assert (s + [0])[1..] == s[1..] + [0];
      NulFromRun(img, p + 1, s[1..]);
    }
  }

  lemma HoldsAtSplit(img: seq<byte>, p: nat, a: seq<byte>, b: seq<byte>)
    requires HoldsAt(img, p, a + b)
    ensures HoldsAt(img, p, a) && HoldsAt(img, p + |a|, b)
  {
    assert img[p..p + |a|] == (a + b)[..|a|];
    assert img[p + |a|..p + |a| + |b|] == (a + b)[|a|..];
  }

  /** Where string `i` of an array starts, relative to the array. */
  function Start(strs: seq<seq<byte>>, i: nat): nat
    requires i <= |strs|
  {
    if i == 0 then 0 else |strs[0]| + 1 + Start(strs[1..], i - 1)
  }

  /** The image holds the C strings `strs` one after the other from `p`. */
  ghost predicate ArrayAt(img: seq<byte>, p: nat, strs: seq<seq<byte>>)
    decreases |strs|
  {
    strs == [] || (CString(img, p) == Ok(strs[0]) && ArrayAt(img, p + |strs[0]| + 1, strs[1..]))
  }

  /** The first string of an array held at `p` ends at its NUL, and the rest of the array follows. */
  lemma ArrayHead(img: seq<byte>, p: nat, strs: seq<seq<byte>>)
    requires HoldsAt(img, p, StringsBytes(strs))
    requires |strs| > 0 && NulFree(strs[0])
    ensures CString(img, p) == Ok(strs[0])
    ensures HoldsAt(img, p + |strs[0]| + 1, StringsBytes(strs[1..]))
  {
    var head := strs[0] + [0];
    assert StringsBytes(strs) == head + StringsBytes(strs[1..]);
    HoldsAtSplit(img, p, head, StringsBytes(strs[1..]));
    HoldsAtSplit(img, p, strs[0], [0]);
    NulFromRun(img, p, strs[0]);
  }

  /** The bytes of an array of NUL-free strings, held in the image, read back as those strings. */
  lemma {:induction false} HeldArrayAt(img: seq<byte>, p: nat, strs: seq<seq<byte>>)
    requires HoldsAt(img, p, StringsBytes(strs))
    requires forall j :: 0 <= j < |strs| ==> NulFree(strs[j])
    ensures ArrayAt(img, p, strs)
    decreases |strs|
  {
    if strs != [] {
      ArrayHead(img, p, strs);
      var rest := strs[1..];
      assert forall j :: 0 <= j < |rest| ==> NulFree(rest[j]) by {
        forall j | 0 <= j < |rest|
          ensures NulFree(rest[j])
        {
          assert rest[j] == strs[j + 1];
        }
      }
      HeldArrayAt(img, p + |strs[0]| + 1, rest);
    }
  }

  /** Skipping the first string of an array moves to the second. */
  lemma ArraySkipStep(img: seq<byte>, p: nat, strs: seq<seq<byte>>, i: nat)
    requires ArrayAt(img, p, strs) && 0 < i < |strs|
    ensures SkipStrings(img, p, i) == SkipStrings(img, p + |strs[0]| + 1, i - 1)
  {
    assert NulFrom(img, p) == Ok(p + |strs[0]|);
    SkipStringsStep(img, p, i);
  }

  lemma StartStep(img: seq<byte>, p: nat, strs: seq<seq<byte>>, i: nat)
    requires 0 < i < |strs|
    requires SkipStrings(img, p, i) == SkipStrings(img, p + |strs[0]| + 1, i - 1)
    requires SkipStrings(img, p + |strs[0]| + 1, i - 1) == Ok(p + |strs[0]| + 1 + Start(strs[1..], i - 1))
    ensures SkipStrings(img, p, i) == Ok(p + Start(strs, i))
  {
  }

  /** In an array at `p`, skipping `i` strings lands on the start of string `i`. */
  lemma {:induction false} SkipIntoArray(img: seq<byte>, p: nat, strs: seq<seq<byte>>, i: nat)
    requires ArrayAt(img, p, strs) && i < |strs|
    ensures SkipStrings(img, p, i) == Ok(p + Start(strs, i))
    decreases i
  {
    if i > 0 {
      ArraySkipStep(img, p, strs, i);
      SkipIntoArray(img, p + |strs[0]| + 1, strs[1..], i - 1);
      StartStep(img, p, strs, i);
    }
  }

  /** In an array at `p`, the C string at the start of string `i` is string `i`. */
  lemma {:induction false} StringAtStart(img: seq<byte>, p: nat, strs: seq<seq<byte>>, i: nat)
    requires ArrayAt(img, p, strs) && i < |strs|
    ensures CString(img, p + Start(strs, i)) == Ok(strs[i])
    decreases i
  {
    if i > 0 {
      StringAtStart(img, p + |strs[0]| + 1, strs[1..], i - 1);
      assert p + Start(strs, i) == p + |strs[0]| + 1 + Start(strs[1..], i - 1);
    }
  }

  /** Reading string `i` of an array held in the image gives that string. */
  lemma StringArrayRead(img: seq<byte>, p: nat, strs: seq<seq<byte>>, i: nat)
    requires HoldsAt(img, p, StringsBytes(strs))
    requires forall j :: 0 <= j < |strs| ==> NulFree(strs[j])
    requires i < |strs|
    ensures SkipStrings(img, p, i) == Ok(p + Start(strs, i))
    ensures CString(img, p + Start(strs, i)) == Ok(strs[i])
  {
    HeldArrayAt(img, p, strs);
    SkipIntoArray(img, p, strs, i);
    StringAtStart(img, p, strs, i);
  }

  /** `rpm_getstr` on a found string record, in terms of what the image holds. */
  lemma GetStrRead(st: TagStore, tag: int, i: nat, k: nat, pos: nat, s: seq<byte>)
    requires FindTag(st.index, tag) == Some(k)
    requires IsStringKind(st.index[k].kind) && i < st.index[k].count
    requires SkipStrings(st.image, st.index[k].offset, i) == Ok(pos)
    requires CString(st.image, pos) == Ok(s)
    ensures GetStr(st, tag, i) == Ok(Some(s))
  {
  }

  /** A string-typed record whose store holds the array `strs` yields its strings. */
  lemma GetStrOfArray(st: TagStore, tag: int, strs: seq<seq<byte>>, i: nat)
    requires FindTag(st.index, tag).Some?
    requires var e := st.index[FindTag(st.index, tag).value];
             IsStringKind(e.kind) && e.count == |strs| && HoldsAt(st.image, e.offset, StringsBytes(strs))
    requires forall j :: 0 <= j < |strs| ==> NulFree(strs[j])
    requires i < |strs|
    ensures GetStr(st, tag, i) == Ok(Some(strs[i]))
  {
    var k := FindTag(st.index, tag).value;
    GetStrOfArrayAt(st, tag, k, st.index[k].offset, strs, i);
  }

  lemma GetStrOfArrayAt(st: TagStore, tag: int, k: nat, off: nat, strs: seq<seq<byte>>, i: nat)
    requires FindTag(st.index, tag) == Some(k) && st.index[k].offset == off
    requires IsStringKind(st.index[k].kind) && st.index[k].count == |strs|
    requires HoldsAt(st.image, off, StringsBytes(strs))
    requires forall j :: 0 <= j < |strs| ==> NulFree(strs[j])
    requires i < |strs|
    ensures GetStr(st, tag, i) == Ok(Some(strs[i]))
  {
    var img := st.image;
    StringArrayRead(img, off, strs, i);
    GetStrRead(st, tag, i, k, off + Start(strs, i), strs[i]);
  }

  ghost predicate Int32Values(vs: seq<int>) {
    forall j :: 0 <= j < |vs| ==> -Two31 <= vs[j] < Two31
  }

  /** An INT32 array in the store: each value as four network-order bytes. */
  function Int32sBytes(vs: seq<int>): (r: seq<byte>)
    ensures |r| == 4 * |vs|
  {
    seq(4 * |vs|, j requires 0 <= j < 4 * |vs| => BE32Bytes(ToU32(vs[j / 4]))[j % 4])
  }

  /** An INT16 array in the store: each value as two network-order bytes. */
  function Int16sBytes(vs: seq<int>): (r: seq<byte>)
    requires forall j :: 0 <= j < |vs| ==> 0 <= vs[j] < 0x1_0000
    ensures |r| == 2 * |vs|
  {
    seq(2 * |vs|, j requires 0 <= j < 2 * |vs| => BE16Bytes(vs[j / 2])[j % 2])
  }

  /** An INT8 array in the store: each value as one two's-complement byte. */
  function Int8sBytes(vs: seq<int>): (r: seq<byte>)
    ensures |r| == |vs|
  {
    seq(|vs|, j requires 0 <= j < |vs| => ToU32(vs[j]) % 0x100)
  }

  lemma Int32Back(v: int)
    requires -Two31 <= v < Two31
    ensures ToInt32(ToU32(v)) == v
  {
    if v < 0 {
      assert ToU32(v) == v + Two32;
    }
  }

  lemma Int8Back(v: int)
    requires -0x80 <= v < 0x80
    ensures Int8(ToU32(v) % 0x100) == v
  {
    if v < 0 {
      assert ToU32(v) == v + Two32;
      assert (v + Two32) % 0x100 == v + 0x100;
    }
  }

  lemma SliceOfHeld(img: seq<byte>, p: nat, bs: seq<byte>, a: nat, b: nat)
    requires HoldsAt(img, p, bs) && a <= b <= |bs|
    ensures img[p + a..p + b] == bs[a..b]
  {
    forall k | a <= k < b
      ensures img[p + k] == bs[k]
    {
      assert img[p + k] == img[p..p + |bs|][k];
    }
  }

  lemma Int32sAt(vs: seq<int>, i: nat)
    requires i < |vs|
    ensures Int32sBytes(vs)[4 * i..4 * i + 4] == BE32Bytes(ToU32(vs[i]))
  {
    var bs := Int32sBytes(vs);
    forall k | 0 <= k < 4
      ensures bs[4 * i + k] == BE32Bytes(ToU32(vs[i]))[k]
    {
      assert (4 * i + k) / 4 == i && (4 * i + k) % 4 == k;
    }
  }

  lemma Int16sAt(vs: seq<int>, i: nat)
    requires forall j :: 0 <= j < |vs| ==> 0 <= vs[j] < 0x1_0000
    requires i < |vs|
    ensures Int16sBytes(vs)[2 * i..2 * i + 2] == BE16Bytes(vs[i])
  {
    var bs := Int16sBytes(vs);
    forall k | 0 <= k < 2
      ensures bs[2 * i + k] == BE16Bytes(vs[i])[k]
    {
      assert (2 * i + k) / 2 == i && (2 * i + k) % 2 == k;
    }
  }

  /** `rpm_getint` on a found INT32 record, in terms of the word the image holds. */
  lemma GetInt32Read(st: TagStore, tag: int, i: nat, w: seq<byte>)
    requires FindTag(st.index, tag).Some?
    requires var e := st.index[FindTag(st.index, tag).value];
             e.kind == Int32Type && i < e.count && |w| == 4 && HoldsAt(st.image, e.offset + 4 * i, w)
    ensures GetInt(st, tag, i) == Ok(ToInt32(BE32(w)))
  {
    assert i * 4 == 4 * i;
  }

  /** `rpm_getint` on a found INT16 record, in terms of the half word the image holds. */
  lemma GetInt16Read(st: TagStore, tag: int, i: nat, w: seq<byte>)
    requires FindTag(st.index, tag).Some?
    requires var e := st.index[FindTag(st.index, tag).value];
             e.kind == Int16Type && i < e.count && |w| == 2 && HoldsAt(st.image, e.offset + 2 * i, w)
    ensures GetInt(st, tag, i) == Ok(BE16(w))
  {
    assert i * 2 == 2 * i;
  }

  /** An INT32 record whose store holds `vs` yields each value, signed. */
  lemma GetIntOfInt32s(st: TagStore, tag: int, vs: seq<int>, i: nat)
    requires FindTag(st.index, tag).Some?
    requires var e := st.index[FindTag(st.index, tag).value];
             e.kind == Int32Type && e.count == |vs| && HoldsAt(st.image, e.offset, Int32sBytes(vs))
    requires Int32Values(vs) && i < |vs|
    ensures GetInt(st, tag, i) == Ok(vs[i])
  {
    var e := st.index[FindTag(st.index, tag).value];
    var w := BE32Bytes(ToU32(vs[i]));
    assert HoldsAt(st.image, e.offset + 4 * i, w) by {
      Int32sAt(vs, i);
      SliceOfHeld(st.image, e.offset, Int32sBytes(vs), 4 * i, 4 * i + 4);
    }
    GetInt32Read(st, tag, i, w);
    BE32RoundTrip(ToU32(vs[i]));
    Int32Back(vs[i]);
  }

  /** An INT16 record whose store holds `vs` yields each value, unsigned. */
  lemma GetIntOfInt16s(st: TagStore, tag: int, vs: seq<int>, i: nat)
    requires FindTag(st.index, tag).Some?
    requires forall j :: 0 <= j < |vs| ==> 0 <= vs[j] < 0x1_0000
    requires var e := st.index[FindTag(st.index, tag).value];
             e.kind == Int16Type && e.count == |vs| && HoldsAt(st.image, e.offset, Int16sBytes(vs))
    requires i < |vs|
    ensures GetInt(st, tag, i) == Ok(vs[i])
  {
    var e := st.index[FindTag(st.index, tag).value];
    var w := BE16Bytes(vs[i]);
    assert HoldsAt(st.image, e.offset + 2 * i, w) by {
      Int16sAt(vs, i);
      SliceOfHeld(st.image, e.offset, Int16sBytes(vs), 2 * i, 2 * i + 2);
    }
    GetInt16Read(st, tag, i, w);
    BE16RoundTrip(vs[i]);
  }

  /** An INT8 record whose store holds `vs` yields each value, signed. */
  lemma GetIntOfInt8s(st: TagStore, tag: int, vs: seq<int>, i: nat)
    requires FindTag(st.index, tag).Some?
    requires forall j :: 0 <= j < |vs| ==> -0x80 <= vs[j] < 0x80
    requires var e := st.index[FindTag(st.index, tag).value];
             e.kind == Int8Type && e.count == |vs| && HoldsAt(st.image, e.offset, Int8sBytes(vs))
    requires i < |vs|
    ensures GetInt(st, tag, i) == Ok(vs[i])
  {
    var e := st.index[FindTag(st.index, tag).value];
    SliceOfHeld(st.image, e.offset, Int8sBytes(vs), i, i + 1);
    Int8Back(vs[i]);
  }
}
